=== FILE: README.md ===
# DoMyService, modelled in Dafny

DoMyService is a marketplace that connects customers with local service
providers (plumbers, electricians, cleaners and so on). Its backend is a
FastAPI application over a relational database, and its frontend is a React
application. This project models the parts of both that carry the business
rules.

## Backend

- **Booking lifecycle.** A customer creates a booking for a provider. The
  provider accepts it (minting a six-digit acceptance code) or rejects it.
  An accepted job is either cancelled by the provider, or completed (minting
  a six-digit completion code). The customer checks the acceptance code,
  and reviews a completed job by quoting its completion code.
- **Saved providers and dashboard counts.** Each customer has a set of
  saved providers. Each dashboard shows counts over the bookings table.
- **Provider listing.** Customers browse a provider listing whose service
  name is read back out of the bio that sign-up writes.
- **Sign-up, login and profiles.** Sign-up and login work over a user table
  in which the phone number is unique. Customer and provider profiles can
  be created, updated in part, read and deleted.
- **Phone verification by one-time password (OTP).** Sending is throttled
  per phone and then handed to an SMS provider (Twilio, or MSG91 through
  its DLT or OTP API). Verifying consumes the stored code once. There is
  also a Twilio-only variant of the helpers.
- **Job codes.** Job codes are drawn until no live code holds them, kept
  for seven days, and redeemed once.
- **WhatsApp notifications.** Each booking event produces a WhatsApp
  message whose text is built from the booking.

## Frontend

- the HTTP client: its headers, error messages, query strings and stored
  token;
- the route guard;
- the translation context;
- the dashboard page: pagination, filters, the save toggle, and the
  provider's request and job lists;
- the provider profile dialog with its booking form and WhatsApp link;
- the OTP form with its six cells and resend countdown;
- the code-verification dialog;
- the review dialog.

## How the model is organised

- **One module per source file.** Shared wrappers are in `Common` and
  string operations are in `Strings`.
- **Database tables** are fields of the `Db.Database` class: sequences in
  insertion order where the code scans them, and maps where a key is
  unique.
- **Handlers.** Each handler that commits is specified by a pure function
  from the old tables to a `Step`, which holds the response (or the
  `HTTPException` it raises) and the new tables. The handler itself is a
  method on the database object, proved to perform exactly that step.
  Properties that relate several handlers are lemmas about the step
  functions.
- **React components** are classes whose fields are the component's state.
  Each event handler is a method.
- **Values from outside become parameters:** the acting user, the clock,
  random draws, what a `fetch` or a provider's HTTP call gives back, and
  what a callback passed in by a parent does.

Instants are whole seconds since the epoch, in UTC. An HTTP error is
`Err(Error(status, detail))`.

## Model

| member | source | states |
|---|---|---|
| Api.ConfigHeaders | frontend/src/services/api.js:7-13 | as written: without caller headers the request carries only the JSON content type; with them, the spread `...options` replaces the headers object by the caller's |
| Api.CallerHeadersDropContentType | frontend/src/services/api.js:7-13 | as written, a caller header such as X-Request-Id makes the request lose its JSON content type |
| Api.MergedHeaders | frontend/src/services/api.js:8-11 | corrected: the content type is always present, JSON unless the caller sets it, and every caller header is kept with its value and nothing else is added |
| Api.Authorized | frontend/src/services/api.js:15-19 | a non-empty stored token adds "Bearer <token>" as Authorization and touches no other header; without one the headers are unchanged |
| Api.RequestHeadersAsWritten | frontend/src/services/api.js:7-19 | as written: a request without headers of its own is sent as JSON; one with headers is sent with exactly those (no content type added); a stored token adds the bearer header either way |
| Api.RequestHeadersCarry | frontend/src/services/api.js:7-19 | corrected: with the merge, the headers sent always carry a content type, JSON by default, and the bearer token whenever one is stored; for a call without headers, the same headers as written |
| Api.ErrorMessage | frontend/src/services/api.js:24-33 | a failed answer's message is never empty: the body's detail when it has one, "Authentication failed" or "Not authenticated…" for 401/403, "HTTP <status>" otherwise |
| Api.Rewrite | frontend/src/services/api.js:37-44 | "Failed to fetch" becomes the backend-down message, any other message is rethrown as it is |
| Api.RequestReplies | frontend/src/services/api.js:4-46 | `request` resolves exactly for an answer with `ok` whose body is JSON; an `ok` answer whose body is not JSON throws the parse error; what it throws is never the raw "Failed to fetch", never empty for an HTTP error, and a network error's own message otherwise |
| Api.NumberParam | frontend/src/services/api.js:119-120 | a numeric filter is appended exactly when it is given and not 0 |
| Api.RatingParam | frontend/src/services/api.js:118 | the minimum rating is appended exactly when it is given and not 0 |
| Api.Present | frontend/src/services/api.js:114-120 | the appended parameters are exactly the candidates with a non-empty value, never more of them |
| Api.PresentKeepsOrder | frontend/src/services/api.js:114-120 | the appended parameters keep the candidates' order |
| Api.ParamsInOrder | frontend/src/services/api.js:114-120 | the parameters come in the order search, service, location, min_rating, skip, limit; a search is sent exactly when non-empty, and a skip of 0 is never sent |
| Api.Encode | frontend/src/services/api.js:122 | the query text is empty exactly when there are no parameters |
| Api.ProvidersQuery | frontend/src/services/api.js:122 | the query is empty exactly without parameters, and starts with '?' otherwise |
| Api.PresentSnoc | frontend/src/services/api.js:114-120 | filtering one more candidate is one more conditional append |
| Api.GetProvidersPath | frontend/src/services/api.js:113-124 | the path is the providers endpoint followed by the query |
| Api.AppendedParams | frontend/src/services/api.js:114-120 | the parameters are those of the six conditional appends in order |
| Api.CustomerBookingsPath | frontend/src/services/api.js:126-129 | the status filter is added to the path exactly when it is non-empty |
| Api.TokenStore.constructor | frontend/src/services/api.js:215-217 | a new store holds no token |
| Api.TokenStore.SetAuthToken | frontend/src/services/api.js:206-208 | after storing a token it is the one read back |
| Api.TokenStore.RemoveAuthToken | frontend/src/services/api.js:211-213 | after removal no token is stored and the client is not authenticated |
| Api.TokenStore.IsAuthenticated | frontend/src/services/api.js:219-221 | authenticated exactly when a non-empty token is stored |
| AuthSchemas.ValidateSignup | backend/auth/schemas.py:5-11 | a sign-up body is accepted exactly when phone has 10-15 characters, name 2-100, password 6-50 and user_type is "customer" or "provider"; location and service may be absent; a refused body is a 422 |
| AuthSchemas.ValidateLogin | backend/auth/schemas.py:13-15 | a login body is accepted exactly when phone has 10-15 and password 6-50 characters; otherwise 422 |
| AuthSchemas.SignupCredentialsPassLogin | backend/auth/schemas.py:5-15 | the phone and password of any accepted sign-up pass login validation |
| AuthSchemas.MakeToken | backend/auth/schemas.py:17-21 | a token without an explicit type is a "bearer" token; the other fields are carried as given |
| AuthService.FirstUserById | backend/auth/service.py:82 | the user found has the requested id and is in the table; no user is found only when none has that id |
| AuthService.FindAppended | backend/auth/service.py:17-33 | a user appended with a phone nobody else has is the one the phone lookup finds |
| AuthService.Register | backend/auth/service.py:16-57 | an already registered phone is refused with 400 "Phone number already registered" and changes nothing; otherwise exactly one user is appended with the next id and the requested role. A provider also gets a profile whose bio is "Experienced {service} in {location}". When that location does not fit `location_name` (255 characters, backend/auth/models.py:21), the second commit fails with 500 and the user row stays without a profile. Success holds exactly for a new phone whose profile fits, and the bearer token carries the role and name; valid user tables stay valid |
| AuthService.FailedProfileLeavesUser | backend/auth/service.py:16-44 | after a provider sign-up whose profile failed, the user can log in as a provider, no profile was written, and signing up again with the same phone is refused with 400 |
| AuthService.Login | backend/auth/service.py:59-79 | login succeeds exactly when a user has the phone and the password checks against its hash; an unknown phone and a wrong password give the same 401 "Invalid phone number or password"; the token carries the user's role and name |
| AuthService.RegisterThenLogin | backend/auth/service.py:16-79 | right after sign-up, logging in with the same phone and password succeeds and returns the role chosen at sign-up |
| AuthService.RegisterTwice | backend/auth/service.py:17-22 | a second sign-up with the same phone is refused |
| AuthService.GetUserById | backend/auth/service.py:81-88 | the lookup succeeds exactly when some user has the id, and returns that user; otherwise 404 "User not found" |
| AuthService.RegisterUser | backend/auth/service.py:16-57 | the method commits the user row and then the profile exactly as Register says, including the user row left behind by a failed profile, and keeps the database valid |
| Bookings.ParseStatus | backend/models/bookings.py:9-14 | a stored text reads back as a state exactly when it is one of the five status values, and the state read back stores that same text |
| Bookings.StatusRoundTrip | backend/models/bookings.py:9-14 | every state reads back from the text stored for it |
| Bookings.NewRow | backend/models/bookings.py:17-32 | an omitted status defaults to pending and an omitted booking type to "scheduled"; acceptance and completion codes start null; the key and phones are the ones given |
| Bookings.SixDigitCode | backend/models/bookings.py:30-32 | a draw in [100000, 999999] is stored as six decimal digits that read back as the draw, so it fits the six-character code columns |
| Bookings.SixDigitCodeInjective | backend/models/bookings.py:30-32 | two draws give the same code text only when they are the same number |
| Bookings.Lookup | backend/models/bookings.py:20 | the position found for an id is inside the table |
| Bookings.LookupIsIdFilter | backend/models/bookings.py:20 | on a table keyed by its auto-increment id, the row found has the requested id, and nothing is found only when no row has it |
| CodeGenerator.Spell | backend/utils/code_generator.py:14 | a draw of alphabet positions spells a code of the same length, character by character, from uppercase letters and digits |
| CodeGenerator.FirstFresh | backend/utils/code_generator.py:12-24 | the code returned has the requested length, uses only the alphabet and is held by no live (unused, unexpired) row; it is the first draw with that property, every earlier draw colliding with a live row; nothing is returned only when every draw collides |
| CodeGenerator.GenerateUniqueCode | backend/utils/code_generator.py:7-24 | the retry loop returns exactly the first draw that no live row holds |
| CodeGenerator.NewJobCode | backend/utils/code_generator.py:32-39 | the new row holds the code and provider, is unused, and expires seven days after creation |
| CodeGenerator.Insert | backend/utils/code_generator.py:41-43 | the insert succeeds exactly when the code is not yet a key; a success adds just that row, a failure changes nothing |
| CodeGenerator.CreateAddsOneLiveCode | backend/utils/code_generator.py:26-45 | a successful create adds one live row under a code that was not a key, of length six and from the alphabet, owned by the provider, and the table stays keyed by code |
| CodeGenerator.CreateJobCode | backend/utils/code_generator.py:26-45 | the method draws, builds and inserts the row as the functions above say, changing only the job-code table |
| CodeGenerator.Redeem | backend/utils/code_generator.py:47-64 | a code is redeemed exactly when it is live; an unknown, used or expired code gives nothing and changes nothing |
| CodeGenerator.RedeemMarksUsed | backend/utils/code_generator.py:58-62 | redeeming marks the row used at that instant, keeps its provider and expiry, and leaves every other row and the key set unchanged |
| CodeGenerator.RedeemTwiceFails | backend/utils/code_generator.py:52-58 | a code cannot be redeemed a second time, at any later instant |
| CodeGenerator.RedeemKeepsKeyed | backend/utils/code_generator.py:58-62 | redeeming keeps every row stored under its own code |
| CodeGenerator.CreatedCodeRedeemable | backend/utils/code_generator.py:26-64 | a freshly created code can be redeemed at any instant before its seven days run out, and not after |
| CodeGenerator.ValidateAndUseCode | backend/utils/code_generator.py:47-64 | the method returns the row and leaves the table exactly as Redeem says |
| CodeGenerator.UsedCodeCollides | backend/utils/code_generator.py:17-42 | as written: a draw equal to a used code is accepted by the loop, and inserting it violates the code's primary key |
| CodeGenerator.FirstFree | backend/utils/code_generator.py:12-24 | corrected loop: the code returned is no key of the table at all; nothing is returned only when every draw is a key |
| CodeGenerator.CreateFreeSucceeds | backend/utils/code_generator.py:26-45 | with the corrected loop the insert never fails: whenever some draw is new, one live row is added under a new key |
| CustomerProfiles.ValidateBody | backend/routes/customers.py:18-26 | a body is accepted exactly when address and preferences have at most 500 characters and location_name at most 255 (absent fields always pass); otherwise 422 |
| CustomerProfiles.Merge | backend/routes/customers.py:102-108 | each field supplied (not None) replaces the stored one; the fields not supplied and the user id keep their values |
| CustomerProfiles.Create | backend/routes/customers.py:38-75 | creation succeeds exactly for a customer without a profile; a non-customer gets 403 and an existing profile 400, both changing nothing; success stores exactly the body's fields under the caller's id |
| CustomerProfiles.Update | backend/routes/customers.py:77-113 | update succeeds exactly for a customer with a profile (403 otherwise for the role, 404 without a profile, no change); success stores the merged profile under the caller's id |
| CustomerProfiles.Get | backend/routes/customers.py:115-137 | the caller's own profile is returned exactly when the caller is a customer with a profile; otherwise 403 or 404 |
| CustomerProfiles.GetById | backend/routes/customers.py:139-155 | any profile is returned by id with no role check; an absent id gives 404 "Customer profile not found" |
| CustomerProfiles.Delete | backend/routes/customers.py:157-182 | deletion succeeds exactly for a customer with a profile and removes only that row; otherwise 403 or 404 and no change |
| CustomerProfiles.CreateThenGet | backend/routes/customers.py:38-155 | what a customer creates is what both read endpoints return, and a second create is refused |
| CustomerProfiles.UpdateIdempotent | backend/routes/customers.py:102-108 | an update that supplies nothing changes nothing, and repeating an update changes nothing more |
| CustomerProfiles.UpdateOnlyOwnRow | backend/routes/customers.py:95-110 | an update leaves every other customer's row as it was |
| CustomerProfiles.DeleteThenGet | backend/routes/customers.py:130-182 | after a delete the caller's profile reads as 404 and can be created again |
| CustomerProfiles.CreateProfile | backend/routes/customers.py:38-75 | the handler's answer and the new table are exactly those of Create, and the database stays valid |
| CustomerProfiles.UpdateProfile | backend/routes/customers.py:77-113 | writing the supplied fields one by one gives exactly the answer and table of Update, and the database stays valid |
| CustomerProfiles.DeleteProfile | backend/routes/customers.py:157-182 | the handler's answer and the new table are exactly those of Delete, and the database stays valid |
| Dashboard.CreateBooking | backend/routes/dashboard.py:125-192 | the committed bookings table and the response are those of `DashboardRules.CreateBooking` on the old table, and the table stays keyed with every row within its column widths |
| Dashboard.AcceptBooking | backend/routes/dashboard.py:497-536 | the new table and response are those of `DashboardRules.AcceptBooking` on the old table, and the table stays keyed |
| Dashboard.RejectBooking | backend/routes/dashboard.py:538-567 | the new table and response are those of `DashboardRules.RejectBooking`, and the table stays keyed |
| Dashboard.CancelAcceptedJob | backend/routes/dashboard.py:569-600 | the new table and response are those of `DashboardRules.CancelAcceptedJob`, and the table stays keyed |
| Dashboard.CompleteBooking | backend/routes/dashboard.py:730-770 | the new table and response are those of `DashboardRules.CompleteBooking`, and the table stays keyed |
| Dashboard.VerifyAcceptanceCode | backend/routes/dashboard.py:687-728 | writes nothing; succeeds exactly when the caller owns the ACCEPTED booking and gives its acceptance code, and answers as `DashboardRules.VerifyAcceptanceCode` |
| Dashboard.CreateReview | backend/routes/dashboard.py:779-858 | the new reviews table and response are those of `DashboardRules.CreateReview` on the old table |
| Dashboard.SaveProvider | backend/routes/dashboard.py:606-652 | the new saved set and response are those of `DashboardRules.SaveProvider` on the old set |
| Dashboard.UnsaveProvider | backend/routes/dashboard.py:654-685 | the new saved set and response are those of `DashboardRules.UnsaveProvider` on the old set |
| DashboardProperties.AcceptRejectExclusive | backend/routes/dashboard.py:510-555 | a booking once accepted can no longer be rejected, and once rejected can no longer be accepted |
| DashboardProperties.CancelCompleteExclusive | backend/routes/dashboard.py:581-586 | an accepted job once completed can no longer be cancelled, and once cancelled can no longer be completed (with lines 742-747) |
| DashboardProperties.FinalStates | backend/routes/dashboard.py:510-586 | REJECTED, COMPLETED and CANCELLED bookings admit no further transition (with lines 742-747) |
| DashboardProperties.OnlyOwnerMoves | backend/routes/dashboard.py:510-586 | a provider other than the one the booking names can neither accept, reject, cancel nor complete it (with lines 742-747) |
| DashboardProperties.TransitionsKeepTable | backend/routes/dashboard.py:497-600 | every provider transition keeps row ids in step with positions and every column within its width (with lines 730-770) |
| DashboardProperties.AcceptThenVerify | backend/routes/dashboard.py:497-536 | after an accept, the booking's customer passes verification exactly with the issued acceptance code, and learns the provider's phone (with lines 687-728) |
| DashboardProperties.VerifyBeforeCompletion | backend/routes/dashboard.py:710-802 | a booking whose acceptance code verifies is not yet reviewable |
| DashboardProperties.CompleteThenReview | backend/routes/dashboard.py:730-858 | after completion, the customer's first review with the issued completion code and a rating in range is accepted |
| DashboardProperties.ReviewOnce | backend/routes/dashboard.py:828-839 | a second identical review is refused with 400 and adds nothing |
| DashboardProperties.SaveThenUnsave | backend/routes/dashboard.py:606-685 | saving then unsaving the same provider succeeds and restores the saved set |
| DashboardProperties.SavedCountMoves | backend/routes/dashboard.py:113-116 | a successful save raises the caller's saved-providers count by one, a successful unsave lowers it by one (with lines 606-685) |
| DashboardProperties.CountAfterUpdate | backend/routes/dashboard.py:100-111 | replacing one row changes a booking count by exactly what that row contributed |
| DashboardProperties.CountAfterAppend | backend/routes/dashboard.py:100-111 | appending a row adds exactly what that row contributes to a booking count |
| DashboardProperties.AcceptMovesCounts | backend/routes/dashboard.py:370-389 | an accept moves one booking from the provider's pending requests to the accepted jobs and leaves every active count unchanged (with lines 497-536) |
| DashboardProperties.CompleteMovesCounts | backend/routes/dashboard.py:370-389 | a completion takes one job out of the provider's accepted jobs and out of both parties' active bookings (with lines 730-770) |
| DashboardProperties.CreateMovesCounts | backend/routes/dashboard.py:99-192 | a new booking adds one to the customer's active bookings and history and one to the provider's pending requests |
| DashboardRules.FirstProvider | backend/routes/dashboard.py:139-142 | the user found is a provider with that phone number, and None means no such provider exists |
| DashboardRules.FirstUserByPhone | backend/routes/dashboard.py:819-820 | the user found has that phone number, and None means no user has it |
| DashboardRules.Sentence | backend/routes/dashboard.py:161-164 | the leading sentence of a description is non-empty and has no surrounding whitespace |
| DashboardRules.BookingDescription | backend/routes/dashboard.py:160-164 | the stored description starts with the booking-type sentence, and is exactly that sentence when no description was given |
| DashboardRules.CreateBooking | backend/routes/dashboard.py:125-192 | succeeds exactly for a customer booking an existing provider with values that fit the booking columns (403 / 404 / 500 "value too long" otherwise, table unchanged); appends one PENDING row with the next id, the caller and the request's fields, the provider profile's location and a six-digit one-time code; keeps ids keyed and every row within its widths |
| DashboardRules.PendingRow | backend/routes/dashboard.py:169-180 | the new row carries the request's fields, PENDING, the location and the code, no acceptance or completion code, and fits its columns exactly when the request's values do |
| DashboardRules.AppendFits | backend/models/bookings.py:21-32 | appending a row that fits to a table whose rows fit keeps every row within the declared widths |
| DashboardRules.AcceptBooking | backend/routes/dashboard.py:497-536 | succeeds exactly for the provider of a PENDING booking (403 / 404 otherwise, table unchanged); only that row changes, to ACCEPTED with a six-digit acceptance code |
| DashboardRules.RejectBooking | backend/routes/dashboard.py:538-567 | succeeds exactly for the provider of a PENDING booking; only that row changes, to REJECTED |
| DashboardRules.CancelAcceptedJob | backend/routes/dashboard.py:569-600 | succeeds exactly for the provider of an ACCEPTED booking; only that row changes, to CANCELLED |
| DashboardRules.CompleteBooking | backend/routes/dashboard.py:730-770 | succeeds exactly for the provider of an ACCEPTED booking; only that row changes, to COMPLETED with a six-digit completion code |
| DashboardRules.VerifyAcceptanceCode | backend/routes/dashboard.py:687-728 | succeeds, returning the provider's phone, exactly when the caller owns the booking, it is ACCEPTED and the code is its acceptance code; 403 / 404 / 400 in the handler's order otherwise |
| DashboardRules.CreateReview | backend/routes/dashboard.py:779-858 | appends exactly one review, for the booking's provider and customer, exactly when every check of the handler passes (customer, own COMPLETED booking, matching code, rating in 1.0-5.0, both users exist, no earlier review); nothing otherwise |
| DashboardRules.SaveProvider | backend/routes/dashboard.py:606-652 | adds the (customer, provider) pair exactly when the caller is a customer, the provider exists and the pair is new; 403 / 404 / 400 otherwise with the set unchanged |
| DashboardRules.UnsaveProvider | backend/routes/dashboard.py:654-685 | removes the pair exactly when the caller is a customer and the pair is saved; 403 / 404 otherwise with the set unchanged |
| DashboardRules.CountBookings | backend/routes/dashboard.py:100-111 | a filtered count never exceeds the number of bookings |
| DashboardRules.CountReviews | backend/routes/dashboard.py:356-359 | a provider's review count never exceeds the number of reviews |
| DashboardRules.CountMonotone | backend/routes/dashboard.py:100-111 | a narrower status filter never counts more bookings |
| DashboardRules.CountSplit | backend/routes/dashboard.py:370-389 | counting over two disjoint status filters adds up, so active = pending + accepted |
| DashboardRules.ServedBound | backend/routes/dashboard.py:365-368 | the distinct customers served never outnumber the provider's completed bookings |
| DashboardRules.CustomerStats | backend/routes/dashboard.py:87-123 | only for customers (403 otherwise); active bookings are the caller's PENDING or ACCEPTED bookings, the history all the caller's bookings, the saved count the caller's saved pairs; active never exceeds history, which never exceeds the table |
| DashboardRules.ProviderStats | backend/routes/dashboard.py:343-399 | only for providers (403 otherwise); the review count is the reviews of the caller's id, customers served the distinct customers of the caller's completed bookings, pending and accepted the caller's bookings in those states; active = pending + accepted, customers served at most the completed bookings, review count at most the reviews |
| DashboardPage.TotalPages | frontend/src/pages/Dashboard.jsx:188 | the page count is the least number of six-card pages that hold every provider, zero exactly for no providers |
| DashboardPage.PageSlice | frontend/src/pages/Dashboard.jsx:184-187 | page p shows at most six providers, in order, starting with provider 6(p-1), and as many as remain up to six |
| DashboardPage.EveryProviderOnAPage | frontend/src/pages/Dashboard.jsx:184-188 | every provider is shown on a page between 1 and the page count |
| DashboardPage.OnlyOnePage | frontend/src/pages/Dashboard.jsx:184-187 | a provider shown on a page is shown on no other |
| DashboardPage.PagesInRange | frontend/src/pages/Dashboard.jsx:184-188 | a page shows providers exactly when it is at most the page count |
| DashboardPage.PaginationShown | frontend/src/pages/Dashboard.jsx:476 | the page buttons appear exactly for more than six providers |
| DashboardPage.NavigationStaysInRange | frontend/src/pages/Dashboard.jsx:476-505 | Previous and Next lead only to existing pages, and are disabled exactly on the first and last page |
| DashboardPage.RatingTenths | frontend/src/pages/Dashboard.jsx:113-167 | each offered minimum rating is 3.5, 4.0 or 4.5 |
| DashboardPage.BuildFilters | frontend/src/pages/Dashboard.jsx:163-167 | a filter is set exactly for a non-empty search and for a category, location or rating other than "all", holding the selected value |
| DashboardPage.NamedParam | frontend/src/services/api.js:114-120 | a named parameter is sent with value v exactly when its candidate holds v, non-empty |
| DashboardPage.SearchParam | frontend/src/pages/Dashboard.jsx:164 | the search is sent exactly when typed, with the typed text |
| DashboardPage.ServiceParam | frontend/src/pages/Dashboard.jsx:165 | the service is sent exactly when a category other than "all" is selected |
| DashboardPage.LocationParam | frontend/src/pages/Dashboard.jsx:166 | the location is sent exactly when one other than "all" is selected |
| DashboardPage.RatingText | frontend/src/pages/Dashboard.jsx:167 | a parsed rating goes out as its shortest decimal text ("4.0" as "4") |
| DashboardPage.MinRatingParam | frontend/src/pages/Dashboard.jsx:167 | the minimum rating is sent exactly when one other than "all" is selected, as that text |
| DashboardPage.ClearedQueryEmpty | frontend/src/pages/Dashboard.jsx:404-410 | with the filters cleared the providers request carries no query |
| DashboardPage.CategoryValue | frontend/src/pages/Dashboard.jsx:195-198 | the "All" pill selects "all", any other pill itself |
| DashboardPage.SaveToggle | frontend/src/pages/Dashboard.jsx:208-210 | every provider with that phone gets the saved flag `!isSaved`, the clicked card's flag negated, whatever its own flag was; every other provider is unchanged |
| DashboardPage.SaveToggleTwice | frontend/src/pages/Dashboard.jsx:200-214 | saving then unsaving a provider restores the list |
| DashboardPage.CustomerDashboard.constructor | frontend/src/pages/Dashboard.jsx:97-107 | empty search, every filter "all", page 1, no providers and no provider selected |
| DashboardPage.CustomerDashboard.CurrentProviders | frontend/src/pages/Dashboard.jsx:184-187 | the providers shown are the current page's slice |
| DashboardPage.CustomerDashboard.SetSearch | frontend/src/pages/Dashboard.jsx:340-343 | typing sets the search and returns to page 1 |
| DashboardPage.CustomerDashboard.SelectCategory | frontend/src/pages/Dashboard.jsx:195-198 | a pill selects its category and returns to page 1; "All" sends no service filter |
| DashboardPage.CustomerDashboard.SelectRating | frontend/src/pages/Dashboard.jsx:374-376 | an offered rating is selected and the page returns to 1 |
| DashboardPage.CustomerDashboard.SelectLocation | frontend/src/pages/Dashboard.jsx:390-392 | a location is selected and the page returns to 1 |
| DashboardPage.CustomerDashboard.ClearFilters | frontend/src/pages/Dashboard.jsx:404-410 | every filter returns to its initial value and page 1, so no filter is sent |
| DashboardPage.CustomerDashboard.ChangePage | frontend/src/pages/Dashboard.jsx:190-193 | the page becomes the one chosen |
| DashboardPage.CustomerDashboard.ReceiveProviders | frontend/src/pages/Dashboard.jsx:169-170 | the fetched list replaces the providers |
| DashboardPage.CustomerDashboard.SaveProvider | frontend/src/pages/Dashboard.jsx:200-226 | on success the list is `SaveToggle`d and an open provider with that phone also gets `!isSaved`; on failure nothing changes and the error is alerted |
| DashboardPage.GenerateUniqueCode | frontend/src/pages/Dashboard.jsx:582-584 | the code lies in 100000-999999 |
| DashboardPage.CodeHasSixDigits | frontend/src/pages/Dashboard.jsx:582-584 | the code has six decimal digits |
| DashboardPage.WithoutRequest | frontend/src/pages/Dashboard.jsx:600-606 | filtering keeps exactly the requests with another id |
| DashboardPage.WithoutJob | frontend/src/pages/Dashboard.jsx:612 | filtering keeps exactly the jobs with another id |
| DashboardPage.WithoutAbsentRequest | frontend/src/pages/Dashboard.jsx:600-606 | removing an absent id changes nothing |
| DashboardPage.WithoutUniqueRequest | frontend/src/pages/Dashboard.jsx:600-606 | removing an id held by one request removes exactly one |
| DashboardPage.Accepted | frontend/src/pages/Dashboard.jsx:593-598 | the accepted job keeps the request's details, with the new id, today's date and the code |
| DashboardPage.ProviderDashboard.constructor | frontend/src/pages/Dashboard.jsx:535-579 | the three sample requests and two sample jobs, every code six digits |
| DashboardPage.ProviderDashboard.AcceptRequest | frontend/src/pages/Dashboard.jsx:586-603 | the request moves to the accepted jobs with a code in 100000-999999, and no request with its id remains |
| DashboardPage.ProviderDashboard.RejectRequest | frontend/src/pages/Dashboard.jsx:605-609 | exactly the requests with that id are removed |
| DashboardPage.ProviderDashboard.CancelJob | frontend/src/pages/Dashboard.jsx:611-615 | exactly the jobs with that id are removed |
| LanguageContext.TableFor | frontend/src/contexts/LanguageContext.jsx:5-84 | a table exists exactly for "en", "hi" and "mr" |
| LanguageContext.Keys | frontend/src/contexts/LanguageContext.jsx:5-84 | the keys of a table, in order |
| LanguageContext.Lookup | frontend/src/contexts/LanguageContext.jsx:89-91 | a key is found exactly when the table has it, with a text the table pairs with it |
| LanguageContext.LookupEntry | frontend/src/contexts/LanguageContext.jsx:89-91 | with distinct keys, looking up an entry's key gives that entry's text |
| LanguageContext.SameKeys | frontend/src/contexts/LanguageContext.jsx:5-84 | the three tables have the same 24 keys in the same order |
| LanguageContext.DistinctKeys | frontend/src/contexts/LanguageContext.jsx:6-31 | no key appears twice |
| LanguageContext.FilledTables | frontend/src/contexts/LanguageContext.jsx:5-84 | every text is non-empty |
| LanguageContext.T | frontend/src/contexts/LanguageContext.jsx:89-91 | `t` gives the language's text for a key it has, and the key itself for a key it lacks |
| LanguageContext.TranslatesEveryKey | frontend/src/contexts/LanguageContext.jsx:5-91 | in each of the three languages every key translates to that language's text |
| LanguageContext.EchoesUnknownKey | frontend/src/contexts/LanguageContext.jsx:89-91 | an unknown key is shown as itself |
| LanguageContext.UseLanguage | frontend/src/contexts/LanguageContext.jsx:100-106 | the hook gives the context inside a provider and throws outside one |
| LanguageContext.LanguageProvider.constructor | frontend/src/contexts/LanguageContext.jsx:87 | English first |
| LanguageContext.LanguageProvider.SetLanguage | frontend/src/contexts/LanguageContext.jsx:87-94 | switching sets the language |
| LanguageContext.LanguageProvider.Translate | frontend/src/contexts/LanguageContext.jsx:89-91 | translates in the current language |
| ProtectedRoute.Render | frontend/src/components/ProtectedRoute.jsx:31-43 | a placeholder exactly while loading, the sign-in page exactly without a user, the unauthorized page exactly for a user of another role when a role is required, the page otherwise |
| ProtectedRoute.ChildrenOnlyForRole | frontend/src/components/ProtectedRoute.jsx:39-43 | without a required role any user sees the page; with one, exactly a user of that role |
| ProtectedRoute.RouteGuard.constructor | frontend/src/components/ProtectedRoute.jsx:6-7 | loading, no user |
| ProtectedRoute.RouteGuard.View | frontend/src/components/ProtectedRoute.jsx:31-43 | the guard renders `Render` of its state |
| ProtectedRoute.RouteGuard.CheckAuth | frontend/src/components/ProtectedRoute.jsx:10-26 | the backend is asked exactly when a token is stored; loading ends; a failure removes the token; the page shows only for a user the backend returned, and no user means the sign-in page |
| CodeVerificationModal.AcceptDigits | frontend/src/components/CodeVerificationModal.jsx:20-26 | the typed text, digits only, replaces the code when it fits the length and is dropped otherwise, so the code stays digits of at most that length |
| CodeVerificationModal.RetypeKeepsCode | frontend/src/components/CodeVerificationModal.jsx:20-26 | typing the current code again keeps it |
| CodeVerificationModal.FullCodeRefusesDigit | frontend/src/components/CodeVerificationModal.jsx:20-26 | a full code refuses one more digit |
| CodeVerificationModal.IncompleteMessage | frontend/src/components/CodeVerificationModal.jsx:30 | the refusal names the required number of digits |
| CodeVerificationModal.CodeForm.constructor | frontend/src/components/CodeVerificationModal.jsx:14-16 | the dialog opens with an empty code, no error and nothing in flight |
| CodeVerificationModal.CodeForm.HandleCodeChange | frontend/src/components/CodeVerificationModal.jsx:20-26 | the code becomes `AcceptDigits` of the typed text, and the error clears exactly when the text was accepted |
| CodeVerificationModal.CodeForm.VerifyEnabled | frontend/src/components/CodeVerificationModal.jsx:112 | the button is enabled exactly for a complete code, which is then all digits |
| CodeVerificationModal.CodeForm.HandleVerify | frontend/src/components/CodeVerificationModal.jsx:28-46 | the code is handed to `onVerify` exactly when complete; otherwise the form keeps it and shows the incomplete-code message; success clears the code and closes, failure keeps the code and shows the error |
| CodeVerificationModal.CodeForm.HandleKeyPress | frontend/src/components/CodeVerificationModal.jsx:48-52 | Enter submits exactly a complete code; any other key changes nothing |
| OtpModal.Blank | frontend/src/components/OtpModal.jsx:8 | six empty cells |
| OtpModal.Paste | frontend/src/components/OtpModal.jsx:24-33 | a pasted value fills the cells from the focused one on, one character each, up to the last cell, and leaves the others as they were |
| OtpModal.PasteFocus | frontend/src/components/OtpModal.jsx:36-37 | focus moves past the pasted characters, to the last cell at most |
| OtpModal.JoinComplete | frontend/src/components/OtpModal.jsx:59-61 | the joined code has six characters exactly when no cell is empty |
| OtpModal.PasteWholeCode | frontend/src/components/OtpModal.jsx:24-59 | pasting a six-character code into the first cell makes the joined code that code |
| OtpModal.Tick | frontend/src/components/OtpModal.jsx:14-21 | a positive timer counts down by one; at zero, resending is enabled |
| OtpModal.CountdownEnablesResend | frontend/src/components/OtpModal.jsx:11-21 | from a timer of t seconds, resending is enabled exactly after more than t ticks, and the timer stops at zero |
| OtpModal.ResendStaysEnabled | frontend/src/components/OtpModal.jsx:14-21 | once the timer is at zero, resending stays enabled |
| OtpModal.OtpForm.constructor | frontend/src/components/OtpModal.jsx:8-12 | blank cells, no error, a 60-second timer and resending disabled |
| OtpModal.OtpForm.HandleChange | frontend/src/components/OtpModal.jsx:23-49 | a paste fills the cells as `Paste` and moves focus as `PasteFocus`; a single digit or nothing sets that cell; anything else changes no cell; the error clears |
| OtpModal.OtpForm.HandleKeyDown | frontend/src/components/OtpModal.jsx:51-55 | Backspace on an empty cell after the first moves focus back one cell; nothing else moves it |
| OtpModal.OtpForm.VerifyEnabled | frontend/src/components/OtpModal.jsx:139 | the button is enabled exactly when nothing is in flight and no cell is empty |
| OtpModal.OtpForm.HandleSubmit | frontend/src/components/OtpModal.jsx:57-78 | the joined six-character code goes to `onVerify` exactly when no cell is empty, else "Please enter complete OTP"; a failure clears the cells and shows the error |
| OtpModal.OtpForm.HandleResend | frontend/src/components/OtpModal.jsx:80-97 | calls `onResend` exactly when resending is enabled, clearing the cells; success restarts the 60-second timer, failure keeps resending enabled and shows the error |
| OtpModal.OtpForm.CountDown | frontend/src/components/OtpModal.jsx:14-21 | one run of the timer effect is `Tick` |
| ProviderProfileModal.Hour24 | frontend/src/components/ProviderProfileModal.jsx:52-60 | a 12-hour slot's hour falls in 0-23, and in the morning exactly for AM |
| ProviderProfileModal.Hour24Injective | frontend/src/components/ProviderProfileModal.jsx:52-60 | two 12-hour slots with the same 24-hour hour are the same hour and period |
| ProviderProfileModal.FirstLater | frontend/src/components/ProviderProfileModal.jsx:50-67 | the slot found is one of the slots and later than now, and None means no slot is later |
| ProviderProfileModal.FirstLaterEarliest | frontend/src/components/ProviderProfileModal.jsx:50-67 | on ascending slots the slot found is the earliest one later than now |
| ProviderProfileModal.SlotsAscending | frontend/src/components/ProviderProfileModal.jsx:41-45 | the ten slots run hourly from 9:00 AM to 6:00 PM, ascending |
| ProviderProfileModal.DefaultSlot | frontend/src/components/ProviderProfileModal.jsx:47-70 | before 6 PM a later slot exists and the earliest later one is picked; from 6 PM on none exists, so the first slot is the default |
| ProviderProfileModal.NextSlot | frontend/src/components/ProviderProfileModal.jsx:51-67 | the loop returns `FirstLater` of the slots |
| ProviderProfileModal.CurrentSlot | frontend/src/components/ProviderProfileModal.jsx:34-71 | the default time is the first slot later than now, or the first slot when none is |
| ProviderProfileModal.BookingRequest | frontend/src/components/ProviderProfileModal.jsx:81-96 | no request for a scheduled booking missing its date or time; otherwise the provider, service, type and description, with a date and time exactly for a scheduled booking |
| ProviderProfileModal.ConfirmSendsRequest | frontend/src/components/ProviderProfileModal.jsx:82-85 | the confirm button is enabled, when idle, exactly when a request would be sent (with lines 307) |
| ProviderProfileModal.BookingForm.constructor | frontend/src/components/ProviderProfileModal.jsx:20-24 | an immediate booking with empty date, time and description, nothing in flight |
| ProviderProfileModal.BookingForm.Mount | frontend/src/components/ProviderProfileModal.jsx:74-77 | mounting sets today's date and the default slot's label |
| ProviderProfileModal.BookingForm.HandleBooking | frontend/src/components/ProviderProfileModal.jsx:81-105 | sends `BookingRequest` of the form; an incomplete schedule alerts and sends nothing; a failure alerts its message |
| ProviderProfileModal.WaNumber | frontend/src/components/ProviderProfileModal.jsx:117-122 | the WhatsApp number is the phone's digits, with 91 added exactly when they do not start with it |
| ProviderProfileModal.WaNumberIdempotent | frontend/src/components/ProviderProfileModal.jsx:119-120 | formatting twice is formatting once |
| ProviderProfileModal.WaNumberMatchesBackend | frontend/src/components/ProviderProfileModal.jsx:119-120 | for a digit phone the chat link and the backend's WhatsApp address name the same number |
| ReviewModal.Check | frontend/src/components/ReviewModal.jsx:25-33 | the form may be submitted exactly with a rating and, when required, a six-character code; the rating message comes first |
| ReviewModal.Payload | frontend/src/components/ReviewModal.jsx:38-43 | the payload carries the booking id, the code and the rating as given |
| ReviewModal.PayloadTrimmed | frontend/src/components/ReviewModal.jsx:42 | the comment goes out trimmed by JavaScript's `trim()`, and a whitespace-only comment goes out empty |
| ReviewModal.Submitted | frontend/src/components/ReviewModal.jsx:22-43 | a payload is handed over exactly when the checks pass |
| ReviewModal.Shown | frontend/src/components/ReviewModal.jsx:109 | the stars show the hovered star while there is one, the chosen rating otherwise |
| ReviewModal.Lit | frontend/src/components/ReviewModal.jsx:105-113 | five stars, star k lit exactly when k is at most the shown level |
| ReviewModal.PrefixCount | frontend/src/components/ReviewModal.jsx:105-113 | a row lit up to k has k stars lit |
| ReviewModal.LitStars | frontend/src/components/ReviewModal.jsx:105-113 | the lit stars are exactly the first ones, as many as the shown level |
| ReviewModal.ReviewForm.constructor | frontend/src/components/ReviewModal.jsx:13-18 | no rating, no hover, empty comment, code and error |
| ReviewModal.ReviewForm.ChooseRating | frontend/src/components/ReviewModal.jsx:109 | a click on a star sets that rating |
| ReviewModal.ReviewForm.HoverStar | frontend/src/components/ReviewModal.jsx:110-111 | entering a star hovers it, leaving the row clears the hover |
| ReviewModal.ReviewForm.SetComment | frontend/src/components/ReviewModal.jsx:139 | the comment becomes the typed text |
| ReviewModal.ReviewForm.HandleCodeChange | frontend/src/components/ReviewModal.jsx:57-62 | the code becomes the typed digits when at most six, and is kept otherwise |
| ReviewModal.ReviewForm.HandleSubmit | frontend/src/components/ReviewModal.jsx:22-55 | a failed check shows its message and keeps the form; otherwise `Submitted` goes out; success resets the form and closes, failure keeps it and shows the error |
| Models.NewProviderProfile | backend/routes/providers.py:65-72 | a new provider profile holds the given user id, bio and location, with rating 0.0, no completed jobs and not verified |
| OtpRoutes.RefusalError | backend/routes/otp.py:50-53 | each refusal raises its own status: 422 for a malformed field, 429 for the rate limit, 500 for a failed delivery, 400 for the four verification refusals (with lines 81-84, 145-188) |
| OtpRoutes.SendAnswer | backend/routes/otp.py:86-89 | send-otp answers only on success, with "OTP sent successfully to …" and five minutes |
| OtpRoutes.VerifyAnswer | backend/routes/otp.py:196-200 | verify-otp answers only on success, with the stripped phone and `verified` true |
| OtpRoutes.ValidateSend | backend/routes/otp.py:18-19 | a send request passes the schema exactly when the phone has 10 to 15 characters, and is otherwise a 422 |
| OtpRoutes.ValidateVerify | backend/routes/otp.py:21-23 | a verify request passes exactly when the phone has 10 to 15 characters and the code six, and is otherwise a 422 |
| OtpRoutes.NewestUnique | backend/routes/otp.py:116-120 | the newest matching record is unique |
| OtpRoutes.Latest | backend/routes/otp.py:116-120 | the lookup finds the newest matching unused record, and None exactly when no unused record matches |
| OtpRoutes.LatestSameKeys | backend/routes/otp.py:116-120 | the lookup depends only on what it filters and orders by |
| OtpRoutes.Issued | backend/routes/otp.py:63-69 | a new record is unused, has no attempts and expires five minutes after creation |
| OtpRoutes.Spent | backend/routes/otp.py:178-191 | a verified record is used, with one more attempt and every other field kept |
| OtpRoutes.Send | backend/routes/otp.py:30-89 | succeeds exactly for a valid request, a phone not sent a code in the last minute and a delivered message; a refusal leaves the table unchanged; success appends one fresh record for the stripped phone holding the generated code |
| OtpRoutes.SendKeepsValid | backend/routes/otp.py:63-84 | sending keeps every record either fresh or spent |
| OtpRoutes.SendThenSendIsThrottled | backend/routes/otp.py:43-53 | a second send to the same phone within a minute of a successful one is refused with 429 |
| OtpRoutes.FailedSendDoesNotThrottle | backend/routes/otp.py:78-80 | a failed delivery leaves no record behind, so it does not count towards the rate limit |
| OtpRoutes.Resend | backend/routes/otp.py:202-207 | resend-otp does exactly what send-otp does |
| OtpRoutes.Verify | backend/routes/otp.py:91-200 | verify-otp as written: a refusal leaves the table unchanged, and a malformed request is refused before the table is read |
| OtpRoutes.Consume | backend/routes/otp.py:101-200 | the lookup and checks of verify-otp leave the table unchanged whenever they refuse |
| OtpRoutes.VerifyWithoutMatch | backend/routes/otp.py:116-148 | with no unused record holding the phone and the code, the answer is "Invalid OTP" and nothing changes |
| OtpRoutes.VerifyNewest | backend/routes/otp.py:152-200 | on the newest matching record: expired is refused, attempts used up is refused, otherwise that record alone is marked used with one more attempt |
| OtpRoutes.VerifyKeepsValid | backend/routes/otp.py:177-192 | verifying keeps every record either fresh or spent |
| OtpRoutes.UnusedMatches | backend/routes/otp.py:116-120 | the records a verification may consume are exactly the unused ones holding the phone and code |
| OtpRoutes.VerifyConsumesOne | backend/routes/otp.py:190-192 | a successful verification consumes exactly one matching record |
| OtpRoutes.VerifyTwiceFails | backend/routes/otp.py:116-192 | a code, once verified, is refused the second time |
| OtpRoutes.SentIsNewest | backend/routes/otp.py:63-120 | the record a successful send adds is the newest unused one for its phone and code |
| OtpRoutes.SendThenVerify | backend/routes/otp.py:30-200 | sending a code and submitting it within five minutes succeeds |
| OtpRoutes.VerifyFresh | backend/routes/otp.py:116-200 | a fresh, unexpired six-digit code that is newest for its phone is accepted |
| OtpRoutes.AllDigitsStripped | backend/routes/otp.py:102 | a string of digits has no surrounding whitespace to strip |
| OtpRoutes.AttemptLimitNeverFires | backend/routes/otp.py:116-188 | as written, the attempt limit is never the answer in a table the endpoints produce |
| OtpRoutes.ReplayUnchanged | backend/routes/otp.py:116-148 | guesses that each leave the table unchanged leave it unchanged in sequence |
| OtpRoutes.WrongGuessesLeaveNoTrace | backend/routes/otp.py:116-148 | as written, any number of wrong codes leave the table unchanged |
| OtpRoutes.UnlimitedGuesses | backend/routes/otp.py:116-188 | as written, the right code is still accepted after any number of wrong guesses |
| OtpRoutes.VerifyCounted | backend/routes/otp.py:152-200 | the corrected verification looks the newest unused record up by phone alone; it never changes the table's size, and refuses a malformed request without touching the table |
| OtpRoutes.ConsumeCounted | backend/routes/otp.py:152-200 | the corrected lookup and checks never change the table's size |
| OtpRoutes.ConsumeCountedNewest | backend/routes/otp.py:158-192 | on the newest unused record: expired or exhausted is refused, a wrong code raises its attempts and reports the remaining ones, the right code spends it |
| OtpRoutes.CountedWithoutRecord | backend/routes/otp.py:122-148 | the corrected verification answers "Invalid OTP" when the phone has no unused record |
| OtpRoutes.CountedNewest | backend/routes/otp.py:158-192 | the corrected verification on the newest unused record, for a validated request |
| OtpRoutes.Bump | backend/routes/otp.py:178 | a wrong guess raises the attempt count by one below the limit and never lowers it |
| OtpRoutes.BumpN | backend/routes/otp.py:178 | the attempt count never falls over a run of wrong guesses |
| OtpRoutes.BumpNReachesLimit | backend/routes/otp.py:168-178 | enough wrong guesses always reach the limit |
| OtpRoutes.NewestAfterCount | backend/routes/otp.py:178-182 | counting an attempt keeps the newest record the newest |
| OtpRoutes.CountedWrongGuess | backend/routes/otp.py:177-188 | one wrong guess raises the newest record's attempts and changes nothing else |
| OtpRoutes.ReplayCounts | backend/routes/otp.py:177-188 | a run of counted guesses raises the newest record's attempts once per guess |
| OtpRoutes.WrongGuessesCounted | backend/routes/otp.py:167-188 | under the corrected verification, wrong guesses are counted on the newest record, up to the limit |
| OtpRoutes.LockedOutAfterMaxWrongGuesses | backend/routes/otp.py:167-173 | under the corrected verification, after MAX_OTP_ATTEMPTS wrong guesses even the right code is refused |
| OtpRoutes.CountedAcceptsRightCode | backend/routes/otp.py:116-200 | when every unused record of the phone holds the submitted code, the corrected and the as-written verification agree |
| OtpRoutes.LatestAgrees | backend/routes/otp.py:116-120 | when every unused record of the phone holds the code, looking up by phone alone finds the same record |
| OtpRoutes.SendOtp | backend/routes/otp.py:30-89 | the committed table and the answer are those of `Send`, and every record stays fresh or spent |
| OtpRoutes.ResendOtp | backend/routes/otp.py:202-207 | the committed table and the answer are those of `Resend` |
| OtpRoutes.VerifyOtp | backend/routes/otp.py:91-200 | the committed table and the answer are those of `Verify`, and every record stays fresh or spent |
| OtpService.DigitOf | backend/utils/otp_service.py:25 | a draw below ten becomes a decimal digit |
| OtpService.GenerateOtp | backend/utils/otp_service.py:23-25 | the code has one character per draw, every one a digit, and the digit at each position is that position's draw |
| OtpService.DrawsOf | backend/utils/otp_service.py:25 | a digit string gives one draw below ten per character |
| OtpService.EveryCodePossible | backend/utils/otp_service.py:23-25 | every digit string is the code of some draws, so every code can come out |
| OtpService.OtpExpiry | backend/utils/otp_service.py:210-213 | the expiry is a timezone-aware instant five minutes after now |
| OtpService.IsOtpExpired | backend/utils/otp_service.py:215-226 | a code is expired exactly when now is past its expiry |
| OtpService.ExpiryWindow | backend/utils/otp_service.py:210-226 | a code issued at t is live exactly until t + 300 seconds, inclusive |
| OtpService.ChannelFor | backend/utils/otp_service.py:80-97 | Twilio is used exactly when the configured provider is "TWILIO", MSG91 otherwise |
| OtpService.Cleaned | backend/utils/otp_service.py:42-112 | the cleaned number has no '+' or space, and every character of it comes from the input |
| OtpService.CleanedIdempotent | backend/utils/otp_service.py:42-112 | cleaning twice is cleaning once |
| OtpService.TwilioFormat | backend/utils/otp_service.py:41-46 | the Twilio number starts with "+91": "+" before a cleaned number already starting with 91, "+91" before any other |
| OtpService.TwilioNumber | backend/utils/otp_service.py:41-46 | the formatting step computes `TwilioFormat` |
| OtpService.TwilioFormatIdempotent | backend/utils/otp_service.py:41-46 | formatting an already formatted number changes nothing |
| OtpService.Msg91Format | backend/utils/otp_service.py:111-114 | the MSG91 number starts with 91: the cleaned number itself or 91 before it |
| OtpService.OtpApiMobile | backend/utils/otp_service.py:162 | the OTP API number is the MSG91 number without its leading 91 |
| OtpService.OtpApiGetsNationalNumber | backend/utils/otp_service.py:111-162 | a cleaned number without the country code reaches the OTP API unchanged |
| OtpService.Msg91Numbers | backend/utils/otp_service.py:111-162 | computes the SMS API and OTP API numbers as `Msg91Format` and `OtpApiMobile` |
| OtpService.DltSucceeded | backend/utils/otp_service.py:144-152 | the DLT SMS API counts as delivered exactly for status 200 and a body mentioning neither "error" nor "invalid" in any case |
| OtpService.OtpApiSucceeded | backend/utils/otp_service.py:180-187 | the OTP API counts as delivered exactly for status 200 and JSON type "success" |
| OtpService.Msg91Sent | backend/utils/otp_service.py:120-205 | MSG91 delivery is never reported without status 200 |
| OtpService.ErrorBodyFails | backend/utils/otp_service.py:147 | a body starting with "ERROR" is never a delivery |
| ProviderCards.Ratings | backend/routes/dashboard.py:215-218 | a provider's ratings are exactly as many as its reviews, and each comes from one of its reviews |
| ProviderCards.SumBounds | backend/routes/dashboard.py:215 | a sum of values within [lo, hi] lies within [n·lo, n·hi] |
| ProviderCards.AverageBounds | backend/routes/dashboard.py:215 | the average of a non-empty list of values within [lo, hi] lies within [lo, hi] |
| ProviderCards.RatingInRange | backend/routes/dashboard.py:215-279 | with every review rated 1.0-5.0, a provider's average is 0.0 without reviews and within 1.0-5.0 otherwise |
| ProviderCards.RowOf | backend/routes/dashboard.py:209-220 | a joined row carries the user's id, phone and name, no bio or location without a profile, and the provider's review count |
| ProviderCards.JoinRows | backend/routes/dashboard.py:209-220 | one row per user whose role is provider, and only those |
| ProviderCards.FilterRows | backend/routes/dashboard.py:222-254 | keeps exactly the rows matching the search (name, bio or location), the service (bio) and the location filters by `ILIKE '%text%'`, "all" and empty values not filtering |
| ProviderCards.PercentMatchesAll | backend/routes/dashboard.py:224 | the pattern `%` matches every string |
| ProviderCards.LiteralThenPercent | backend/routes/dashboard.py:224 | a wildcard-free text followed by `%` matches exactly the strings it starts |
| ProviderCards.LeadingPercent | backend/routes/dashboard.py:224 | a leading `%` lets the rest of the pattern match any suffix |
| ProviderCards.LiteralSearchIsContains | backend/routes/dashboard.py:224 | with no `%`, `_` or backslash in the text, `LIKE '%text%'` holds exactly when the text occurs in the string |
| ProviderCards.LowerFrame | backend/routes/dashboard.py:224 | lower-casing the pattern keeps the `%` frame and keeps a wildcard-free text wildcard-free |
| ProviderCards.ILikeLiteral | backend/routes/dashboard.py:224-251 | a wildcard-free search matches a column exactly when it occurs in it, ignoring case |
| ProviderCards.UnderscoreMatchesAnyText | backend/routes/dashboard.py:224-251 | the search text is a pattern: "_" matches every non-empty column |
| ProviderCards.Page | backend/routes/dashboard.py:256 | OFFSET/LIMIT: the window starting at `skip` of at most `limit` rows, full when enough rows remain; a negative skip or limit is a 500 |
| ProviderCards.ExtractService | backend/routes/dashboard.py:269-276 | "General Services" without "Experienced" in the bio; otherwise the text read back never contains "in" |
| ProviderCards.ExtractServiceFixed | backend/routes/dashboard.py:269-276 | "General Services" without "Experienced" in the bio; otherwise the text read back never contains the word " in " |
| ProviderCards.CardOf | backend/routes/dashboard.py:286-297 | a card carries the row's phone, name and review count, is saved exactly when the phone is among the saved ones, and falls back to the fixed texts for a missing bio or location |
| ProviderCards.Cards | backend/routes/dashboard.py:266-299 | the cards are exactly those of the rows the rating filter keeps, all of them without a minimum rating, each saved exactly when its phone is saved |
| ProviderCards.CardsStep | backend/routes/dashboard.py:266-297 | the cards of one more row are the earlier cards plus that row's card when it passes the rating filter |
| ProviderCards.SavedPhones | backend/routes/dashboard.py:259-263 | the saved phones are exactly the providers saved by this customer |
| ProviderCards.BuildCards | backend/routes/dashboard.py:266-299 | the loop builds exactly `Cards` of the rows |
| ProviderCards.ProvidersForCustomer | backend/routes/dashboard.py:194-300 | succeeds exactly for a non-negative skip and limit; at most `limit` cards, each an existing provider's, each saved exactly when the caller saved it |
| ProviderCards.GetProvidersForCustomer | backend/routes/dashboard.py:194-300 | reads the tables and answers `ProvidersForCustomer` |
| ProviderCards.ExtractFromBio | backend/auth/service.py:41 | for a service without "in" and "Experienced", the dashboard reads back the signed-up service, trimmed |
| ProviderCards.ExperiencedAtStart | backend/auth/service.py:41 | a signup bio contains "Experienced", and what follows it is " service in location" |
| ProviderCards.LateExperienced | backend/routes/dashboard.py:274 | a service without "Experienced" puts no later occurrence before the " in " |
| ProviderCards.FirstSpacedIn | backend/routes/dashboard.py:274 | for a service without the word " in ", the first " in " after "Experienced" is the one the signup bio adds |
| ProviderCards.ExtractFixedFromBio | backend/auth/service.py:41 | for a service without the word " in " and without "Experienced", the corrected read-back gives the signed-up service, trimmed |
| ProviderCards.SegmentCutsAtIn | backend/routes/dashboard.py:274 | the split cuts the service at its first "in" |
| ProviderCards.ExtractCutsAtIn | backend/routes/dashboard.py:274 | a service containing "in" is read back cut before its first "in", trimmed |
| ProviderCards.EarlyOccurrences | backend/routes/dashboard.py:274 | prefixing one character shifts the first "in" by one |
| ProviderCards.PlumbingFirstIn | backend/routes/dashboard.py:274 | "Plumbing" has its first "in" at index 5 and no "Experienced" |
| ProviderCards.PlumbingNoWordIn | backend/routes/dashboard.py:274 | "Plumbing" does not contain the word " in " |
| ProviderCards.PlumbingStrips | backend/routes/dashboard.py:274 | "Plumbing" has no surrounding whitespace |
| ProviderCards.PlumbStrips | backend/routes/dashboard.py:274 | its first five characters trim to "Plumb" |
| ProviderCards.PlumbingCut | backend/routes/dashboard.py:274 | the dashboard cuts "Plumbing" at its first "in" |
| ProviderCards.PlumbingReadsBackAsPlumb | backend/auth/service.py:41 | a provider who signed up for "Plumbing" is listed with service "Plumb" |
| ProviderCards.PlumbingReadsBackFixed | backend/auth/service.py:41 | with the corrected split the same provider is listed with "Plumbing" |
| ProviderProfiles.ValidateBody | backend/routes/providers.py:19-25 | a body is accepted exactly when bio has at most 1000 and location_name at most 255 characters (absent fields pass); otherwise 422 |
| ProviderProfiles.Merge | backend/routes/providers.py:105-109 | a supplied bio or location replaces the stored one; every other field of the profile is kept |
| ProviderProfiles.Create | backend/routes/providers.py:39-78 | creation succeeds exactly for a provider without a profile (403 for another role, 400 when one exists, no change); the new profile has rating 0.0, no completed jobs and is not verified |
| ProviderProfiles.Update | backend/routes/providers.py:80-114 | update succeeds exactly for a provider with a profile (403 or 404 otherwise, no change) and stores the merged profile |
| ProviderProfiles.Get | backend/routes/providers.py:116-138 | the caller's own profile is returned exactly when the caller is a provider with one; otherwise 403 or 404 |
| ProviderProfiles.GetById | backend/routes/providers.py:140-156 | any profile is returned by id with no role check; an absent id gives 404 "Provider profile not found" |
| ProviderProfiles.Delete | backend/routes/providers.py:158-183 | deletion succeeds exactly for a provider with a profile and removes only that row; otherwise 403 or 404 and no change |
| ProviderProfiles.CreateThenGet | backend/routes/providers.py:39-156 | a created profile reads back with the given bio and location and the initial standing, by both read endpoints, and a second create is refused |
| ProviderProfiles.UpdateKeepsStanding | backend/routes/providers.py:105-109 | an update never changes the rating, the completed-job count, the verification flag, the experience or the user id |
| ProviderProfiles.UpdateIdempotent | backend/routes/providers.py:105-109 | an update that supplies nothing changes nothing, and repeating an update changes nothing more |
| ProviderProfiles.DeleteThenGet | backend/routes/providers.py:131-183 | after a delete the caller's profile reads as 404 and can be created again |
| ProviderProfiles.SignupMakesProfile | backend/routes/providers.py:56-62 | a provider who has just signed up already has a profile, readable by id, so creating one is refused with 400 |
| ProviderProfiles.CreateProfile | backend/routes/providers.py:39-78 | the handler's answer and the new table are exactly those of Create, and the database stays valid |
| ProviderProfiles.UpdateProfile | backend/routes/providers.py:80-114 | the handler's answer and the new table are exactly those of Update, and the database stays valid |
| ProviderProfiles.DeleteProfile | backend/routes/providers.py:158-183 | the handler's answer and the new table are exactly those of Delete, and the database stays valid |
| TwilioOtpService.TwilioFormat | backend/utils/twilio_otp_service.py:39-40 | a number already starting with "+" is kept, any other gets "+91" before its cleaned digits |
| TwilioOtpService.TwilioNumber | backend/utils/twilio_otp_service.py:39-40 | the formatting step computes `TwilioFormat` |
| TwilioOtpService.TwilioFormatIdempotent | backend/utils/twilio_otp_service.py:39-40 | formatting an already formatted number changes nothing |
| TwilioOtpService.AgreesOnNationalNumbers | backend/utils/twilio_otp_service.py:39-40 | for a national number the two Twilio formatters agree |
| TwilioOtpService.DisagreesOnInternationalNumbers | backend/utils/twilio_otp_service.py:39-40 | for "+" and a foreign country code this module keeps the number while the other formatter puts "+91" before it |
| TwilioOtpService.GenerateOtp | backend/utils/twilio_otp_service.py:20-22 | the same digit code as the other service's generator |
| TwilioOtpService.OtpExpiry | backend/utils/twilio_otp_service.py:67-69 | the expiry is a naive instant five minutes after now |
| TwilioOtpService.IsOtpExpired | backend/utils/twilio_otp_service.py:71-73 | compares only naive instants, expired exactly when now is past the expiry; an aware instant raises |
| TwilioOtpService.ExpiryAgrees | backend/utils/twilio_otp_service.py:67-73 | on its own expiries this module decides as the other service does |
| TwilioOtpService.AwareExpiryRejected | backend/utils/twilio_otp_service.py:71-73 | given the other service's timezone-aware expiry, the comparison raises |
| WhatsApp.Cleaned | backend/utils/whatsapp_service.py:38 | the cleaned number has no '+', space or '-', and every character of it comes from the input |
| WhatsApp.WhatsAppFormat | backend/utils/whatsapp_service.py:36-43 | an address already starting with "whatsapp:" is kept; any other becomes "whatsapp:+91…", adding 91 exactly when the cleaned number lacks it |
| WhatsApp.WhatsAppAddress | backend/utils/whatsapp_service.py:36-43 | the formatting step computes `WhatsAppFormat` |
| WhatsApp.WhatsAppFormatIdempotent | backend/utils/whatsapp_service.py:36-43 | formatting an address twice is formatting it once |
| WhatsApp.DigitsAreClean | backend/utils/whatsapp_service.py:36-38 | a digit string is already clean and is not an address |
| WhatsApp.NationalAndInternational | backend/utils/whatsapp_service.py:36-43 | a national number and the same number with 91 before it reach the same address |
| WhatsApp.MessageHolds | backend/utils/whatsapp_service.py:85-97 | stripping the triple-quoted text removes only its framing, so the message keeps every line of its body |
| WhatsApp.NewBookingMessage | backend/utils/whatsapp_service.py:65-100 | the provider's message shows the booking type upper-cased |
| WhatsApp.BookingAcceptedMessage | backend/utils/whatsapp_service.py:102-138 | the customer's message carries the acceptance code in bold |
| WhatsApp.BookingRejectedMessage | backend/utils/whatsapp_service.py:140-175 | the customer's message names the provider and the service |
| WhatsApp.WorkCompletedMessage | backend/utils/whatsapp_service.py:177-212 | the customer's message carries the completion code in bold |
| WhatsApp.BookingCancelledMessage | backend/utils/whatsapp_service.py:214-250 | the provider's message shows the booking type upper-cased |
| WhatsApp.JobCancelledMessage | backend/utils/whatsapp_service.py:252-287 | the customer's message names the provider and the service |
| Db.Database.constructor | backend/Database_connection/db.py:22-31 | a new session sees empty tables, which satisfy every key constraint and column width |
| Strings.KeepDigits | frontend/src/components/CodeVerificationModal.jsx:21 | removing non-digits leaves only digits taken from the input, never more characters; a single character is kept exactly when it is a digit |
| Strings.KeepDigitsConcat | frontend/src/components/CodeVerificationModal.jsx:21 | the filter works character by character: the digits of a joined text are those of its parts, in order. With the one-character case, every digit of the input is kept, in order, and nothing else |
| Strings.KeepDigitsIdempotent | frontend/src/components/ReviewModal.jsx:57 | removing non-digits twice is removing them once |
| Strings.StripIdempotent | backend/routes/otp.py:41 | stripping twice is stripping once, for Python's `strip()` and JavaScript's `trim()` alike |
| Strings.SeparatorsOnlyPythonStrips | backend/routes/otp.py:41 | the separators 0x1C-0x1F are whitespace to Python's `strip()`, which drops one in front of a phone number, but not to JavaScript's `trim()`, which keeps it |
| Strings.DecimalString | backend/routes/dashboard.py:158 | the decimal text of a number is non-empty and all digits |
| Strings.DecimalRoundTrip | backend/routes/dashboard.py:158 | reading the decimal text back gives the number |
| Strings.SixDigitLength | backend/routes/dashboard.py:158 | a number in 100000-999999 has six decimal digits |

## Left out

- **Network and other I/O.** The SMS providers' HTTP calls, the Twilio WhatsApp client, the frontend's `fetch`, `localStorage` outside the token helpers, `alert`, `window.open`, `scrollTo`, DOM focus and logging are not modelled. Their outcomes enter the model as parameters.
- **Clocks and randomness.** Clocks and random sources (`datetime.now`, `Date.now`, `random`, `Math.random`) are parameters. The job-code retry loop runs over a finite sequence of draws rather than forever, and it reports running out of draws.
- **Listing endpoints.** `get_customer_bookings`, `get_provider_pending_requests` and `get_provider_accepted_jobs` are read-only list queries with name enrichment. They carry no rule beyond their filters and are not modelled. The same holds for the endpoint wrappers in api.js: each is one `request` call, and only `request` and the two query builders are modelled.
- **Frontend effects.** The fetch effects of the dashboard page are not modelled. These are the initial loads, the refetch after a filter change, and the stats refresh. The `showFilters` and modal-visibility flags are not modelled either.
- **Timers.** The OTP resend countdown is the `CountDown` method, one call per run of the timer effect. The `setTimeout` that schedules the next run a second later is not modelled.
- DashboardRules.ProviderStats: leaves out `avg_rating`, because it is a floating-point mean rounded with `round(x, 1)`. The counts it returns are all modelled.
- DashboardRules.CreateBooking: a refused insert still uses up a value of PostgreSQL's id sequence. The model keeps ids contiguous, so after a refused insert its ids run one below the database's.
- DashboardRules.CreateReview: stores the submitted rating as given, while `reviews.rating` is declared `Integer`. A fractional rating would be converted to an integer by the database, with a rounding that depends on the driver. The review dialog only sends whole stars from 1 to 5, and for those the two agree. The same holds for Dashboard.CreateReview.
- ProviderCards.Cards: averages the stored ratings as exact reals (see the line above on fractional ratings).
- LanguageContext.T: looks keys and languages up among the tables' own entries only. In JavaScript, `translations[language][key]` also finds properties inherited from `Object.prototype`: `t('constructor')` gives a function rather than the key, and a language such as 'toString' does not make `t` throw. No caller passes such a key, and the language switcher offers only en, hi and mr. The same holds for LanguageContext.EchoesUnknownKey.
- DashboardRules.CreateReview: does not fail on the foreign key from `reviews.provider_id` to `providers.user_id` when the provider has deleted their profile. The tables are not created by this code: `create_all` is commented out and the two `providers` mappings disagree. Whether the database enforces the constraint is therefore not known from the source. The same holds for Dashboard.CreateReview.
- **Provider mapping.** The model follows the `providers` mapping of backend/auth/models.py:16-25 (user_id, bio, location_name, average_rating, jobs_completed, is_verified), the one the handlers plainly write to. As written, the handlers import the other mapping, backend/models/providers.py:6-18, which has none of these columns (backend/routes/providers.py:4, backend/routes/dashboard.py:9, backend/auth/service.py:9). Also, backend/auth/models.py:1 does not import `Text`, `Numeric` or `Boolean`, which it uses at lines 20, 23 and 25. So, as written:
  - every provider-profile endpoint answers 500, because `Provider.user_id` raises AttributeError;
  - the provider listing join and the booking creation's profile lookup (backend/routes/dashboard.py:152, 217) fail the same way;
  - a provider sign-up fails building the profile after the user row is committed.
  The members that describe the intended behaviour instead are ProviderProfiles.Create, Update, Get, GetById, Delete, CreateProfile, UpdateProfile, DeleteProfile, AuthService.Register, AuthService.RegisterUser, Models.NewProviderProfile, ProviderCards.JoinRows, ProviderCards.ProvidersForCustomer and DashboardRules.CreateBooking.
- ProviderProfiles.Delete: does not fail when reviews, job codes or jobs still reference the profile, for the same reason. The same holds for ProviderProfiles.DeleteProfile.
- CodeGenerator.CreateJobCode: does not fail on the foreign key from `job_codes.provider_id` to `providers.user_id`, for the same reason.
- ProviderCards.Cards: the mean rating is an exact real, not a float. SQL `GROUP BY` row order is taken as given by the query.
- DashboardPage.GenerateUniqueCode: `Math.random()` is an exact real in [0, 1), so float rounding is not modelled.
- **Whitespace.** Python's `str.strip()` and JavaScript's `trim()` are modelled as stripping each language's ASCII whitespace. Python's also includes the separators 0x1C-0x1F. Unicode whitespace, case mapping beyond ASCII, and the emoji at the head of WhatsApp message lines are left out. The bullets and numbered keycaps inside the messages are kept.
- **String length.** JavaScript string length counts UTF-16 units. The model counts characters.
- **URLs and request bodies.** URL percent-encoding in query strings is not modelled. Neither is the JSON serialisation of request bodies.
- **Error details.** An error `detail` that is not a string (FastAPI's validation list) is not modelled: `detail` is a string or absent. The 500s raised by the database or by Python itself (a value too long for its column, a primary-key collision, a negative OFFSET, a naive and an aware datetime compared) carry the underlying message as their `detail` in the model. The server answers these with a plain "Internal Server Error" body, so only their status is observable, and the frontend shows "HTTP 500".
- **Configuration.** Environment configuration (`OTP_PROVIDER`, `OTP_EXPIRY_MINUTES`, the Twilio and MSG91 credentials, `WEBSITE_URL`) is constants or parameters with the source's defaults.
- **Authentication primitives.** Password hashing, bcrypt checking and JWT signing are supplied by the caller. Token decoding in `get_current_user` is outside this model: the acting user is a parameter.
- **Id collisions.** The frontend ids built from `Date.now()` are taken as distinct.
- **Concurrency.** Two requests racing on the same row are not modelled. Each handler runs as one atomic step. Most handlers commit once. Two commit twice, and the model treats their two commits as one step:
  - `register_user` commits the user and then the profile (backend/auth/service.py:34 and :44). The state between the two commits is modelled only when the second commit fails (AuthService.FailedProfileLeavesUser).
  - `send_otp` commits the new record before delivery, and on failed delivery deletes it and commits again (backend/routes/otp.py:70-80). A concurrent send for the same phone in between is answered 429 although the first delivery then fails.

## Findings

| source | as written | input that shows it | evidently intended | confidence | as-written member | corrected member |
|---|---|---|---|---|---|---|
| backend/routes/dashboard.py:274 | the service name is cut at the first "in" after "Experienced", even inside a word | sign-up with service "Plumbing" yields bio "Experienced Plumbing in X", which lists as "Plumb" | cut at the separator " in " that sign-up writes, so the service comes back whole | high, not executed | ProviderCards.PlumbingReadsBackAsPlumb | ProviderCards.ExtractFixedFromBio |
| backend/routes/otp.py:116-120 | the record is looked up by phone and code together, so a wrong code matches no record and is never counted; the attempt cap and the "attempts remaining" branch cannot fire | any number of wrong six-digit codes for a phone, followed by the right one, which still verifies | look up by phone alone and count each wrong code against the record, refusing after `MAX_OTP_ATTEMPTS` | high, not executed | OtpRoutes.UnlimitedGuesses | OtpRoutes.LockedOutAfterMaxWrongGuesses |
| backend/utils/code_generator.py:17-24 | the retry loop avoids only unused, unexpired codes, but `code` is the table's primary key | a table holding a used row "AAAAAA" and a draw of "AAAAAA": the insert violates the unique key | avoid every stored code | medium, not executed | CodeGenerator.UsedCodeCollides | CodeGenerator.CreateFreeSucceeds |
| frontend/src/services/api.js:7-13 | `...options` after `headers` replaces the whole header object when a caller passes headers | a call with `{ headers: { "X-Request-Id": "1" } }` is sent without `Content-Type` | merge the caller's headers into the defaults | low (no current call passes headers), not executed | Api.CallerHeadersDropContentType | Api.RequestHeadersCarry |

The endpoint models (`ProviderCards.Cards`, `OtpRoutes.Verify`, `CodeGenerator.Create`) keep the code as written, so that they describe what the system does. Each corrected definition stands beside its endpoint model, with the intended property proved about it:
- `ProviderCards.ExtractServiceFixed`;
- `OtpRoutes.VerifyCounted`;
- `CodeGenerator.CreateFree`, `FirstFree`;
- `Api.MergedHeaders`.

The request headers (`Api.RequestHeaders`) also keep the code as written. The merged form is `Api.MergedRequestHeaders`. Every call in api.js passes no headers, and for such calls `Api.RequestHeadersCarry` proves that the two forms agree.

=== FILE: api.dfy ===
/** The frontend's HTTP client (frontend/src/services/api.js): the headers
    of every request, the error a failed request throws, the query strings
    of the provider search and the customer's bookings, and the stored
    authentication token. The `fetch` call itself is not modelled: what it
    gives back is a parameter. */
module Api {

  import opened Common
  import opened Strings

  // ---------------------------------------------------------------------
  // Request headers

  const CONTENT_TYPE := "Content-Type"
  const APPLICATION_JSON := "application/json"
  const AUTHORIZATION := "Authorization"

  type Headers = map<string, string>

  /** JavaScript truthiness of an optional string: present and non-empty. */
  predicate Truthy(v: Option<string>) {
    v.Some? && v.value != ""
  }

  /** `config.headers` as `request` builds it: the defaults merged with the
      caller's headers, but the `...options` spread that follows puts the
      caller's own `headers` object back in their place whenever the caller
      passes one. */
  function ConfigHeaders(callerHeaders: Option<Headers>): (h: Headers)
    ensures callerHeaders.None? ==> h == map[CONTENT_TYPE := APPLICATION_JSON]
    ensures callerHeaders.Some? ==> h == callerHeaders.value
  {
    var merged := map[CONTENT_TYPE := APPLICATION_JSON] + callerHeaders.GetOr(map[]);
    if callerHeaders.Some? then callerHeaders.value else merged
  }

  /** With headers of its own, a request loses the JSON content type. */
  lemma CallerHeadersDropContentType()
    ensures CONTENT_TYPE !in ConfigHeaders(Some(map["X-Request-Id" := "1"]))
  {
  }

  /** The evidently intended headers: the JSON content type unless the
      caller sets its own, and every header the caller passes. */
  function MergedHeaders(callerHeaders: Option<Headers>): (h: Headers)
    ensures CONTENT_TYPE in h
    ensures callerHeaders.None? || CONTENT_TYPE !in callerHeaders.value ==> h[CONTENT_TYPE] == APPLICATION_JSON
    ensures callerHeaders.Some? ==> forall k :: k in callerHeaders.value ==> k in h && h[k] == callerHeaders.value[k]
    ensures forall k :: k in h ==> k == CONTENT_TYPE || (callerHeaders.Some? && k in callerHeaders.value)
  {
    map[CONTENT_TYPE := APPLICATION_JSON] + callerHeaders.GetOr(map[])
  }

  /** A truthy stored token adds `Authorization: Bearer <token>`; every
      other header stays as it is. */
  function Authorized(headers: Headers, token: Option<string>): (h: Headers)
    ensures Truthy(token) ==> AUTHORIZATION in h && h[AUTHORIZATION] == "Bearer " + token.value
    ensures !Truthy(token) ==> h == headers
    ensures forall k :: k != AUTHORIZATION ==> (k in h <==> k in headers) && (k in h ==> h[k] == headers[k])
  {
    if Truthy(token) then headers[AUTHORIZATION := "Bearer " + token.value] else headers
  }

  /** The headers a request is sent with: `config.headers` with the bearer
      token added. */
  function RequestHeaders(callerHeaders: Option<Headers>, token: Option<string>): Headers {
    Authorized(ConfigHeaders(callerHeaders), token)
  }

  /** As written: a request without headers of its own is sent as JSON; one
      with headers is sent with exactly those, plus the bearer token of a
      signed-in user. */
  lemma RequestHeadersAsWritten(callerHeaders: Option<Headers>, token: Option<string>)
    ensures callerHeaders.None? ==>
      && CONTENT_TYPE in RequestHeaders(callerHeaders, token)
      && RequestHeaders(callerHeaders, token)[CONTENT_TYPE] == APPLICATION_JSON
    ensures callerHeaders.Some? ==>
      forall k :: k != AUTHORIZATION ==> (k in RequestHeaders(callerHeaders, token) <==> k in callerHeaders.value)
    ensures Truthy(token) ==> RequestHeaders(callerHeaders, token)[AUTHORIZATION] == "Bearer " + token.value
  {
  }

  /** The headers the evidently intended merge would send. */
  function MergedRequestHeaders(callerHeaders: Option<Headers>, token: Option<string>): Headers {
    Authorized(MergedHeaders(callerHeaders), token)
  }

  /** With the merge, every request carries the JSON content type unless
      its caller set another, and a signed-in user's requests carry the
      bearer token; without caller headers the two forms agree. */
  lemma RequestHeadersCarry(callerHeaders: Option<Headers>, token: Option<string>)
    ensures CONTENT_TYPE in MergedRequestHeaders(callerHeaders, token)
    ensures callerHeaders.None? ==> MergedRequestHeaders(callerHeaders, token)[CONTENT_TYPE] == APPLICATION_JSON
    ensures Truthy(token) ==> MergedRequestHeaders(callerHeaders, token)[AUTHORIZATION] == "Bearer " + token.value
    ensures callerHeaders.None? ==> MergedRequestHeaders(callerHeaders, token) == RequestHeaders(callerHeaders, token)
  {
    if callerHeaders.None? {
      assert map[CONTENT_TYPE := APPLICATION_JSON] + map[] == map[CONTENT_TYPE := APPLICATION_JSON];
    }
  }

  // ---------------------------------------------------------------------
  // Errors

  const AUTH_FAILED := "Authentication failed"
  const NOT_AUTHENTICATED := "Not authenticated. Please log in again."
  const FAILED_TO_FETCH := "Failed to fetch"
  const BACKEND_DOWN := "Backend server is not running. Please start the server and try again."

  /** The parsed body of a response, as far as `request` reads it: the
      `detail` of an error (None when the body is not JSON). */
  datatype ErrorBody = ErrorBody(detail: Option<string>)

  /** What `fetch` gives back: a network failure with its message, or a
      response. `parseError` is the message `response.json()` rejects with
      when the body is not JSON. */
  datatype Outcome =
    | NetworkFailure(message: string)
    | Answered(status: int, ok: bool, body: Option<ErrorBody>, parseError: string)

  /** What `request` does with it: resolve, or throw an error with a
      message. */
  datatype Reply = Resolved | Thrown(message: string)

  /** The message of the error thrown for a response that is not OK. */
  function ErrorMessage(status: int, body: Option<ErrorBody>): (m: string)
    ensures m != ""
    ensures body.Some? && Truthy(body.value.detail) ==> m == body.value.detail.value
    ensures (status == 401 || status == 403) && body.None? ==> m == AUTH_FAILED
    ensures (status == 401 || status == 403) && body.Some? && !Truthy(body.value.detail) ==> m == NOT_AUTHENTICATED
    ensures status != 401 && status != 403 && !(body.Some? && Truthy(body.value.detail)) ==> m == "HTTP " + IntString(status)
  {
    if status == 401 || status == 403 then
      var detail := if body.None? then Some(AUTH_FAILED) else body.value.detail;
      OrElse(detail, NOT_AUTHENTICATED)
    else
      var fallback := "HTTP " + IntString(status);
      var detail := if body.None? then Some(fallback) else body.value.detail;
      OrElse(detail, fallback)
  }

  /** The catch block: the browser's network failure message is replaced
      by one that says the backend is down; any other passes unchanged. */
  function Rewrite(message: string): (m: string)
    ensures message == FAILED_TO_FETCH ==> m == BACKEND_DOWN
    ensures message != FAILED_TO_FETCH ==> m == message
  {
    if message == FAILED_TO_FETCH then BACKEND_DOWN else message
  }

  /** `request`: an OK response with a JSON body resolves; an OK response
      whose body is not JSON throws the parse error from inside the `try`;
      anything else throws. */
  function Request(outcome: Outcome): Reply {
    match outcome
    case NetworkFailure(message) => Thrown(Rewrite(message))
    case Answered(status, ok, body, parseError) =>
      if !ok then Thrown(Rewrite(ErrorMessage(status, body)))
      else if body.None? then Thrown(Rewrite(parseError))
      else Resolved
  }

  /** A request resolves exactly on an OK response with a JSON body; the
      error it throws otherwise never carries the bare network message, and
      an answered error always has a message. */
  lemma RequestReplies(outcome: Outcome)
    ensures Request(outcome).Resolved? <==> outcome.Answered? && outcome.ok && outcome.body.Some?
    ensures outcome.Answered? && outcome.ok && outcome.body.None? ==> Request(outcome) == Thrown(Rewrite(outcome.parseError))
    ensures Request(outcome).Thrown? ==> Request(outcome).message != FAILED_TO_FETCH
    ensures outcome.Answered? && !outcome.ok ==> Request(outcome).message != ""
    ensures outcome.NetworkFailure? && outcome.message != FAILED_TO_FETCH ==> Request(outcome) == Thrown(outcome.message)
  {
    assert BACKEND_DOWN != FAILED_TO_FETCH;
  }

  // ---------------------------------------------------------------------
  // Query strings

  /** The provider search filters; the minimum rating is in tenths of a
      star. */
  datatype Filters = Filters(search: Option<string>, service: Option<string>, location: Option<string>,
                             minRating: Option<nat>, skip: Option<nat>, limit: Option<nat>)

  /** The filters object with none of its keys. */
  const NO_FILTERS := Filters(None, None, None, None, None, None)

  /** A number as `append` writes it, when it is truthy (not zero). */
  function NumberParam(v: Option<nat>): (p: Option<string>)
    ensures Truthy(p) <==> v.Some? && v.value != 0
  {
    if v.Some? && v.value != 0 then Some(DecimalString(v.value)) else None
  }

  /** A rating in tenths as JavaScript writes the number: "4" for 4.0,
      "4.5" for 4.5. */
  function RatingParam(v: Option<nat>): (p: Option<string>)
    ensures Truthy(p) <==> v.Some? && v.value != 0
  {
    if v.Some? && v.value != 0 then
      var whole := DecimalString(v.value / 10);
      Some(if v.value % 10 == 0 then whole else whole + "." + [DigitChar(v.value % 10)])
    else None
  }

  /** The six candidate parameters, in the order getProviders tries them. */
  function Candidates(f: Filters): seq<(string, Option<string>)> {
    [("search", f.search), ("service", f.service), ("location", f.location),
     ("min_rating", RatingParam(f.minRating)), ("skip", NumberParam(f.skip)), ("limit", NumberParam(f.limit))]
  }

  /** The candidates whose value is truthy, in their order. */
  function Present(candidates: seq<(string, Option<string>)>): (r: seq<(string, string)>)
    ensures |r| <= |candidates|
    ensures forall n, v :: (n, v) in r <==> (n, Some(v)) in candidates && v != ""
    decreases |candidates|
  {
    if candidates == [] then []
    else
      var c := candidates[0];
      var rest := Present(candidates[1..]);
      assert forall x :: x in candidates <==> x == c || x in candidates[1..];
      if Truthy(c.1) then [(c.0, c.1.value)] + rest else rest
  }

  /** The parameters getProviders sends. */
  function Params(f: Filters): seq<(string, string)> {
    Present(Candidates(f))
  }

  /** The position of a parameter name in getProviders' fixed order. */
  function Rank(name: string): nat {
    if name == "search" then 0
    else if name == "service" then 1
    else if name == "location" then 2
    else if name == "min_rating" then 3
    else if name == "skip" then 4
    else 5
  }

  predicate Ranked<V>(pairs: seq<(string, V)>) {
    forall i, j :: 0 <= i < j < |pairs| ==> Rank(pairs[i].0) < Rank(pairs[j].0)
  }

  lemma {:induction false} PresentKeepsOrder(candidates: seq<(string, Option<string>)>)
    requires Ranked(candidates)
    ensures Ranked(Present(candidates))
    decreases |candidates|
  {
    if candidates != [] {
      var rest := candidates[1..];
      assert Ranked(rest) by {
        forall i, j | 0 <= i < j < |rest| ensures Rank(rest[i].0) < Rank(rest[j].0) {
          assert rest[i] == candidates[i + 1] && rest[j] == candidates[j + 1];
        }
      }
      PresentKeepsOrder(rest);
      var pr := Present(rest);
      forall i | 0 <= i < |pr| ensures Rank(candidates[0].0) < Rank(pr[i].0) {
        assert (pr[i].0, pr[i].1) in pr;
        var k :| 0 <= k < |rest| && rest[k] == (pr[i].0, Some(pr[i].1));
        assert rest[k] == candidates[k + 1];
      }
    }
  }

  /** getProviders sends only truthy filters, at most once each, in the
      fixed order search, service, location, min_rating, skip, limit; a
      skip of 0 is left out. */
  lemma ParamsInOrder(f: Filters)
    ensures Ranked(Params(f))
    ensures forall v :: ("search", v) in Params(f) <==> f.search == Some(v) && v != ""
    ensures forall v :: ("skip", v) in Params(f) <==> f.skip.Some? && f.skip.value != 0 && v == DecimalString(f.skip.value)
    ensures f.skip == Some(0) ==> forall i :: 0 <= i < |Params(f)| ==> Params(f)[i].0 != "skip"
  {
    PresentKeepsOrder(Candidates(f));
    if f.skip == Some(0) {
      forall i | 0 <= i < |Params(f)| ensures Params(f)[i].0 != "skip" {
        assert (Params(f)[i].0, Params(f)[i].1) in Params(f);
      }
    }
  }

  /** `URLSearchParams.toString()`: name=value pairs joined by '&'. */
  function Encode(params: seq<(string, string)>): (s: string)
    ensures s == "" <==> params == []
    decreases |params|
  {
    if params == [] then ""
    else
      var head := params[0].0 + "=" + params[0].1;
      if |params| == 1 then head else head + "&" + Encode(params[1..])
  }

  /** The query string of getProviders: '?' and the parameters, or nothing
      when there are none. */
  function ProvidersQuery(f: Filters): (q: string)
    ensures q == "" <==> Params(f) == []
    ensures q != "" ==> q[0] == '?'
  {
    var encoded := Encode(Params(f));
    if encoded != "" then "?" + encoded else ""
  }

  /** One `append` that happens only for a truthy value. */
  function Append(params: seq<(string, string)>, name: string, value: Option<string>): seq<(string, string)> {
    if Truthy(value) then params + [(name, value.value)] else params
  }

  /** Filtering a list whose first element is `c` and the same list
      with `c` appended at the end. */
  lemma {:induction false} PresentSnoc(a: seq<(string, Option<string>)>, c: (string, Option<string>))
    ensures Present(a + [c]) == Append(Present(a), c.0, c.1)
    decreases |a|
  {
    if a == [] {
      assert [c][1..] == [];
    } else {
      assert (a + [c])[1..] == a[1..] + [c];
      PresentSnoc(a[1..], c);
    }
  }

  /** getProviders as written: the parameters appended one filter at a
      time, then the query string. */
  method GetProvidersPath(f: Filters) returns (path: string)
    ensures path == "/dashboard/customer/providers" + ProvidersQuery(f)
  {
    var params: seq<(string, string)> := [];
    if Truthy(f.search) { params := params + [("search", f.search.value)]; }
    ghost var p1 := Append([], "search", f.search);
    assert params == p1;
    if Truthy(f.service) { params := params + [("service", f.service.value)]; }
    ghost var p2 := Append(p1, "service", f.service);
    assert params == p2;
    if Truthy(f.location) { params := params + [("location", f.location.value)]; }
    ghost var p3 := Append(p2, "location", f.location);
    assert params == p3;
    var rating := RatingParam(f.minRating);
    if Truthy(rating) { params := params + [("min_rating", rating.value)]; }
    ghost var p4 := Append(p3, "min_rating", rating);
    assert params == p4;
    var skip := NumberParam(f.skip);
    if Truthy(skip) { params := params + [("skip", skip.value)]; }
    ghost var p5 := Append(p4, "skip", skip);
    assert params == p5;
    var limit := NumberParam(f.limit);
    if Truthy(limit) { params := params + [("limit", limit.value)]; }
    assert params == Append(p5, "limit", limit);
    AppendedParams(f);
    var encoded := Encode(params);
    var query := if encoded != "" then "?" + encoded else "";
    path := "/dashboard/customer/providers" + query;
  }

  /** The six appends of getProviders give the parameters. */
  lemma AppendedParams(f: Filters)
    ensures Params(f) ==
      Append(Append(Append(Append(Append(Append([], "search", f.search), "service", f.service),
        "location", f.location), "min_rating", RatingParam(f.minRating)), "skip", NumberParam(f.skip)),
        "limit", NumberParam(f.limit))
  {
    var c := Candidates(f);
    var e: seq<(string, Option<string>)> := [];
    assert c == e + [c[0]] + [c[1]] + [c[2]] + [c[3]] + [c[4]] + [c[5]];
    assert Present(e) == [];
    PresentSnoc(e, c[0]);
    PresentSnoc(e + [c[0]], c[1]);
    PresentSnoc(e + [c[0]] + [c[1]], c[2]);
    PresentSnoc(e + [c[0]] + [c[1]] + [c[2]], c[3]);
    PresentSnoc(e + [c[0]] + [c[1]] + [c[2]] + [c[3]], c[4]);
    PresentSnoc(e + [c[0]] + [c[1]] + [c[2]] + [c[3]] + [c[4]], c[5]);
  }

  /** getCustomerBookings: the status filter is added only when given. */
  function CustomerBookingsPath(statusFilter: Option<string>): (path: string)
    ensures Truthy(statusFilter) ==> path == "/dashboard/customer/bookings?status_filter=" + statusFilter.value
    ensures !Truthy(statusFilter) ==> path == "/dashboard/customer/bookings"
  {
    var query := if Truthy(statusFilter) then "?status_filter=" + statusFilter.value else "";
    "/dashboard/customer/bookings" + query
  }

  // ---------------------------------------------------------------------
  // The stored token

  /** The `authToken` entry of the browser's local storage. */
  class TokenStore {
    var stored: Option<string>

    constructor ()
      ensures stored == None
    {
      stored := None;
    }

    method SetAuthToken(token: string)
      modifies this
      ensures stored == Some(token) && GetAuthToken() == Some(token)
    {
      stored := Some(token);
    }

    method RemoveAuthToken()
      modifies this
      ensures stored == None && !IsAuthenticated()
    {
      stored := None;
    }

    function GetAuthToken(): Option<string>
      reads this
    {
      stored
    }

    /** Signed in exactly when a non-empty token is stored. */
    function IsAuthenticated(): (b: bool)
      reads this
      ensures b <==> stored.Some? && stored.value != ""
    {
      Truthy(GetAuthToken())
    }
  }
}

=== FILE: auth_schemas.dfy ===
/** The request and response shapes of sign-up and login
    (backend/auth/schemas.py) and the field constraints the framework
    enforces before a handler runs; a violation is answered with 422. */
module AuthSchemas {

  import opened Common

  datatype UserSignup = UserSignup(
    phone: string, name: string, password: string, userType: string,
    location: Option<string>, service: Option<string>)

  datatype UserLogin = UserLogin(phone: string, password: string)

  datatype Token = Token(accessToken: string, tokenType: string, userType: string, name: string)

  const DEFAULT_TOKEN_TYPE: string := "bearer"

  predicate LengthIn(s: string, lo: nat, hi: nat) {
    lo <= |s| <= hi
  }

  predicate ValidPhone(phone: string) { LengthIn(phone, 10, 15) }
  predicate ValidPassword(password: string) { LengthIn(password, 6, 50) }

  /** `^(customer|provider)$` */
  predicate ValidUserType(t: string) { t == "customer" || t == "provider" }

  /** Validation of a sign-up body; `location` and `service` may be absent. */
  function ValidateSignup(u: UserSignup): (r: Result<UserSignup>)
    ensures r.Ok? <==>
      ValidPhone(u.phone) && LengthIn(u.name, 2, 100) && ValidPassword(u.password) && ValidUserType(u.userType)
    ensures r.Ok? ==> r.value == u
    ensures r.Err? ==> r.error.status == UNPROCESSABLE
  {
    if !ValidPhone(u.phone) then Err(Error(UNPROCESSABLE, "phone"))
    else if !LengthIn(u.name, 2, 100) then Err(Error(UNPROCESSABLE, "name"))
    else if !ValidPassword(u.password) then Err(Error(UNPROCESSABLE, "password"))
    else if !ValidUserType(u.userType) then Err(Error(UNPROCESSABLE, "user_type"))
    else Ok(u)
  }

  /** Validation of a login body: the same phone and password bounds. */
  function ValidateLogin(l: UserLogin): (r: Result<UserLogin>)
    ensures r.Ok? <==> ValidPhone(l.phone) && ValidPassword(l.password)
    ensures r.Ok? ==> r.value == l
    ensures r.Err? ==> r.error.status == UNPROCESSABLE
  {
    if !ValidPhone(l.phone) then Err(Error(UNPROCESSABLE, "phone"))
    else if !ValidPassword(l.password) then Err(Error(UNPROCESSABLE, "password"))
    else Ok(l)
  }

  /** Whoever could sign up can log in with the same phone and password. */
  lemma SignupCredentialsPassLogin(u: UserSignup)
    requires ValidateSignup(u).Ok?
    ensures ValidateLogin(UserLogin(u.phone, u.password)).Ok?
  {
  }

  /** A token built without an explicit type is a bearer token. */
  function MakeToken(accessToken: string, tokenType: Option<string>, userType: string, name: string): (t: Token)
    ensures tokenType.None? ==> t.tokenType == "bearer"
    ensures tokenType.Some? ==> t.tokenType == tokenType.value
    ensures t.accessToken == accessToken && t.userType == userType && t.name == name
  {
    Token(accessToken, tokenType.GetOr(DEFAULT_TOKEN_TYPE), userType, name)
  }
}

=== FILE: auth_service.dfy ===
/** Sign-up, login and user lookup (backend/auth/service.py) over the
    `users` and `providers` tables. Password hashing, password checking and
    token signing are supplied by the caller: the hash and the signed token
    as values, the bcrypt check as a function. */
module AuthService {

  import opened Common
  import opened Models
  import opened AuthSchemas
  import opened Db
  import R = DashboardRules

  /** The bio written for a new provider: "Experienced {service} in
      {location}", an absent value rendering as "None". */
  function BioText(service: Option<string>, location: Option<string>): string {
    "Experienced " + R.PyStr(service) + " in " + R.PyStr(location)
  }

  const INVALID_LOGIN: string := "Invalid phone number or password"

  /** `query(User).filter(User.id == id).first()` */
  function FirstUserById(users: seq<User>, id: int): (r: Option<User>)
    ensures r.Some? ==> r.value in users && r.value.id == id
    ensures r.None? ==> forall u :: u in users ==> u.id != id
  {
    if users == [] then None
    else if users[0].id == id then Some(users[0])
    else FirstUserById(users[1..], id)
  }

  /** A phone registered after the others is found at the end. */
  lemma {:induction false} FindAppended(users: seq<User>, u: User)
    requires forall v :: v in users ==> v.phone != u.phone
    ensures R.FirstUserByPhone(users + [u], u.phone) == Some(u)
  {
    if users != [] {
      assert (users + [u])[1..] == users[1..] + [u];
      FindAppended(users[1..], u);
    }
  }

  datatype Tables = Tables(users: seq<User>, providers: map<nat, ProviderProfile>)

  /** The profile sign-up writes fits its columns: `location_name` is a
      `String(255)` (the bio is `Text`). Only a provider gets a profile. */
  predicate ProfileFits(data: UserSignup) {
    data.userType != "provider" || data.location.None? || |data.location.value| <= 255
  }

  /** register_user: a phone already registered is refused with 400 and
      nothing is written. Otherwise the user row is committed first; a
      provider then also gets a profile with the bio built from the service
      and location, in a second commit. When that profile does not fit its
      columns the second commit fails with 500 and the user row stays. */
  function Register(db: Tables, data: UserSignup, passwordHash: string, accessToken: string): (s: Step<Token, Tables>)
    ensures s.result.Ok? <==> R.FirstUserByPhone(db.users, data.phone).None? && ProfileFits(data)
    ensures R.FirstUserByPhone(db.users, data.phone).Some? ==>
      s == Step(Err(Error(BAD_REQUEST, "Phone number already registered")), db)
    ensures R.FirstUserByPhone(db.users, data.phone).None? ==>
      s.state.users == db.users + [User(|db.users| + 1, data.phone, passwordHash, data.name, data.userType)]
    ensures R.FirstUserByPhone(db.users, data.phone).None? && !ProfileFits(data) ==>
      s.result == Err(Error(INTERNAL_ERROR, R.VALUE_TOO_LONG)) && s.state.providers == db.providers
    ensures s.result.Ok? ==> s.result.value == Token(accessToken, "bearer", data.userType, data.name)
    ensures s.result.Ok? && data.userType == "provider" ==>
      s.state.providers == db.providers[|db.users| + 1 :=
        NewProviderProfile(|db.users| + 1, Some(BioText(data.service, data.location)), data.location)]
    ensures s.result.Ok? && data.userType != "provider" ==> s.state.providers == db.providers
    ensures UsersValid(db.users) ==> UsersValid(s.state.users)
  {
    if R.FirstUserByPhone(db.users, data.phone).Some? then
      Step(Err(Error(BAD_REQUEST, "Phone number already registered")), db)
    else
      var user := User(|db.users| + 1, data.phone, passwordHash, data.name, data.userType);
      var users := db.users + [user];
      if data.userType != "provider" then
        Step(Ok(Token(accessToken, DEFAULT_TOKEN_TYPE, user.role, user.name)), Tables(users, db.providers))
      else if !ProfileFits(data) then
        Step(Err(Error(INTERNAL_ERROR, R.VALUE_TOO_LONG)), Tables(users, db.providers))
      else
        var profile := NewProviderProfile(user.id, Some(BioText(data.service, data.location)), data.location);
        Step(Ok(Token(accessToken, DEFAULT_TOKEN_TYPE, user.role, user.name)), Tables(users, db.providers[user.id := profile]))
  }

  /** login_user: an unknown phone and a wrong password give the same 401. */
  function Login(users: seq<User>, data: UserLogin, verify: (string, string) -> bool, accessToken: string): (r: Result<Token>)
    ensures r.Ok? <==> R.FirstUserByPhone(users, data.phone).Some?
                       && verify(data.password, R.FirstUserByPhone(users, data.phone).value.passwordHash)
    ensures r.Err? ==> r.error == Error(UNAUTHORIZED, INVALID_LOGIN)
    ensures r.Ok? ==> var u := R.FirstUserByPhone(users, data.phone).value;
      r.value == Token(accessToken, "bearer", u.role, u.name)
  {
    match R.FirstUserByPhone(users, data.phone)
    case None => Err(Error(UNAUTHORIZED, INVALID_LOGIN))
    case Some(u) =>
      if !verify(data.password, u.passwordHash) then Err(Error(UNAUTHORIZED, INVALID_LOGIN))
      else Ok(Token(accessToken, DEFAULT_TOKEN_TYPE, u.role, u.name))
  }

  /** A user who has just signed up can log in with the password whose hash
      was stored, and the token carries the role chosen at sign-up. */
  lemma RegisterThenLogin(db: Tables, data: UserSignup, hash: string, t1: string,
                          verify: (string, string) -> bool, t2: string)
    requires Register(db, data, hash, t1).result.Ok?
    requires verify(data.password, hash)
    ensures Login(Register(db, data, hash, t1).state.users, UserLogin(data.phone, data.password), verify, t2)
         == Ok(Token(t2, "bearer", data.userType, data.name))
  {
    var u := User(|db.users| + 1, data.phone, hash, data.name, data.userType);
    FindAppended(db.users, u);
  }

  /** Signing up twice with the same phone is refused the second time. */
  lemma RegisterTwice(db: Tables, data: UserSignup, h1: string, t1: string, other: UserSignup, h2: string, t2: string)
    requires Register(db, data, h1, t1).result.Ok?
    requires other.phone == data.phone
    ensures Register(Register(db, data, h1, t1).state, other, h2, t2).result.Err?
  {
    var u := User(|db.users| + 1, data.phone, h1, data.name, data.userType);
    FindAppended(db.users, u);
  }

  /** A provider sign-up whose profile failed leaves its user behind: that
      user can log in as a provider but has no profile, and signing up
      again with the same phone is refused with 400. */
  lemma FailedProfileLeavesUser(db: Tables, data: UserSignup, hash: string, t1: string,
                                verify: (string, string) -> bool, t2: string,
                                other: UserSignup, h2: string, t3: string)
    requires R.FirstUserByPhone(db.users, data.phone).None?
    requires !ProfileFits(data)
    requires verify(data.password, hash)
    requires other.phone == data.phone
    ensures var s := Register(db, data, hash, t1);
      && s.result == Err(Error(INTERNAL_ERROR, R.VALUE_TOO_LONG))
      && s.state.providers == db.providers
      && Login(s.state.users, UserLogin(data.phone, data.password), verify, t2)
         == Ok(Token(t2, "bearer", "provider", data.name))
      && Register(s.state, other, h2, t3)
         == Step(Err(Error(BAD_REQUEST, "Phone number already registered")), s.state)
  {
    var u := User(|db.users| + 1, data.phone, hash, data.name, data.userType);
    FindAppended(db.users, u);
  }

  /** get_user_by_id */
  function GetUserById(users: seq<User>, id: int): (r: Result<User>)
    ensures r.Ok? <==> exists u :: u in users && u.id == id
    ensures r.Ok? ==> r.value in users && r.value.id == id
    ensures r.Err? ==> r.error == Error(NOT_FOUND, "User not found")
  {
    match FirstUserById(users, id)
    case None => Err(Error(NOT_FOUND, "User not found"))
    case Some(u) => Ok(u)
  }

  /** register_user on the database: the user row is committed first, then,
      for a provider, the profile row, which fails when it does not fit. */
  method RegisterUser(db: Database, data: UserSignup, passwordHash: string, accessToken: string) returns (r: Result<Token>)
    modifies db`users, db`providerProfiles
    ensures var s := Register(Tables(old(db.users), old(db.providerProfiles)), data, passwordHash, accessToken);
      r == s.result && db.users == s.state.users && db.providerProfiles == s.state.providers
    ensures old(db.Valid()) ==> db.Valid()
  {
    if R.FirstUserByPhone(db.users, data.phone).Some? {
      return Err(Error(BAD_REQUEST, "Phone number already registered"));
    }
    var user := User(|db.users| + 1, data.phone, passwordHash, data.name, data.userType);
    db.users := db.users + [user];
    if data.userType == "provider" {
      if !ProfileFits(data) {
        return Err(Error(INTERNAL_ERROR, R.VALUE_TOO_LONG));
      }
      var profile := NewProviderProfile(user.id, Some(BioText(data.service, data.location)), data.location);
      db.providerProfiles := db.providerProfiles[user.id := profile];
    }
    r := Ok(Token(accessToken, DEFAULT_TOKEN_TYPE, user.role, user.name));
  }
}

=== FILE: bookings.dfy ===
/** The `bookings` table (backend/models/bookings.py): the five lifecycle
    states of a booking and the row that carries them. */
module Bookings {

  import opened Common
  import opened Strings

  datatype BookingStatus = Pending | Accepted | Rejected | Completed | Cancelled

  /** The text stored for each state. */
  function StatusValue(s: BookingStatus): string {
    match s
    case Pending => "pending"
    case Accepted => "accepted"
    case Rejected => "rejected"
    case Completed => "completed"
    case Cancelled => "cancelled"
  }

  /** Reads a stored status back; exactly the five texts above are states. */
  function ParseStatus(v: string): (r: Option<BookingStatus>)
    ensures r.Some? ==> StatusValue(r.value) == v
    ensures r.None? <==> forall s: BookingStatus :: StatusValue(s) != v
  {
    if v == "pending" then Some(Pending)
    else if v == "accepted" then Some(Accepted)
    else if v == "rejected" then Some(Rejected)
    else if v == "completed" then Some(Completed)
    else if v == "cancelled" then Some(Cancelled)
    else
      assert StatusValue(Pending) != v && StatusValue(Accepted) != v && StatusValue(Rejected) != v;
      None
  }

  lemma StatusRoundTrip(s: BookingStatus)
    ensures ParseStatus(StatusValue(s)) == Some(s)
  {
  }

  /** A row of `bookings`. Optional columns are the nullable ones. */
  datatype Booking = Booking(
    id: nat,
    customerPhone: string,
    providerPhone: string,
    service: string,
    description: Option<string>,
    location: Option<string>,
    status: BookingStatus,
    bookingType: string,
    scheduledDate: Option<string>,
    scheduledTime: Option<string>,
    oneTimeCode: Option<string>,
    acceptanceCode: Option<string>,
    completionCode: Option<string>)

  const DEFAULT_STATUS: BookingStatus := Pending
  const DEFAULT_BOOKING_TYPE: string := "scheduled"

  /** The row the ORM inserts: an omitted status or booking type takes its
      column default, and the acceptance and completion codes start null. */
  function NewRow(
    id: nat, customerPhone: string, providerPhone: string, service: string,
    description: Option<string>, location: Option<string>,
    status: Option<BookingStatus>, bookingType: Option<string>,
    scheduledDate: Option<string>, scheduledTime: Option<string>,
    oneTimeCode: Option<string>): (b: Booking)
    ensures status.None? ==> b.status == Pending
    ensures bookingType.None? ==> b.bookingType == "scheduled"
    ensures b.acceptanceCode.None? && b.completionCode.None?
    ensures b.id == id && b.customerPhone == customerPhone && b.providerPhone == providerPhone
  {
    Booking(id, customerPhone, providerPhone, service, description, location,
      status.GetOr(DEFAULT_STATUS), bookingType.GetOr(DEFAULT_BOOKING_TYPE),
      scheduledDate, scheduledTime, oneTimeCode, None, None)
  }

  predicate FitsIn(x: Option<string>, n: nat) {
    x.None? || |x.value| <= n
  }

  /** The declared widths of the bounded columns. */
  predicate ColumnsFit(b: Booking) {
    && |b.customerPhone| <= 15 && |b.providerPhone| <= 15
    && |b.service| <= 100
    && FitsIn(b.location, 255)
    && |b.bookingType| <= 20
    && FitsIn(b.scheduledDate, 20) && FitsIn(b.scheduledTime, 20)
    && FitsIn(b.oneTimeCode, 6) && FitsIn(b.acceptanceCode, 6) && FitsIn(b.completionCode, 6)
  }

  /** A random number in [100000, 999999] rendered in decimal: the text
      stored in the three code columns. */
  function SixDigitCode(n: int): (c: string)
    requires 100000 <= n <= 999999
    ensures |c| == 6 && AllDigits(c)
    ensures DecimalValue(c) == n
  {
    SixDigitLength(n);
    DecimalRoundTrip(n);
    DecimalString(n)
  }

  /** Distinct draws give distinct codes. */
  lemma SixDigitCodeInjective(n: int, m: int)
    requires 100000 <= n <= 999999 && 100000 <= m <= 999999
    ensures SixDigitCode(n) == SixDigitCode(m) <==> n == m
  {
  }

  /** Keyed(t): the row at position i has id i + 1, as the auto-increment
      key assigns them (rows are never deleted from `bookings`). */
  predicate Keyed(t: seq<Booking>) {
    forall i :: 0 <= i < |t| ==> t[i].id == i + 1
  }

  /** Position of the row whose id is `id`. */
  function Lookup(t: seq<Booking>, id: int): (r: Option<nat>)
    ensures r.Some? ==> r.value < |t|
  {
    if 1 <= id <= |t| then Some(id - 1) else None
  }

  /** On a keyed table, `Lookup` finds exactly the row that a filter on
      `Booking.id == id` selects. */
  lemma LookupIsIdFilter(t: seq<Booking>, id: int)
    requires Keyed(t)
    ensures Lookup(t, id).Some? ==> t[Lookup(t, id).value].id == id
    ensures Lookup(t, id).None? ==> forall i :: 0 <= i < |t| ==> t[i].id != id
  {
  }
}

=== FILE: code_generator.dfy ===
/** Job completion codes (backend/utils/code_generator.py): drawing a
    code that no live code already holds, storing it for seven days, and
    redeeming it once. The `job_codes` table is a map from the code, its
    primary key, to the row. The random characters are given as draws,
    one sequence of alphabet positions per pass of the retry loop. */
module CodeGenerator {

  import opened Common
  import opened Models
  import Db

  /** `string.ascii_uppercase + string.digits`. */
  const CODE_ALPHABET: string := "ABCDEFGHIJKLMNOPQRSTUVWXYZ0123456789"
  const CODE_LENGTH := 6
  const CODE_EXPIRY_DAYS := 7
  const SECONDS_PER_DAY := 86400

  type Table = map<string, JobCode>

  /** Every row is stored under its own code. */
  predicate Keyed(table: Table) {
    forall c :: c in table ==> table[c].code == c
  }

  /** The passes of `random.choices`: each `length` positions in the
      alphabet. */
  predicate Drawn(draws: seq<seq<nat>>, length: nat) {
    && (forall k :: 0 <= k < |draws| ==> |draws[k]| == length)
    && (forall k, i :: 0 <= k < |draws| && 0 <= i < |draws[k]| ==> draws[k][i] < |CODE_ALPHABET|)
  }

  /** The code a pass of the loop produces from its draw. */
  function Spell(draw: seq<nat>): (code: string)
    requires forall i :: 0 <= i < |draw| ==> draw[i] < |CODE_ALPHABET|
    ensures |code| == |draw|
    ensures forall i :: 0 <= i < |code| ==> code[i] == CODE_ALPHABET[draw[i]]
  {
    if draw == [] then [] else [CODE_ALPHABET[draw[0]]] + Spell(draw[1..])
  }

  predicate InAlphabet(code: string) {
    forall i :: 0 <= i < |code| ==> code[i] in CODE_ALPHABET
  }

  /** A row the lookup of the loop and of `validate_and_use_code` finds:
      stored under `code`, unused, and not yet expired. */
  predicate Live(table: Table, code: string, now: int) {
    code in table && table[code].status == Unused && table[code].expiresAt > now
  }

  // ---------------------------------------------------------------------
  // generate_unique_code

  /** The code the retry loop returns: the first draw whose code no live
      row holds, or None when every given draw collides (the loop would
      then go on drawing). */
  function FirstFresh(table: Table, draws: seq<seq<nat>>, length: nat, now: int): (r: Option<string>)
    requires Drawn(draws, length)
    ensures r.Some? ==> |r.value| == length && InAlphabet(r.value) && !Live(table, r.value, now)
    ensures r.Some? ==> exists k :: 0 <= k < |draws| && r.value == Spell(draws[k])
                                    && forall j :: 0 <= j < k ==> Live(table, Spell(draws[j]), now)
    ensures r.None? <==> forall k :: 0 <= k < |draws| ==> Live(table, Spell(draws[k]), now)
    decreases |draws|
  {
    if draws == [] then None
    else
      var code := Spell(draws[0]);
      if !Live(table, code, now) then
        Some(code)
      else
        var r := FirstFresh(table, draws[1..], length, now);
        if r.Some? then
          var k :| 0 <= k < |draws[1..]| && r.value == Spell(draws[1..][k])
                   && forall j :: 0 <= j < k ==> Live(table, Spell(draws[1..][j]), now);
          assert r.value == Spell(draws[k + 1]);
          assert forall j :: 0 <= j < k + 1 ==> Live(table, Spell(draws[j]), now) by {
            forall j | 0 <= j < k + 1 ensures Live(table, Spell(draws[j]), now) {
              if j > 0 { assert draws[j] == draws[1..][j - 1]; }
            }
          }
          r
        else
          assert forall k :: 1 <= k < |draws| ==> draws[k] == draws[1..][k - 1];
          r
  }

  /** generate_unique_code: draw codes until one is not held by a live
      row. */
  method GenerateUniqueCode(db: Db.Database, draws: seq<seq<nat>>, length: nat, now: int) returns (r: Option<string>)
    requires Drawn(draws, length)
    ensures r == FirstFresh(db.jobCodes, draws, length, now)
  {
    var k := 0;
    while k < |draws|
      invariant 0 <= k <= |draws|
      invariant FirstFresh(db.jobCodes, draws, length, now) == FirstFresh(db.jobCodes, draws[k..], length, now)
    {
      assert draws[k..][1..] == draws[k + 1..];
      var code := Spell(draws[k]);
      if !Live(db.jobCodes, code, now) {
        return Some(code);
      }
      k := k + 1;
    }
    return None;
  }

  // ---------------------------------------------------------------------
  // create_job_code

  /** The row create_job_code inserts. */
  function NewJobCode(code: string, providerId: nat, now: int): (j: JobCode)
    ensures j.code == code && j.providerId == providerId && j.status == Unused && j.usedAt.None?
    ensures j.expiresAt == now + 7 * 24 * 60 * 60
  {
    JobCode(code, providerId, Unused, now + CODE_EXPIRY_DAYS * SECONDS_PER_DAY, None)
  }

  /** The insert itself: a code already stored under its key violates the
      primary key and the commit fails. */
  function Insert(table: Table, row: JobCode): (s: Step<JobCode, Table>)
    ensures s.result.Ok? <==> row.code !in table
    ensures s.result.Ok? ==> s.result.value == row && s.state == table[row.code := row]
    ensures s.result.Err? ==> s.state == table && s.result.error.status == INTERNAL_ERROR
  {
    if row.code in table then Step(Err(Error(INTERNAL_ERROR, "duplicate key value violates unique constraint")), table)
    else Step(Ok(row), table[row.code := row])
  }

  /** create_job_code on the table, as written: the code avoids only live
      rows. None when the draws run out. */
  function Create(table: Table, providerId: nat, draws: seq<seq<nat>>, now: int): (s: Option<Step<JobCode, Table>>)
    requires Drawn(draws, CODE_LENGTH)
  {
    var code := FirstFresh(table, draws, CODE_LENGTH, now);
    if code.None? then None
    else Some(Insert(table, NewJobCode(code.value, providerId, now)))
  }

  /** A code stored by create_job_code is one that no live row held, and
      nothing else in the table changes. */
  lemma CreateAddsOneLiveCode(table: Table, providerId: nat, draws: seq<seq<nat>>, now: int)
    requires Drawn(draws, CODE_LENGTH)
    requires Keyed(table)
    ensures var s := Create(table, providerId, draws, now);
      s.Some? && s.value.result.Ok? ==>
        var j := s.value.result.value;
        && j.code !in table && |j.code| == CODE_LENGTH && InAlphabet(j.code)
        && s.value.state == table[j.code := j] && Keyed(s.value.state)
        && Live(s.value.state, j.code, now) && j.providerId == providerId
  {
  }

  /** create_job_code on the database. */
  method CreateJobCode(db: Db.Database, providerId: nat, draws: seq<seq<nat>>, now: int) returns (r: Option<Result<JobCode>>)
    requires Drawn(draws, CODE_LENGTH)
    modifies db`jobCodes
    ensures var s := Create(old(db.jobCodes), providerId, draws, now);
      && (s.None? ==> r.None? && db.jobCodes == old(db.jobCodes))
      && (s.Some? ==> r == Some(s.value.result) && db.jobCodes == s.value.state)
  {
    var code := GenerateUniqueCode(db, draws, CODE_LENGTH, now);
    if code.None? {
      return None;
    }
    var row := NewJobCode(code.value, providerId, now);
    if row.code in db.jobCodes {
      return Some(Err(Error(INTERNAL_ERROR, "duplicate key value violates unique constraint")));
    }
    db.jobCodes := db.jobCodes[row.code := row];
    return Some(Ok(row));
  }

  // ---------------------------------------------------------------------
  // validate_and_use_code

  /** validate_and_use_code on the table: a live code is marked used at
      `now` and returned; any other code gives None and no change. */
  function Redeem(table: Table, code: string, now: int): (s: (Option<JobCode>, Table))
    ensures s.0.Some? <==> Live(table, code, now)
    ensures s.0.None? ==> s.1 == table
  {
    if Live(table, code, now) then
      var used := table[code].(status := Used, usedAt := Some(now));
      (Some(used), table[code := used])
    else (None, table)
  }

  /** A redeemed code is the stored one, now used at `now`; only its row
      changes and the keys stay the same. */
  lemma RedeemMarksUsed(table: Table, code: string, now: int)
    requires Live(table, code, now)
    ensures var (r, t) := Redeem(table, code, now);
      && r == Some(t[code]) && t.Keys == table.Keys
      && t[code].status == Used && t[code].usedAt == Some(now)
      && t[code].providerId == table[code].providerId && t[code].expiresAt == table[code].expiresAt
      && forall c :: c in table && c != code ==> t[c] == table[c]
  {
  }

  /** Codes are single use: redeeming the same code again, at any later
      time, gives None. */
  lemma RedeemTwiceFails(table: Table, code: string, now: int, later: int)
    requires now <= later
    ensures Redeem(Redeem(table, code, now).1, code, later).0.None?
  {
  }

  /** Redeeming keeps every row stored under its own code. */
  lemma RedeemKeepsKeyed(table: Table, code: string, now: int)
    requires Keyed(table)
    ensures Keyed(Redeem(table, code, now).1)
  {
  }

  /** A freshly created code can be redeemed at any time before its seven
      days run out, and not after. */
  lemma CreatedCodeRedeemable(table: Table, providerId: nat, draws: seq<seq<nat>>, now: int, later: int)
    requires Drawn(draws, CODE_LENGTH)
    requires var s := Create(table, providerId, draws, now); s.Some? && s.value.result.Ok?
    ensures var s := Create(table, providerId, draws, now).value;
      Redeem(s.state, s.result.value.code, later).0.Some? <==> later < now + CODE_EXPIRY_DAYS * SECONDS_PER_DAY
  {
    var j := NewJobCode(FirstFresh(table, draws, CODE_LENGTH, now).value, providerId, now);
    assert Create(table, providerId, draws, now) == Some(Insert(table, j));
  }

  /** validate_and_use_code on the database. */
  method ValidateAndUseCode(db: Db.Database, code: string, now: int) returns (r: Option<JobCode>)
    modifies db`jobCodes
    ensures (r, db.jobCodes) == Redeem(old(db.jobCodes), code, now)
  {
    if code in db.jobCodes && db.jobCodes[code].status == Unused && db.jobCodes[code].expiresAt > now {
      var used := db.jobCodes[code].(status := Used, usedAt := Some(now));
      db.jobCodes := db.jobCodes[code := used];
      return Some(used);
    }
    return None;
  }

  // ---------------------------------------------------------------------
  // The key collision, and the generator that avoids it

  /** As written, the loop may return a code that a used row still holds;
      inserting it then violates the primary key. */
  lemma UsedCodeCollides()
    ensures var used := JobCode("AAAAAA", 1, Used, 1000, Some(10));
      var table := map["AAAAAA" := used];
      && FirstFresh(table, [[0, 0, 0, 0, 0, 0]], CODE_LENGTH, 100) == Some("AAAAAA")
      && Create(table, 2, [[0, 0, 0, 0, 0, 0]], 100) == Some(Step(Err(Error(INTERNAL_ERROR, "duplicate key value violates unique constraint")), table))
  {
    var draw: seq<nat> := [0, 0, 0, 0, 0, 0];
    assert Spell(draw) == "AAAAAA" by {
      assert |Spell(draw)| == 6;
      forall i | 0 <= i < 6 ensures Spell(draw)[i] == "AAAAAA"[i] {
        assert CODE_ALPHABET[0] == 'A';
      }
    }
  }

  /** The first draw whose code is not a key of the table at all. */
  function FirstFree(table: Table, draws: seq<seq<nat>>, length: nat): (r: Option<string>)
    requires Drawn(draws, length)
    ensures r.Some? ==> |r.value| == length && InAlphabet(r.value) && r.value !in table
    ensures r.None? <==> forall k :: 0 <= k < |draws| ==> Spell(draws[k]) in table
    decreases |draws|
  {
    if draws == [] then None
    else if Spell(draws[0]) !in table then Some(Spell(draws[0]))
    else
      var r := FirstFree(table, draws[1..], length);
      assert forall k :: 1 <= k < |draws| ==> draws[k] == draws[1..][k - 1];
      r
  }

  /** create_job_code with the generator that avoids every stored key. */
  function CreateFree(table: Table, providerId: nat, draws: seq<seq<nat>>, now: int): (s: Option<Step<JobCode, Table>>)
    requires Drawn(draws, CODE_LENGTH)
  {
    var code := FirstFree(table, draws, CODE_LENGTH);
    if code.None? then None
    else Some(Insert(table, NewJobCode(code.value, providerId, now)))
  }

  /** With the corrected generator the insert never fails: whenever some
      draw is new, one live code is added under a new key. */
  lemma CreateFreeSucceeds(table: Table, providerId: nat, draws: seq<seq<nat>>, now: int)
    requires Drawn(draws, CODE_LENGTH)
    requires Keyed(table)
    requires exists k :: 0 <= k < |draws| && Spell(draws[k]) !in table
    ensures var s := CreateFree(table, providerId, draws, now);
      && s.Some? && s.value.result.Ok?
      && var j := s.value.result.value;
      && j.code !in table && s.value.state == table[j.code := j] && Keyed(s.value.state)
      && Live(s.value.state, j.code, now) && j.providerId == providerId
  {
  }
}

=== FILE: code_verification_modal.dfy ===
/** The code-entry dialog for acceptance and completion codes
    (frontend/src/components/CodeVerificationModal.jsx). The component
    state is the fields of a class; what the `onVerify` callback does is a
    parameter (None when it resolves, the message of the error it throws
    otherwise), and `onClose` is recorded as a flag. */
module CodeVerificationModal {

  import opened Common
  import opened Strings

  const DEFAULT_CODE_LENGTH := 6
  const INVALID_CODE := "Invalid code. Please try again."

  /** The code after the user types `raw` into the field holding `code`:
      the digits of the input replace the code when there are no more than
      `length` of them; a longer input is refused. */
  function AcceptDigits(code: string, raw: string, length: nat): (r: string)
    ensures |KeepDigits(raw)| <= length ==> r == KeepDigits(raw)
    ensures |KeepDigits(raw)| > length ==> r == code
    ensures AllDigits(code) && |code| <= length ==> AllDigits(r) && |r| <= length
  {
    var value := KeepDigits(raw);
    if |value| <= length then value else code
  }

  /** Retyping what the field shows leaves it as it is. */
  lemma RetypeKeepsCode(code: string, length: nat)
    requires AllDigits(code) && |code| <= length
    ensures AcceptDigits(code, code, length) == code
  {
    KeepDigitsOfDigits(code);
  }

  /** Once the code is complete, one more digit is refused: the field
      never holds more than `length` digits. */
  lemma FullCodeRefusesDigit(code: string, d: char, length: nat)
    requires AllDigits(code) && |code| == length && IsDigit(d)
    ensures AcceptDigits(code, code + [d], length) == code
  {
    assert AllDigits(code + [d]) by {
      forall i | 0 <= i < |code + [d]| ensures IsDigit((code + [d])[i]) {
        if i < |code| { assert (code + [d])[i] == code[i]; }
      }
    }
    KeepDigitsOfDigits(code + [d]);
  }

  /** The message shown when Verify is pressed with an incomplete code; it
      names the expected number of digits. */
  function IncompleteMessage(length: nat): (m: string)
    ensures Contains(m, DecimalString(length) + "-digit code")
  {
    ContainsMiddle("Please enter the complete ", DecimalString(length) + "-digit code", "");
    assert "Please enter the complete " + (DecimalString(length) + "-digit code") + ""
      == "Please enter the complete " + IntString(length) + "-digit code";
    "Please enter the complete " + IntString(length) + "-digit code"
  }

  class CodeForm {
    const codeLength: nat
    var code: string
    var error: string
    var loading: bool
    var closeRequested: bool

    /** The field holds digits only and no more than `codeLength` of them;
        between two handlers no verification is in flight. */
    ghost predicate Valid()
      reads this
    {
      AllDigits(code) && |code| <= codeLength && !loading
    }

    /** The state the dialog opens with. */
    constructor (codeLength: nat)
      ensures Valid()
      ensures this.codeLength == codeLength && code == "" && error == "" && !loading && !closeRequested
    {
      this.codeLength := codeLength;
      code := "";
      error := "";
      loading := false;
      closeRequested := false;
    }

    /** handleCodeChange: digits only, and only while they fit. */
    method HandleCodeChange(raw: string)
      requires Valid()
      modifies this`code, this`error
      ensures Valid()
      ensures code == AcceptDigits(old(code), raw, codeLength)
      ensures error == if |KeepDigits(raw)| <= codeLength then "" else old(error)
    {
      var value := KeepDigits(raw);
      if |value| <= codeLength {
        code := value;
        error := "";
      }
    }

    /** Whether the Verify button can be pressed: only a complete code of
        digits is ever offered for verification. */
    function VerifyEnabled(): (enabled: bool)
      reads this
      requires Valid()
      ensures enabled ==> AllDigits(code) && |code| == codeLength
      ensures |code| == codeLength ==> enabled
    {
      !loading && |code| == codeLength
    }

    /** handleVerify: an incomplete code is refused without calling
        `onVerify`; a complete one is passed to it, and on success the field
        is cleared and the dialog closes, while a failure keeps the code and
        shows the error. Returns the code `onVerify` was called with. */
    method HandleVerify(failure: Option<string>) returns (sent: Option<string>)
      requires Valid()
      modifies this`code, this`error, this`loading, this`closeRequested
      ensures Valid()
      ensures sent.Some? <==> |old(code)| == codeLength
      ensures sent.Some? ==> sent.value == old(code) && AllDigits(sent.value)
      ensures sent.None? ==> code == old(code) && error == IncompleteMessage(codeLength) && closeRequested == old(closeRequested)
      ensures sent.Some? && failure.None? ==> code == "" && error == "" && closeRequested
      ensures sent.Some? && failure.Some? ==>
        code == old(code) && error == OrElse(failure, INVALID_CODE) && closeRequested == old(closeRequested)
    {
      if |code| != codeLength {
        error := IncompleteMessage(codeLength);
        return None;
      }
      loading := true;
      error := "";
      sent := Some(code);
      if failure.None? {
        code := "";
        closeRequested := true;
      } else {
        error := OrElse(failure, INVALID_CODE);
      }
      loading := false;
    }

    /** handleKeyPress: Enter verifies, but only a complete code; any other
        key, or Enter with an incomplete code, changes nothing. */
    method HandleKeyPress(key: string, failure: Option<string>) returns (sent: Option<string>)
      requires Valid()
      modifies this`code, this`error, this`loading, this`closeRequested
      ensures Valid()
      ensures sent.Some? <==> key == "Enter" && |old(code)| == codeLength
      ensures sent.Some? ==> sent.value == old(code)
      ensures sent.None? ==> code == old(code) && error == old(error) && closeRequested == old(closeRequested)
    {
      if key == "Enter" && |code| == codeLength {
        sent := HandleVerify(failure);
      } else {
        sent := None;
      }
    }
  }
}

=== FILE: common.dfy ===
/** Failure-compatible wrappers shared by every module of the model.
    An HTTP handler that raises `HTTPException(status_code, detail)` is
    modelled as returning `Err(Error(status_code, detail))`. */
module Common {

  datatype Option<+T> = None | Some(value: T) {
    function GetOr(default: T): T {
      match this
      case Some(v) => v
      case None => default
    }
  }

  /** The status code and `detail` text of an `HTTPException`. */
  datatype Error = Error(status: int, detail: string)

  datatype Result<+T> = Ok(value: T) | Err(error: Error)

  /** What a handler that changes a table gives back: its response (or the
      error it raised) and the table afterwards. */
  datatype Step<+T, +S> = Step(result: Result<T>, state: S)

  /** Python truthiness of an optional string (`x or default`). */
  function OrElse(x: Option<string>, default: string): string {
    if x.Some? && x.value != "" then x.value else default
  }

  // HTTP status codes the handlers raise
  const BAD_REQUEST := 400
  const UNAUTHORIZED := 401
  const FORBIDDEN := 403
  const NOT_FOUND := 404
  const UNPROCESSABLE := 422
  const TOO_MANY_REQUESTS := 429
  const INTERNAL_ERROR := 500
}

=== FILE: customers.dfy ===
/** The customer-profile endpoints (backend/routes/customers.py): create,
    partial update, read (own and by id) and delete of the caller's row in
    `customers`, keyed by user id. */
module CustomerProfiles {

  import opened Common
  import opened Models
  import Db

  const CUSTOMER: string := "customer"

  /** The body of a create or update request. */
  datatype ProfileBody = ProfileBody(address: Option<string>, locationName: Option<string>, preferences: Option<string>)

  predicate AtMost(x: Option<string>, n: nat) {
    x.None? || |x.value| <= n
  }

  /** The field limits checked before the handler runs. */
  function ValidateBody(b: ProfileBody): (r: Result<ProfileBody>)
    ensures r.Ok? <==> AtMost(b.address, 500) && AtMost(b.locationName, 255) && AtMost(b.preferences, 500)
    ensures r.Ok? ==> r.value == b
    ensures r.Err? ==> r.error.status == UNPROCESSABLE
  {
    if !AtMost(b.address, 500) then Err(Error(UNPROCESSABLE, "address"))
    else if !AtMost(b.locationName, 255) then Err(Error(UNPROCESSABLE, "location_name"))
    else if !AtMost(b.preferences, 500) then Err(Error(UNPROCESSABLE, "preferences"))
    else Ok(b)
  }

  type Profiles = map<nat, CustomerProfile>

  /** The stored profile with the fields the body supplies replaced. */
  function Merge(p: CustomerProfile, b: ProfileBody): (q: CustomerProfile)
    ensures q.userId == p.userId
    ensures q.address == (if b.address.Some? then b.address else p.address)
    ensures q.locationName == (if b.locationName.Some? then b.locationName else p.locationName)
    ensures q.preferences == (if b.preferences.Some? then b.preferences else p.preferences)
  {
    CustomerProfile(p.userId,
      if b.address.Some? then b.address else p.address,
      if b.locationName.Some? then b.locationName else p.locationName,
      if b.preferences.Some? then b.preferences else p.preferences)
  }

  /** create_customer_profile */
  function Create(profiles: Profiles, actor: User, b: ProfileBody): (s: Step<CustomerProfile, Profiles>)
    ensures s.result.Ok? <==> actor.role == CUSTOMER && actor.id !in profiles
    ensures s.result.Err? ==> s.state == profiles
    ensures s.result.Err? ==> s.result.error.status == (if actor.role != CUSTOMER then FORBIDDEN else BAD_REQUEST)
    ensures s.result.Ok? ==>
      && s.result.value == CustomerProfile(actor.id, b.address, b.locationName, b.preferences)
      && s.state == profiles[actor.id := s.result.value]
  {
    if actor.role != CUSTOMER then
      Step(Err(Error(FORBIDDEN, "Only users with customer role can create a customer profile")), profiles)
    else if actor.id in profiles then
      Step(Err(Error(BAD_REQUEST, "Customer profile already exists. Use PUT /customers/profile to update.")), profiles)
    else
      var p := CustomerProfile(actor.id, b.address, b.locationName, b.preferences);
      Step(Ok(p), profiles[actor.id := p])
  }

  /** update_customer_profile */
  function Update(profiles: Profiles, actor: User, b: ProfileBody): (s: Step<CustomerProfile, Profiles>)
    ensures s.result.Ok? <==> actor.role == CUSTOMER && actor.id in profiles
    ensures s.result.Err? ==> s.state == profiles
    ensures s.result.Err? ==> s.result.error.status == (if actor.role != CUSTOMER then FORBIDDEN else NOT_FOUND)
    ensures s.result.Ok? ==>
      && s.result.value == Merge(profiles[actor.id], b)
      && s.state == profiles[actor.id := s.result.value]
  {
    if actor.role != CUSTOMER then
      Step(Err(Error(FORBIDDEN, "Only users with customer role can update a customer profile")), profiles)
    else if actor.id !in profiles then
      Step(Err(Error(NOT_FOUND, "Customer profile not found. Use POST /customers/profile to create one.")), profiles)
    else
      var p := Merge(profiles[actor.id], b);
      Step(Ok(p), profiles[actor.id := p])
  }

  /** get_my_customer_profile */
  function Get(profiles: Profiles, actor: User): (r: Result<CustomerProfile>)
    ensures r.Ok? <==> actor.role == CUSTOMER && actor.id in profiles
    ensures r.Ok? ==> r.value == profiles[actor.id]
    ensures r.Err? ==> r.error.status == (if actor.role != CUSTOMER then FORBIDDEN else NOT_FOUND)
  {
    if actor.role != CUSTOMER then Err(Error(FORBIDDEN, "Only users with customer role can access customer profiles"))
    else if actor.id !in profiles then Err(Error(NOT_FOUND, "Customer profile not found"))
    else Ok(profiles[actor.id])
  }

  /** get_customer_profile_by_id: public, no role check. */
  function GetById(profiles: Profiles, id: int): (r: Result<CustomerProfile>)
    ensures r.Ok? <==> id >= 0 && id as nat in profiles
    ensures r.Ok? ==> r.value == profiles[id as nat]
    ensures r.Err? ==> r.error == Error(NOT_FOUND, "Customer profile not found")
  {
    if id < 0 || id as nat !in profiles then Err(Error(NOT_FOUND, "Customer profile not found"))
    else Ok(profiles[id as nat])
  }

  /** delete_customer_profile */
  function Delete(profiles: Profiles, actor: User): (s: Step<(), Profiles>)
    ensures s.result.Ok? <==> actor.role == CUSTOMER && actor.id in profiles
    ensures s.result.Err? ==> s.state == profiles
    ensures s.result.Err? ==> s.result.error.status == (if actor.role != CUSTOMER then FORBIDDEN else NOT_FOUND)
    ensures s.result.Ok? ==> s.state == profiles - {actor.id}
  {
    if actor.role != CUSTOMER then
      Step(Err(Error(FORBIDDEN, "Only users with customer role can delete a customer profile")), profiles)
    else if actor.id !in profiles then
      Step(Err(Error(NOT_FOUND, "Customer profile not found")), profiles)
    else
      Step(Ok(()), profiles - {actor.id})
  }

  // ---------------------------------------------------------------------
  // How the endpoints relate

  /** What a customer creates is what they then read, by either endpoint. */
  lemma CreateThenGet(profiles: Profiles, actor: User, b: ProfileBody)
    requires Create(profiles, actor, b).result.Ok?
    ensures var s := Create(profiles, actor, b).state;
      && Get(s, actor) == Ok(CustomerProfile(actor.id, b.address, b.locationName, b.preferences))
      && GetById(s, actor.id) == Get(s, actor)
      && Create(s, actor, b).result.Err?
  {
  }

  /** An update whose body supplies nothing leaves the table as it was;
      repeating an update changes nothing more. */
  lemma UpdateIdempotent(profiles: Profiles, actor: User, b: ProfileBody)
    requires Update(profiles, actor, b).result.Ok?
    ensures b == ProfileBody(None, None, None) ==> Update(profiles, actor, b).state == profiles
    ensures var s := Update(profiles, actor, b).state; Update(s, actor, b).state == s
  {
    var p := profiles[actor.id];
    if b == ProfileBody(None, None, None) {
      assert Merge(p, b) == p;
      assert profiles[actor.id := p] == profiles;
    }
  }

  /** Update touches only the caller's row; every other customer reads the same. */
  lemma UpdateOnlyOwnRow(profiles: Profiles, actor: User, b: ProfileBody, other: nat)
    requires other != actor.id
    ensures var s := Update(profiles, actor, b).state;
      (other in s <==> other in profiles) && (other in s ==> s[other] == profiles[other])
  {
  }

  /** After a delete the profile is gone, and it can be created again. */
  lemma DeleteThenGet(profiles: Profiles, actor: User, b: ProfileBody)
    requires Delete(profiles, actor).result.Ok?
    ensures var s := Delete(profiles, actor).state;
      && Get(s, actor) == Err(Error(NOT_FOUND, "Customer profile not found"))
      && Create(s, actor, b).result.Ok?
  {
  }

  // ---------------------------------------------------------------------
  // The handlers on the database

  method CreateProfile(db: Db.Database, actor: User, b: ProfileBody) returns (r: Result<CustomerProfile>)
    modifies db`customerProfiles
    ensures Step(r, db.customerProfiles) == Create(old(db.customerProfiles), actor, b)
    ensures old(db.Valid()) ==> db.Valid()
  {
    if actor.role != CUSTOMER {
      return Err(Error(FORBIDDEN, "Only users with customer role can create a customer profile"));
    }
    if actor.id in db.customerProfiles {
      return Err(Error(BAD_REQUEST, "Customer profile already exists. Use PUT /customers/profile to update."));
    }
    var p := CustomerProfile(actor.id, b.address, b.locationName, b.preferences);
    db.customerProfiles := db.customerProfiles[actor.id := p];
    r := Ok(p);
  }

  /** Each supplied field is written in turn; the others keep their values. */
  method UpdateProfile(db: Db.Database, actor: User, b: ProfileBody) returns (r: Result<CustomerProfile>)
    modifies db`customerProfiles
    ensures Step(r, db.customerProfiles) == Update(old(db.customerProfiles), actor, b)
    ensures old(db.Valid()) ==> db.Valid()
  {
    if actor.role != CUSTOMER {
      return Err(Error(FORBIDDEN, "Only users with customer role can update a customer profile"));
    }
    if actor.id !in db.customerProfiles {
      return Err(Error(NOT_FOUND, "Customer profile not found. Use POST /customers/profile to create one."));
    }
    var p := db.customerProfiles[actor.id];
    if b.address.Some? {
      p := p.(address := b.address);
    }
    if b.locationName.Some? {
      p := p.(locationName := b.locationName);
    }
    if b.preferences.Some? {
      p := p.(preferences := b.preferences);
    }
    db.customerProfiles := db.customerProfiles[actor.id := p];
    r := Ok(p);
  }

  method DeleteProfile(db: Db.Database, actor: User) returns (r: Result<()>)
    modifies db`customerProfiles
    ensures Step(r, db.customerProfiles) == Delete(old(db.customerProfiles), actor)
    ensures old(db.Valid()) ==> db.Valid()
  {
    if actor.role != CUSTOMER {
      return Err(Error(FORBIDDEN, "Only users with customer role can delete a customer profile"));
    }
    if actor.id !in db.customerProfiles {
      return Err(Error(NOT_FOUND, "Customer profile not found"));
    }
    db.customerProfiles := db.customerProfiles - {actor.id};
    r := Ok(());
  }
}

=== FILE: dashboard.dfy ===
/** The handlers of backend/routes/dashboard.py that write to the database,
    and the code check that only reads it. Each one performs the update the
    handler commits and is proved to agree with its specification in
    module `DashboardRules`; the properties are proved there and in
    `DashboardProperties`. */
module Dashboard {

  import opened Common
  import opened Models
  import opened Bookings
  import opened Db
  import R = DashboardRules

  /** create_booking */
  method CreateBooking(db: Database, actor: User, req: R.CreateRequest, n: int) returns (r: Result<R.CreateResponse>)
    requires 100000 <= n <= 999999
    modifies db`bookings
    ensures Step(r, db.bookings) == R.CreateBooking(db.users, db.providerProfiles, old(db.bookings), actor, req, n)
    ensures old(db.Valid()) ==> db.Valid()
  {
    if actor.role != R.CUSTOMER {
      return Err(Error(FORBIDDEN, "Only customers can create bookings"));
    }
    var provider := R.FirstProvider(db.users, req.providerPhone);
    if provider.None? {
      return Err(Error(NOT_FOUND, "Provider not found"));
    }
    var location := R.ProviderLocation(db.providerProfiles, provider.value);
    var code := SixDigitCode(n);
    var booking := R.PendingRow(|db.bookings| + 1, actor, req, location, code);
    if !R.RequestFits(actor, req, location) {
      return Err(Error(INTERNAL_ERROR, R.VALUE_TOO_LONG));
    }
    db.bookings := db.bookings + [booking];
    r := Ok(R.CreateResponse(booking.id, code, StatusValue(booking.status), booking.bookingType));
  }

  /** accept_booking */
  method AcceptBooking(db: Database, actor: User, bookingId: int, n: int) returns (r: Result<R.AcceptResponse>)
    requires 100000 <= n <= 999999
    modifies db`bookings
    ensures Step(r, db.bookings) == R.AcceptBooking(old(db.bookings), actor, bookingId, n)
    ensures old(db.Valid()) ==> db.Valid()
  {
    if actor.role != R.PROVIDER {
      return Err(Error(FORBIDDEN, "Only providers can accept bookings"));
    }
    if !R.ProviderHolds(db.bookings, bookingId, actor.phone, Pending) {
      return Err(Error(NOT_FOUND, "Booking not found or already processed"));
    }
    var booking := db.bookings[bookingId - 1];
    var code := SixDigitCode(n);
    db.bookings := db.bookings[bookingId - 1 := booking.(status := Accepted, acceptanceCode := Some(code))];
    r := Ok(R.AcceptResponse(booking.id, code, booking.customerPhone));
  }

  /** reject_booking */
  method RejectBooking(db: Database, actor: User, bookingId: int) returns (r: Result<()>)
    modifies db`bookings
    ensures Step(r, db.bookings) == R.RejectBooking(old(db.bookings), actor, bookingId)
    ensures old(db.Valid()) ==> db.Valid()
  {
    if actor.role != R.PROVIDER {
      return Err(Error(FORBIDDEN, "Only providers can reject bookings"));
    }
    if !R.ProviderHolds(db.bookings, bookingId, actor.phone, Pending) {
      return Err(Error(NOT_FOUND, "Booking not found or already processed"));
    }
    db.bookings := db.bookings[bookingId - 1 := db.bookings[bookingId - 1].(status := Rejected)];
    r := Ok(());
  }

  /** cancel_accepted_job */
  method CancelAcceptedJob(db: Database, actor: User, bookingId: int) returns (r: Result<()>)
    modifies db`bookings
    ensures Step(r, db.bookings) == R.CancelAcceptedJob(old(db.bookings), actor, bookingId)
    ensures old(db.Valid()) ==> db.Valid()
  {
    if actor.role != R.PROVIDER {
      return Err(Error(FORBIDDEN, "Only providers can cancel jobs"));
    }
    if !R.ProviderHolds(db.bookings, bookingId, actor.phone, Accepted) {
      return Err(Error(NOT_FOUND, "Accepted job not found"));
    }
    db.bookings := db.bookings[bookingId - 1 := db.bookings[bookingId - 1].(status := Cancelled)];
    r := Ok(());
  }

  /** complete_booking */
  method CompleteBooking(db: Database, actor: User, bookingId: int, n: int) returns (r: Result<R.CompleteResponse>)
    requires 100000 <= n <= 999999
    modifies db`bookings
    ensures Step(r, db.bookings) == R.CompleteBooking(old(db.bookings), actor, bookingId, n)
    ensures old(db.Valid()) ==> db.Valid()
  {
    if actor.role != R.PROVIDER {
      return Err(Error(FORBIDDEN, "Only providers can complete bookings"));
    }
    if !R.ProviderHolds(db.bookings, bookingId, actor.phone, Accepted) {
      return Err(Error(NOT_FOUND, "Booking not found or not in accepted status"));
    }
    var booking := db.bookings[bookingId - 1];
    var code := SixDigitCode(n);
    db.bookings := db.bookings[bookingId - 1 := booking.(status := Completed, completionCode := Some(code))];
    r := Ok(R.CompleteResponse(booking.id, code, booking.customerPhone));
  }

  /** verify_acceptance_code: it has no `modifies` clause, so no table
      changes, whatever the outcome. */
  method VerifyAcceptanceCode(db: Database, actor: User, bookingId: int, code: string) returns (r: Result<string>)
    ensures r.Ok? <==>
      && actor.role == R.CUSTOMER && R.CustomerOwns(db.bookings, bookingId, actor.phone)
      && db.bookings[bookingId - 1].status == Accepted && db.bookings[bookingId - 1].acceptanceCode == Some(code)
    ensures r == R.VerifyAcceptanceCode(db.bookings, actor, bookingId, code)
  {
    if actor.role != R.CUSTOMER {
      return Err(Error(FORBIDDEN, "Only customers can verify codes"));
    }
    if !R.CustomerOwns(db.bookings, bookingId, actor.phone) {
      return Err(Error(NOT_FOUND, "Booking not found"));
    }
    var booking := db.bookings[bookingId - 1];
    if booking.status != Accepted {
      return Err(Error(BAD_REQUEST, "Booking is not in accepted status"));
    }
    if booking.acceptanceCode != Some(code) {
      return Err(Error(BAD_REQUEST, "Invalid acceptance code"));
    }
    r := Ok(booking.providerPhone);
  }

  /** create_review */
  method CreateReview(db: Database, actor: User, req: R.ReviewRequest) returns (r: Result<nat>)
    modifies db`reviews
    ensures Step(r, db.reviews) == R.CreateReview(db.users, db.bookings, old(db.reviews), actor, req)
  {
    var id := req.bookingId;
    if actor.role != R.CUSTOMER {
      return Err(Error(FORBIDDEN, "Only customers can create reviews"));
    }
    if !(R.CustomerOwns(db.bookings, id, actor.phone) && db.bookings[id - 1].status == Completed) {
      return Err(Error(NOT_FOUND, "Booking not found or not completed"));
    }
    var booking := db.bookings[id - 1];
    if booking.completionCode != Some(req.completionCode) {
      return Err(Error(BAD_REQUEST, "Invalid completion code"));
    }
    if req.rating < 1.0 || req.rating > 5.0 {
      return Err(Error(BAD_REQUEST, "Rating must be between 1.0 and 5.0"));
    }
    var provider := R.FirstUserByPhone(db.users, booking.providerPhone);
    var customer := R.FirstUserByPhone(db.users, booking.customerPhone);
    if provider.None? || customer.None? {
      return Err(Error(NOT_FOUND, "Provider or customer not found"));
    }
    if R.Reviewed(db.reviews, provider.value.id, customer.value.id, req.completionCode) {
      return Err(Error(BAD_REQUEST, "Review already submitted for this booking"));
    }
    var review := Review(|db.reviews| + 1, provider.value.id, customer.value.id, req.completionCode, req.rating, req.comment);
    db.reviews := db.reviews + [review];
    r := Ok(review.id);
  }

  /** save_provider */
  method SaveProvider(db: Database, actor: User, providerPhone: string) returns (r: Result<()>)
    modifies db`savedProviders
    ensures Step(r, db.savedProviders) == R.SaveProvider(db.users, old(db.savedProviders), actor, providerPhone)
  {
    if actor.role != R.CUSTOMER {
      return Err(Error(FORBIDDEN, "Only customers can save providers"));
    }
    if R.FirstProvider(db.users, providerPhone).None? {
      return Err(Error(NOT_FOUND, "Provider not found"));
    }
    if (actor.phone, providerPhone) in db.savedProviders {
      return Err(Error(BAD_REQUEST, "Provider already saved"));
    }
    db.savedProviders := db.savedProviders + {(actor.phone, providerPhone)};
    r := Ok(());
  }

  /** unsave_provider */
  method UnsaveProvider(db: Database, actor: User, providerPhone: string) returns (r: Result<()>)
    modifies db`savedProviders
    ensures Step(r, db.savedProviders) == R.UnsaveProvider(old(db.savedProviders), actor, providerPhone)
  {
    if actor.role != R.CUSTOMER {
      return Err(Error(FORBIDDEN, "Only customers can unsave providers"));
    }
    if (actor.phone, providerPhone) !in db.savedProviders {
      return Err(Error(NOT_FOUND, "Provider not in saved list"));
    }
    db.savedProviders := db.savedProviders - {(actor.phone, providerPhone)};
    r := Ok(());
  }
}

=== FILE: dashboard_page.dfy ===
/** The dashboard page (frontend/src/pages/Dashboard.jsx): the customer's
    provider search with its filters, pagination and save toggle, and the
    provider's request and job lists. The state of each dashboard is the
    fields of a class; the fetches are left out, and what they give back,
    the clock and `Math.random()` are parameters. */
module DashboardPage {

  import opened Common
  import opened Strings
  import Api

  // ---------------------------------------------------------------------
  // Pagination

  const PER_PAGE := 6

  /** `Math.ceil(n / 6)`. */
  function TotalPages(n: nat): (t: nat)
    ensures t * PER_PAGE >= n && (t == 0 || (t - 1) * PER_PAGE < n)
    ensures t == 0 <==> n == 0
  {
    (n + PER_PAGE - 1) / PER_PAGE
  }

  /** `items.slice(lo, hi)` for non-negative bounds: both are clipped to
      the length. */
  function Slice<T>(items: seq<T>, lo: nat, hi: nat): seq<T> {
    var a := if lo < |items| then lo else |items|;
    var b := if hi < |items| then hi else |items|;
    if a <= b then items[a..b] else []
  }

  /** The providers shown on page `page`. */
  function PageSlice<T>(items: seq<T>, page: int): (r: seq<T>)
    requires page >= 1
    ensures |r| <= PER_PAGE
    ensures forall k :: 0 <= k < |r| ==> (page - 1) * PER_PAGE + k < |items| && r[k] == items[(page - 1) * PER_PAGE + k]
    ensures |r| == if |items| <= (page - 1) * PER_PAGE then 0
                   else if |items| - (page - 1) * PER_PAGE < PER_PAGE then |items| - (page - 1) * PER_PAGE
                   else PER_PAGE
  {
    Slice(items, (page - 1) * PER_PAGE, page * PER_PAGE)
  }

  /** Every provider is shown on a page: provider `i` is at position
      `i % 6` of page `i / 6 + 1`, a page between 1 and the page count. */
  lemma EveryProviderOnAPage<T>(items: seq<T>, i: int)
    requires 0 <= i < |items|
    ensures 1 <= i / PER_PAGE + 1 <= TotalPages(|items|)
    ensures var page := PageSlice(items, i / PER_PAGE + 1);
      i % PER_PAGE < |page| && page[i % PER_PAGE] == items[i]
  {
    assert (i / PER_PAGE) * PER_PAGE + i % PER_PAGE == i;
  }

  /** No provider is shown on two pages: the provider at position `k` of
      page `q` is provider `(q - 1) * 6 + k`, whose page is `q`. */
  lemma OnlyOnePage<T>(items: seq<T>, q: int, k: int)
    requires q >= 1 && 0 <= k < |PageSlice(items, q)|
    ensures var i := (q - 1) * PER_PAGE + k;
      i < |items| && PageSlice(items, q)[k] == items[i] && q == i / PER_PAGE + 1 && k == i % PER_PAGE
  {
  }

  /** Pages past the last one are empty; every page up to it is not. */
  lemma PagesInRange<T>(items: seq<T>, page: int)
    requires page >= 1
    ensures PageSlice(items, page) != [] <==> page <= TotalPages(|items|)
  {
  }

  /** The Previous and Next buttons, and whether the pagination is shown
      at all. */
  function PaginationShown(n: nat): (shown: bool)
    ensures shown <==> n > PER_PAGE
  {
    TotalPages(n) > 1
  }

  function PreviousEnabled(page: int): bool {
    page != 1
  }

  function NextEnabled(page: int, n: nat): bool {
    page != TotalPages(n)
  }

  /** From a page in range, the enabled Previous and Next buttons lead to
      pages in range, so the buttons alone never reach an empty page. */
  lemma NavigationStaysInRange(page: int, n: nat)
    requires PaginationShown(n) && 1 <= page <= TotalPages(n)
    ensures PreviousEnabled(page) ==> 1 <= page - 1 <= TotalPages(n)
    ensures NextEnabled(page, n) ==> 1 <= page + 1 <= TotalPages(n)
    ensures !PreviousEnabled(page) <==> page == 1
    ensures !NextEnabled(page, n) <==> page == TotalPages(n)
  {
  }

  // ---------------------------------------------------------------------
  // Filters

  const ALL := "all"

  /** The values of the rating select. */
  const RATING_VALUES := [ALL, "4.5", "4.0", "3.5"]

  /** `parseFloat` of an offered rating value, in tenths of a star. */
  function RatingTenths(value: string): (r: nat)
    requires value in RATING_VALUES && value != ALL
    ensures 35 <= r <= 45 && r % 5 == 0
  {
    if value == "4.5" then 45 else if value == "4.0" then 40 else 35
  }

  /** The filters object the effect hands to getProviders: the search
      text when it is not empty, the category and the location when they
      are not "all", and the minimum rating when one is selected. */
  function BuildFilters(search: string, category: string, location: string, rating: string): (f: Api.Filters)
    requires rating in RATING_VALUES
    ensures f.search.Some? <==> search != ""
    ensures f.search.Some? ==> f.search.value == search
    ensures f.service.Some? <==> category != ALL
    ensures f.service.Some? ==> f.service.value == category
    ensures f.location.Some? <==> location != ALL
    ensures f.location.Some? ==> f.location.value == location
    ensures f.minRating.Some? <==> rating != ALL
    ensures f.skip.None? && f.limit.None?
  {
    Api.Filters(
      if search != "" then Some(search) else None,
      if category != ALL then Some(category) else None,
      if location != ALL then Some(location) else None,
      if rating != ALL then Some(RatingTenths(rating)) else None,
      None, None)
  }

  /** A filter is in the query exactly when its candidate value is a
      non-empty string: the candidate names are all different. */
  lemma NamedParam(f: Api.Filters, k: nat, v: string)
    requires k < 6
    ensures (Api.Candidates(f)[k].0, v) in Api.Params(f) <==> Api.Candidates(f)[k].1 == Some(v) && v != ""
  {
    var c := Api.Candidates(f);
    if (c[k].0, Some(v)) in c {
      var i :| 0 <= i < |c| && c[i] == (c[k].0, Some(v));
      assert i == k;
    }
  }

  /** The query carries the search text exactly when there is one. */
  lemma SearchParam(search: string, category: string, location: string, rating: string)
    requires rating in RATING_VALUES
    ensures forall v :: (("search", v) in Api.Params(BuildFilters(search, category, location, rating))
      <==> search != "" && v == search)
  {
    forall v {
      NamedParam(BuildFilters(search, category, location, rating), 0, v);
    }
  }

  /** The query carries the category unless it is "all". */
  lemma ServiceParam(search: string, category: string, location: string, rating: string)
    requires rating in RATING_VALUES && category != ""
    ensures forall v :: (("service", v) in Api.Params(BuildFilters(search, category, location, rating))
      <==> category != ALL && v == category)
  {
    forall v {
      NamedParam(BuildFilters(search, category, location, rating), 1, v);
    }
  }

  /** The query carries the location unless it is "all". */
  lemma LocationParam(search: string, category: string, location: string, rating: string)
    requires rating in RATING_VALUES && location != ""
    ensures forall v :: (("location", v) in Api.Params(BuildFilters(search, category, location, rating))
      <==> location != ALL && v == location)
  {
    forall v {
      NamedParam(BuildFilters(search, category, location, rating), 2, v);
    }
  }

  /** The rating as the query writes it: JavaScript prints 4.0 as "4". */
  lemma RatingText(rating: string)
    requires rating in RATING_VALUES && rating != ALL
    ensures Api.RatingParam(Some(RatingTenths(rating))) == Some(if rating == "4.0" then "4" else rating)
  {
    if rating == "4.5" {
      assert DecimalString(4) + "." + [DigitChar(5)] == "4.5";
    } else if rating == "4.0" {
      assert DecimalString(4) == "4";
    } else {
      assert DecimalString(3) + "." + [DigitChar(5)] == "3.5";
    }
  }

  /** The query carries the selected rating as JavaScript prints the
      parsed number: "4" for "4.0". */
  lemma MinRatingParam(search: string, category: string, location: string, rating: string)
    requires rating in RATING_VALUES
    ensures forall v :: (("min_rating", v) in Api.Params(BuildFilters(search, category, location, rating))
      <==> rating != ALL && v == (if rating == "4.0" then "4" else rating))
  {
    if rating != ALL {
      RatingText(rating);
    }
    forall v {
      NamedParam(BuildFilters(search, category, location, rating), 3, v);
    }
  }

  /** With every filter cleared the providers are fetched without a query
      string. */
  lemma ClearedQueryEmpty()
    ensures Api.ProvidersQuery(BuildFilters("", ALL, ALL, ALL)) == ""
  {
  }

  /** handleCategorySelect's stored value: the "All" pill means "all". */
  function CategoryValue(pill: string): (c: string)
    ensures pill == "All" ==> c == ALL
    ensures pill != "All" ==> c == pill
  {
    if pill == "All" then ALL else pill
  }

  // ---------------------------------------------------------------------
  // Saved providers

  /** The part of a provider card the page changes. */
  datatype Provider = Provider(phone: string, name: string, isSaved: bool)

  /** The providers after a successful save or unsave of `phone`, whose
      saved flag was `isSaved` when the heart was clicked. */
  function SaveToggle(providers: seq<Provider>, phone: string, isSaved: bool): (r: seq<Provider>)
    ensures |r| == |providers|
    ensures forall i :: 0 <= i < |r| && providers[i].phone == phone ==> r[i] == providers[i].(isSaved := !isSaved)
    ensures forall i :: 0 <= i < |r| && providers[i].phone != phone ==> r[i] == providers[i]
  {
    seq(|providers|, i requires 0 <= i < |providers| =>
      if providers[i].phone == phone then providers[i].(isSaved := !isSaved) else providers[i])
  }

  /** Saving and then unsaving (or the reverse) gives back the list, when
      the clicked provider's flag was the one the button showed. */
  lemma SaveToggleTwice(providers: seq<Provider>, phone: string, isSaved: bool)
    requires forall i :: 0 <= i < |providers| && providers[i].phone == phone ==> providers[i].isSaved == isSaved
    ensures SaveToggle(SaveToggle(providers, phone, isSaved), phone, !isSaved) == providers
  {
  }

  const SAVE_FAILED := "Failed to update saved providers"

  class CustomerDashboard {
    var searchQuery: string
    var selectedCategory: string
    var selectedRating: string
    var selectedLocation: string
    var currentPage: int
    var providers: seq<Provider>
    var selectedProvider: Option<Provider>

    /** A page number of at least 1 and a rating the select offers. */
    ghost predicate Valid()
      reads this
    {
      currentPage >= 1 && selectedRating in RATING_VALUES
    }

    /** The state the dashboard mounts with. */
    constructor ()
      ensures Valid()
      ensures searchQuery == "" && selectedCategory == ALL && selectedRating == ALL && selectedLocation == ALL
      ensures currentPage == 1 && providers == [] && selectedProvider == None
    {
      searchQuery := "";
      selectedCategory := ALL;
      selectedRating := ALL;
      selectedLocation := ALL;
      currentPage := 1;
      providers := [];
      selectedProvider := None;
    }

    /** The filters object the current selection is fetched with. */
    function Filters(): (f: Api.Filters)
      reads this
      requires Valid()
    {
      BuildFilters(searchQuery, selectedCategory, selectedLocation, selectedRating)
    }

    /** The providers shown on the current page. */
    function CurrentProviders(): (r: seq<Provider>)
      reads this
      requires Valid()
      ensures r == PageSlice(providers, currentPage)
    {
      PageSlice(providers, currentPage)
    }

    /** Typing in the search box: a new search starts on page 1. */
    method SetSearch(query: string)
      requires Valid()
      modifies this`searchQuery, this`currentPage
      ensures Valid() && searchQuery == query && currentPage == 1
    {
      searchQuery := query;
      currentPage := 1;
    }

    /** handleCategorySelect. */
    method SelectCategory(pill: string)
      requires Valid()
      modifies this`selectedCategory, this`currentPage
      ensures Valid() && selectedCategory == CategoryValue(pill) && currentPage == 1
      ensures pill == "All" ==> Filters().service.None?
    {
      selectedCategory := if pill == "All" then ALL else pill;
      currentPage := 1;
    }

    /** The rating select. */
    method SelectRating(value: string)
      requires Valid() && value in RATING_VALUES
      modifies this`selectedRating, this`currentPage
      ensures Valid() && selectedRating == value && currentPage == 1
    {
      selectedRating := value;
      currentPage := 1;
    }

    /** The location select; its "All" option has the value "all". */
    method SelectLocation(value: string)
      requires Valid()
      modifies this`selectedLocation, this`currentPage
      ensures Valid() && selectedLocation == value && currentPage == 1
    {
      selectedLocation := value;
      currentPage := 1;
    }

    /** Clear All Filters: every filter back to its initial value, page 1,
      so the providers are fetched with no filter at all. */
    method ClearFilters()
      requires Valid()
      modifies this`searchQuery, this`selectedCategory, this`selectedRating, this`selectedLocation, this`currentPage
      ensures Valid()
      ensures searchQuery == "" && selectedCategory == ALL && selectedRating == ALL && selectedLocation == ALL
      ensures currentPage == 1
      ensures Filters() == Api.NO_FILTERS
    {
      selectedCategory := ALL;
      selectedRating := ALL;
      selectedLocation := ALL;
      searchQuery := "";
      currentPage := 1;
    }

    /** handlePageChange, from a page button or an enabled Previous or
      Next button. */
    method ChangePage(page: int)
      requires Valid() && page >= 1
      modifies this`currentPage
      ensures Valid() && currentPage == page
    {
      currentPage := page;
    }

    /** The fetch effect stores what getProviders answered with. */
    method ReceiveProviders(data: seq<Provider>)
      requires Valid()
      modifies this`providers
      ensures Valid() && providers == data
    {
      providers := data;
    }

    /** handleSaveProvider: when the save or unsave call succeeds the flag
      of the provider with that phone is flipped, in the list and in the
      open card; when it fails nothing changes and an alert is shown.
      Returns the alert's text, if any. */
    method SaveProvider(phone: string, isSaved: bool, failure: Option<string>) returns (alert: Option<string>)
      requires Valid()
      modifies this`providers, this`selectedProvider
      ensures Valid()
      ensures failure.Some? ==> alert == Some(OrElse(failure, SAVE_FAILED)) && providers == old(providers) && selectedProvider == old(selectedProvider)
      ensures failure.None? ==> alert.None? && providers == SaveToggle(old(providers), phone, isSaved)
      ensures failure.None? && old(selectedProvider).Some? && old(selectedProvider).value.phone == phone ==>
        selectedProvider == Some(old(selectedProvider).value.(isSaved := !isSaved))
      ensures failure.None? && !(old(selectedProvider).Some? && old(selectedProvider).value.phone == phone) ==>
        selectedProvider == old(selectedProvider)
    {
      if failure.Some? {
        return Some(OrElse(failure, SAVE_FAILED));
      }
      providers := SaveToggle(providers, phone, isSaved);
      if selectedProvider.Some? && selectedProvider.value.phone == phone {
        selectedProvider := Some(selectedProvider.value.(isSaved := !isSaved));
      }
      alert := None;
    }
  }

  // ---------------------------------------------------------------------
  // Provider dashboard

  /** A work request waiting to be accepted or rejected. */
  datatype Request = Request(id: int, customerName: string, location: string, service: string, description: string)

  /** An accepted job: the request's fields under a new id, with the date
      it was accepted and its one-time code. */
  datatype Job = Job(id: int, customerName: string, location: string, service: string, description: string,
                     acceptedDate: string, oneTimeCode: int)

  const CODE_LOW := 100000
  const CODE_HIGH := 999999

  /** generateUniqueCode for a draw `random` of `Math.random()` in [0, 1). */
  function GenerateUniqueCode(random: real): (code: int)
    requires 0.0 <= random < 1.0
    ensures CODE_LOW <= code <= CODE_HIGH
  {
    (100000.0 + random * 900000.0).Floor
  }

  /** The code always prints as six digits. */
  lemma CodeHasSixDigits(random: real)
    requires 0.0 <= random < 1.0
    ensures |DecimalString(GenerateUniqueCode(random))| == 6
  {
    SixDigitLength(GenerateUniqueCode(random));
  }

  /** `prev.filter(req => req.id !== id)` on requests. */
  function WithoutRequest(requests: seq<Request>, id: int): (r: seq<Request>)
    ensures |r| <= |requests|
    ensures forall x :: x in r <==> x in requests && x.id != id
    decreases |requests|
  {
    if requests == [] then []
    else
      var rest := WithoutRequest(requests[1..], id);
      assert forall x :: x in requests <==> x == requests[0] || x in requests[1..];
      if requests[0].id != id then [requests[0]] + rest else rest
  }

  /** `prev.filter(job => job.id !== id)` on jobs. */
  function WithoutJob(jobs: seq<Job>, id: int): (r: seq<Job>)
    ensures |r| <= |jobs|
    ensures forall x :: x in r <==> x in jobs && x.id != id
    decreases |jobs|
  {
    if jobs == [] then []
    else
      var rest := WithoutJob(jobs[1..], id);
      assert forall x :: x in jobs <==> x == jobs[0] || x in jobs[1..];
      if jobs[0].id != id then [jobs[0]] + rest else rest
  }

  /** Removing an id nobody has changes nothing. */
  lemma {:induction false} WithoutAbsentRequest(requests: seq<Request>, id: int)
    requires forall i :: 0 <= i < |requests| ==> requests[i].id != id
    ensures WithoutRequest(requests, id) == requests
    decreases |requests|
  {
    if requests != [] {
      WithoutAbsentRequest(requests[1..], id);
      assert [requests[0]] + requests[1..] == requests;
    }
  }

  /** Removing an id that only one request has removes exactly one. */
  lemma {:induction false} WithoutUniqueRequest(requests: seq<Request>, k: int)
    requires 0 <= k < |requests|
    requires forall i :: 0 <= i < |requests| && i != k ==> requests[i].id != requests[k].id
    ensures |WithoutRequest(requests, requests[k].id)| == |requests| - 1
    decreases |requests|
  {
    var id := requests[k].id;
    if k == 0 {
      WithoutAbsentRequest(requests[1..], id);
    } else {
      WithoutUniqueRequest(requests[1..], k - 1);
    }
  }

  /** The job an accepted request becomes. */
  function Accepted(request: Request, now: int, today: string, code: int): (j: Job)
    ensures j.id == now && j.acceptedDate == today && j.oneTimeCode == code
    ensures j.customerName == request.customerName && j.location == request.location
      && j.service == request.service && j.description == request.description
  {
    Job(now, request.customerName, request.location, request.service, request.description, today, code)
  }

  /** Every accepted job's code has six digits. */
  predicate CodesInRange(jobs: seq<Job>) {
    forall i :: 0 <= i < |jobs| ==> CODE_LOW <= jobs[i].oneTimeCode <= CODE_HIGH
  }

  /** The sample requests and jobs the page starts with. */
  const INITIAL_REQUESTS := [
    Request(1, "John Doe", "Mumbai, Maharashtra", "Plumbing", "Kitchen sink repair needed"),
    Request(2, "Sarah Smith", "Pune, Maharashtra", "Electrical", "Wiring issue in bedroom"),
    Request(3, "Raj Patel", "Ahmedabad, Gujarat", "Carpentry", "Door frame repair")]

  const INITIAL_JOBS := [
    Job(101, "Maria Garcia", "Delhi, NCR", "Plumbing", "Bathroom pipe leakage", "2025-10-01", 123456),
    Job(102, "David Wilson", "Bangalore, Karnataka", "Electrical", "AC installation required", "2025-10-02", 789012)]

  class ProviderDashboard {
    var workRequests: seq<Request>
    var acceptedJobs: seq<Job>

    /** Every accepted job carries a six-digit code. */
    ghost predicate Valid()
      reads this
    {
      CodesInRange(acceptedJobs)
    }

    /** The page starts with the sample requests and jobs. */
    constructor ()
      ensures Valid()
      ensures workRequests == INITIAL_REQUESTS && acceptedJobs == INITIAL_JOBS
    {
      workRequests := INITIAL_REQUESTS;
      acceptedJobs := INITIAL_JOBS;
    }

    /** handleAcceptRequest at time `now` (milliseconds) on day `today`,
      with `random` the draw of `Math.random()`: the request becomes one
      more accepted job carrying a fresh code, and every request with its
      id leaves the waiting list. Returns the code. */
    method AcceptRequest(request: Request, now: int, today: string, random: real) returns (code: int)
      requires Valid() && 0.0 <= random < 1.0
      modifies this
      ensures Valid()
      ensures CODE_LOW <= code <= CODE_HIGH
      ensures acceptedJobs == old(acceptedJobs) + [Accepted(request, now, today, code)]
      ensures workRequests == WithoutRequest(old(workRequests), request.id)
      ensures forall x :: x in workRequests ==> x.id != request.id
    {
      code := GenerateUniqueCode(random);
      acceptedJobs := acceptedJobs + [Accepted(request, now, today, code)];
      workRequests := WithoutRequest(workRequests, request.id);
    }

    /** handleRejectRequest: the request leaves the waiting list; the
      accepted jobs stay as they are. */
    method RejectRequest(id: int)
      requires Valid()
      modifies this`workRequests
      ensures Valid()
      ensures workRequests == WithoutRequest(old(workRequests), id)
      ensures forall x :: x in workRequests <==> x in old(workRequests) && x.id != id
    {
      workRequests := WithoutRequest(workRequests, id);
    }

    /** handleCancelJob: the job leaves the accepted list; the waiting
      requests stay as they are. */
    method CancelJob(id: int)
      requires Valid()
      modifies this`acceptedJobs
      ensures Valid()
      ensures acceptedJobs == WithoutJob(old(acceptedJobs), id)
      ensures forall x :: x in acceptedJobs <==> x in old(acceptedJobs) && x.id != id
    {
      acceptedJobs := WithoutJob(acceptedJobs, id);
    }
  }
}

=== FILE: dashboard_props.dfy ===
/** Properties of the booking workflow that relate several handlers of
    backend/routes/dashboard.py: which transitions exclude each other, which
    states are final, how the codes minted by one handler open the gate of
    another, and how each transition moves the dashboard counts. */
module DashboardProperties {

  import opened Common
  import opened Strings
  import opened Models
  import opened Bookings
  import opened DashboardRules

  // ---------------------------------------------------------------------
  // The lifecycle PENDING -> ACCEPTED | REJECTED, ACCEPTED -> COMPLETED | CANCELLED.

  /** Once a booking is accepted it can no longer be rejected, and once
      rejected it can no longer be accepted, whoever tries. */
  lemma AcceptRejectExclusive(t: seq<Booking>, p: User, q: User, id: int, n: int)
    requires 100000 <= n <= 999999
    ensures AcceptBooking(t, p, id, n).result.Ok? ==> RejectBooking(AcceptBooking(t, p, id, n).state, q, id).result.Err?
    ensures RejectBooking(t, q, id).result.Ok? ==> AcceptBooking(RejectBooking(t, q, id).state, p, id, n).result.Err?
  {
  }

  /** Once an accepted job is completed it can no longer be cancelled, and
      the other way round. */
  lemma CancelCompleteExclusive(t: seq<Booking>, p: User, q: User, id: int, n: int)
    requires 100000 <= n <= 999999
    ensures CompleteBooking(t, p, id, n).result.Ok? ==> CancelAcceptedJob(CompleteBooking(t, p, id, n).state, q, id).result.Err?
    ensures CancelAcceptedJob(t, q, id).result.Ok? ==> CompleteBooking(CancelAcceptedJob(t, q, id).state, p, id, n).result.Err?
  {
  }

  /** REJECTED, COMPLETED and CANCELLED are final: no transition applies to
      a booking in one of them. */
  lemma FinalStates(t: seq<Booking>, a: User, id: int, n: int)
    requires 100000 <= n <= 999999
    requires Lookup(t, id).Some? && t[id - 1].status in {Rejected, Completed, Cancelled}
    ensures AcceptBooking(t, a, id, n).result.Err? && RejectBooking(t, a, id).result.Err?
    ensures CancelAcceptedJob(t, a, id).result.Err? && CompleteBooking(t, a, id, n).result.Err?
  {
  }

  /** A transition succeeds only for the provider the booking names. */
  lemma OnlyOwnerMoves(t: seq<Booking>, a: User, id: int, n: int)
    requires 100000 <= n <= 999999
    requires Lookup(t, id).Some? && t[id - 1].providerPhone != a.phone
    ensures AcceptBooking(t, a, id, n).result.Err? && RejectBooking(t, a, id).result.Err?
    ensures CancelAcceptedJob(t, a, id).result.Err? && CompleteBooking(t, a, id, n).result.Err?
  {
  }

  /** Every transition keeps the row ids in step with their positions and
      every row within its declared column widths. */
  lemma TransitionsKeepTable(t: seq<Booking>, a: User, id: int, n: int)
    requires 100000 <= n <= 999999
    requires Keyed(t) && forall i :: 0 <= i < |t| ==> ColumnsFit(t[i])
    ensures var u := AcceptBooking(t, a, id, n).state; Keyed(u) && forall i :: 0 <= i < |u| ==> ColumnsFit(u[i])
    ensures var u := RejectBooking(t, a, id).state; Keyed(u) && forall i :: 0 <= i < |u| ==> ColumnsFit(u[i])
    ensures var u := CancelAcceptedJob(t, a, id).state; Keyed(u) && forall i :: 0 <= i < |u| ==> ColumnsFit(u[i])
    ensures var u := CompleteBooking(t, a, id, n).state; Keyed(u) && forall i :: 0 <= i < |u| ==> ColumnsFit(u[i])
  {
  }

  // ---------------------------------------------------------------------
  // Codes: what accept and complete mint is what the gates accept.

  /** After the provider accepts, the booking's customer passes
      verify_acceptance_code with exactly the code that was issued. */
  lemma AcceptThenVerify(t: seq<Booking>, p: User, c: User, id: int, n: int, code: string)
    requires 100000 <= n <= 999999
    requires AcceptBooking(t, p, id, n).result.Ok?
    requires c.role == CUSTOMER && c.phone == t[id - 1].customerPhone
    ensures VerifyAcceptanceCode(AcceptBooking(t, p, id, n).state, c, id, code).Ok?
        <==> code == AcceptBooking(t, p, id, n).result.value.acceptanceCode
    ensures VerifyAcceptanceCode(AcceptBooking(t, p, id, n).state, c, id, code).Ok? ==>
      VerifyAcceptanceCode(AcceptBooking(t, p, id, n).state, c, id, code).value == p.phone
  {
  }

  /** A booking whose acceptance code verifies is ACCEPTED, not COMPLETED,
      so no review can be written for it yet. */
  lemma VerifyBeforeCompletion(users: seq<User>, t: seq<Booking>, reviews: seq<Review>, c: User, id: int,
                               code: string, req: ReviewRequest)
    requires VerifyAcceptanceCode(t, c, id, code).Ok?
    requires req.bookingId == id
    ensures CreateReview(users, t, reviews, c, req).result.Err?
  {
  }

  /** After the provider completes the job, the customer's first review with
      the issued completion code and a rating in [1, 5] is stored, provided
      both parties are registered users and no review carries that code. */
  lemma CompleteThenReview(users: seq<User>, t: seq<Booking>, reviews: seq<Review>, p: User, c: User,
                           id: int, n: int, req: ReviewRequest)
    requires 100000 <= n <= 999999
    requires CompleteBooking(t, p, id, n).result.Ok?
    requires c.role == CUSTOMER && c.phone == t[id - 1].customerPhone
    requires req.bookingId == id && 1.0 <= req.rating <= 5.0
    requires FirstUserByPhone(users, p.phone).Some? && FirstUserByPhone(users, c.phone).Some?
    requires !Reviewed(reviews, FirstUserByPhone(users, p.phone).value.id, FirstUserByPhone(users, c.phone).value.id,
                       CompleteBooking(t, p, id, n).result.value.completionCode)
    ensures CreateReview(users, CompleteBooking(t, p, id, n).state, reviews, c, req).result.Ok?
        <==> req.completionCode == CompleteBooking(t, p, id, n).result.value.completionCode
  {
    var u := CompleteBooking(t, p, id, n).state;
    assert u[id - 1].providerPhone == p.phone;
  }

  /** A second identical review request is refused with 400, and adds
      nothing. */
  lemma ReviewOnce(users: seq<User>, t: seq<Booking>, reviews: seq<Review>, c: User, req: ReviewRequest)
    requires CreateReview(users, t, reviews, c, req).result.Ok?
    ensures var again := CreateReview(users, t, CreateReview(users, t, reviews, c, req).state, c, req);
      again.result.Err? && again.result.error.status == BAD_REQUEST
      && again.state == CreateReview(users, t, reviews, c, req).state
  {
    var after := CreateReview(users, t, reviews, c, req).state;
    var k := |reviews|;
    assert after[k].providerId == FirstUserByPhone(users, t[req.bookingId - 1].providerPhone).value.id;
    assert Reviewed(after, after[k].providerId, after[k].customerId, req.completionCode);
  }

  // ---------------------------------------------------------------------
  // Saved providers.

  /** Saving then unsaving the same provider restores the saved set. */
  lemma SaveThenUnsave(users: seq<User>, saved: set<SavedPair>, c: User, phone: string)
    requires SaveProvider(users, saved, c, phone).result.Ok?
    ensures UnsaveProvider(SaveProvider(users, saved, c, phone).state, c, phone).result.Ok?
    ensures UnsaveProvider(SaveProvider(users, saved, c, phone).state, c, phone).state == saved
  {
  }

  /** Each successful save raises the caller's saved_providers count by one,
      and each successful unsave lowers it by one. */
  lemma SavedCountMoves(users: seq<User>, saved: set<SavedPair>, c: User, phone: string)
    ensures SaveProvider(users, saved, c, phone).result.Ok? ==>
      |SavedBy(SaveProvider(users, saved, c, phone).state, c.phone)| == |SavedBy(saved, c.phone)| + 1
    ensures UnsaveProvider(saved, c, phone).result.Ok? ==>
      |SavedBy(UnsaveProvider(saved, c, phone).state, c.phone)| + 1 == |SavedBy(saved, c.phone)|
  {
    var x := (c.phone, phone);
    if SaveProvider(users, saved, c, phone).result.Ok? {
      assert SavedBy(saved + {x}, c.phone) == SavedBy(saved, c.phone) + {x};
    }
    if UnsaveProvider(saved, c, phone).result.Ok? {
      assert SavedBy(saved, c.phone) == SavedBy(saved - {x}, c.phone) + {x};
    }
  }

  // ---------------------------------------------------------------------
  // Counts.

  /** Replacing one row changes a count by what that row contributed. */
  lemma {:induction false} CountAfterUpdate(t: seq<Booking>, i: nat, b: Booking, side: Side, phone: string, sts: set<BookingStatus>)
    requires i < |t|
    ensures CountBookings(t[i := b], side, phone, sts) + Hit(t[i], side, phone, sts)
         == CountBookings(t, side, phone, sts) + Hit(b, side, phone, sts)
  {
    if i == 0 {
      assert t[i := b][1..] == t[1..];
    } else {
      assert t[i := b][1..] == t[1..][i - 1 := b];
      CountAfterUpdate(t[1..], i - 1, b, side, phone, sts);
    }
  }

  /** Appending a row adds what that row contributes. */
  lemma {:induction false} CountAfterAppend(t: seq<Booking>, b: Booking, side: Side, phone: string, sts: set<BookingStatus>)
    ensures CountBookings(t + [b], side, phone, sts) == CountBookings(t, side, phone, sts) + Hit(b, side, phone, sts)
  {
    if t != [] {
      assert (t + [b])[1..] == t[1..] + [b];
      CountAfterAppend(t[1..], b, side, phone, sts);
    } else {
      assert [b][1..] == [];
    }
  }

  /** Accepting moves one booking from the provider's pending requests to
      the accepted jobs; both parties' active counts stay the same. */
  lemma AcceptMovesCounts(t: seq<Booking>, p: User, id: int, n: int, side: Side, phone: string)
    requires 100000 <= n <= 999999
    requires AcceptBooking(t, p, id, n).result.Ok?
    ensures var u := AcceptBooking(t, p, id, n).state;
      && CountBookings(u, ProviderSide, p.phone, {Pending}) + 1 == CountBookings(t, ProviderSide, p.phone, {Pending})
      && CountBookings(u, ProviderSide, p.phone, {Accepted}) == CountBookings(t, ProviderSide, p.phone, {Accepted}) + 1
      && CountBookings(u, side, phone, ACTIVE) == CountBookings(t, side, phone, ACTIVE)
  {
    var u := AcceptBooking(t, p, id, n).state;
    var i := id - 1;
    assert u == t[i := u[i]];
    CountAfterUpdate(t, i, u[i], ProviderSide, p.phone, {Pending});
    CountAfterUpdate(t, i, u[i], ProviderSide, p.phone, {Accepted});
    CountAfterUpdate(t, i, u[i], side, phone, ACTIVE);
  }

  /** Completing a job takes it out of the provider's accepted jobs and out
      of both parties' active bookings. */
  lemma CompleteMovesCounts(t: seq<Booking>, p: User, id: int, n: int)
    requires 100000 <= n <= 999999
    requires CompleteBooking(t, p, id, n).result.Ok?
    ensures var u := CompleteBooking(t, p, id, n).state;
      && CountBookings(u, ProviderSide, p.phone, {Accepted}) + 1 == CountBookings(t, ProviderSide, p.phone, {Accepted})
      && CountBookings(u, ProviderSide, p.phone, ACTIVE) + 1 == CountBookings(t, ProviderSide, p.phone, ACTIVE)
      && CountBookings(u, CustomerSide, t[id - 1].customerPhone, ACTIVE) + 1
         == CountBookings(t, CustomerSide, t[id - 1].customerPhone, ACTIVE)
  {
    var u := CompleteBooking(t, p, id, n).state;
    var i := id - 1;
    assert u == t[i := u[i]];
    CountAfterUpdate(t, i, u[i], ProviderSide, p.phone, {Accepted});
    CountAfterUpdate(t, i, u[i], ProviderSide, p.phone, ACTIVE);
    CountAfterUpdate(t, i, u[i], CustomerSide, t[i].customerPhone, ACTIVE);
  }

  /** A new booking adds one to the customer's active bookings and history
      and one to the provider's pending requests. */
  lemma CreateMovesCounts(users: seq<User>, profiles: map<nat, ProviderProfile>, t: seq<Booking>,
                          c: User, req: CreateRequest, n: int)
    requires 100000 <= n <= 999999
    requires CreateBooking(users, profiles, t, c, req, n).result.Ok?
    ensures var u := CreateBooking(users, profiles, t, c, req, n).state;
      && CountBookings(u, CustomerSide, c.phone, ACTIVE) == CountBookings(t, CustomerSide, c.phone, ACTIVE) + 1
      && CountBookings(u, CustomerSide, c.phone, ALL_STATUSES) == CountBookings(t, CustomerSide, c.phone, ALL_STATUSES) + 1
      && CountBookings(u, ProviderSide, req.providerPhone, {Pending}) == CountBookings(t, ProviderSide, req.providerPhone, {Pending}) + 1
  {
    var u := CreateBooking(users, profiles, t, c, req, n).state;
    assert u == t + [u[|t|]];
    CountAfterAppend(t, u[|t|], CustomerSide, c.phone, ACTIVE);
    CountAfterAppend(t, u[|t|], CustomerSide, c.phone, ALL_STATUSES);
    CountAfterAppend(t, u[|t|], ProviderSide, req.providerPhone, {Pending});
  }
}

=== FILE: dashboard_rules.dfy ===
/** The booking workflow of backend/routes/dashboard.py as functions over
    the tables it reads and writes. Each handler that changes a table is a
    function from the old table to a `Step`: its response or the
    `HTTPException` it raises, and the table after the commit. The methods
    of module `Dashboard` perform the same updates on the database object
    and are proved equal to these functions. */
module DashboardRules {

  import opened Common
  import opened Strings
  import opened Models
  import opened Bookings

  const CUSTOMER: string := "customer"
  const PROVIDER: string := "provider"

  // ---------------------------------------------------------------------
  // Queries on `users`.

  /** `query(User).filter(phone_number == phone, role == "provider").first()` */
  function FirstProvider(users: seq<User>, phone: string): (r: Option<User>)
    ensures r.Some? ==> r.value in users && r.value.phone == phone && r.value.role == PROVIDER
    ensures r.None? ==> forall u :: u in users ==> u.phone != phone || u.role != PROVIDER
  {
    if users == [] then None
    else if users[0].phone == phone && users[0].role == PROVIDER then Some(users[0])
    else FirstProvider(users[1..], phone)
  }

  /** `query(User).filter(phone_number == phone).first()` */
  function FirstUserByPhone(users: seq<User>, phone: string): (r: Option<User>)
    ensures r.Some? ==> r.value in users && r.value.phone == phone
    ensures r.None? ==> forall u :: u in users ==> u.phone != phone
  {
    if users == [] then None
    else if users[0].phone == phone then Some(users[0])
    else FirstUserByPhone(users[1..], phone)
  }

  // ---------------------------------------------------------------------
  // Queries on `bookings`.

  /** The booking `id` exists and its provider is `phone` in state `st`:
      the filter of accept, reject, cancel and complete. */
  predicate ProviderHolds(t: seq<Booking>, id: int, phone: string, st: BookingStatus) {
    Lookup(t, id).Some? && t[id - 1].providerPhone == phone && t[id - 1].status == st
  }

  /** The booking `id` exists and was placed by the customer `phone`. */
  predicate CustomerOwns(t: seq<Booking>, id: int, phone: string) {
    Lookup(t, id).Some? && t[id - 1].customerPhone == phone
  }

  /** Row `i` is the only one that may differ between `t` and `u`. */
  predicate OnlyRowChanged(t: seq<Booking>, u: seq<Booking>, i: int) {
    |u| == |t| && forall j :: 0 <= j < |t| && j != i ==> u[j] == t[j]
  }

  // ---------------------------------------------------------------------
  // create_booking

  datatype CreateRequest = CreateRequest(
    providerPhone: string,
    service: string,
    bookingType: string,
    scheduledDate: Option<string>,
    scheduledTime: Option<string>,
    description: Option<string>)

  datatype CreateResponse = CreateResponse(bookingId: nat, oneTimeCode: string, status: string, bookingType: string)

  /** How an f-string renders an optional value. */
  function PyStr(x: Option<string>): string {
    if x.Some? then x.value else "None"
  }

  function ScheduledPrefix(date: Option<string>, time: Option<string>): string {
    "Scheduled for " + PyStr(date) + " at " + PyStr(time) + "."
  }

  /** The sentence a description starts with. */
  function Sentence(bookingType: string, date: Option<string>, time: Option<string>): (h: string)
    ensures h != [] && !IsSpace(h[0], Python) && !IsSpace(h[|h| - 1], Python)
  {
    if bookingType == "immediate" then "Immediate booking."
    else
      var h := ScheduledPrefix(date, time);
      assert h == "Scheduled for " + (PyStr(date) + " at " + PyStr(time) + ".");
      assert h[0] == 'S';
      assert h[|h| - 1] == '.';
      h
  }

  /** The stored description: an "Immediate booking." or "Scheduled for D at
      T." sentence, then the customer's own text; with no text, the sentence
      alone. */
  function BookingDescription(bookingType: string, date: Option<string>, time: Option<string>,
                              description: Option<string>): (d: string)
    ensures StartsWith(d, Sentence(bookingType, date, time))
    ensures OrElse(description, "") == "" ==> d == Sentence(bookingType, date, time)
  {
    var head := Sentence(bookingType, date, time);
    StripSentence(head, OrElse(description, ""), Python);
    Strip(head + " " + OrElse(description, ""))
  }

  /** The location copied into a new booking: the provider profile's
      `location_name`, or null without a profile. */
  function ProviderLocation(profiles: map<nat, ProviderProfile>, provider: User): Option<string> {
    if provider.id in profiles then profiles[provider.id].locationName else None
  }

  /** The widths the new row must fit: the two phones, the service, the
      copied location, the booking type and the schedule. The code column
      always fits a six-digit code. */
  predicate RequestFits(actor: User, req: CreateRequest, location: Option<string>) {
    && |actor.phone| <= 15 && |req.providerPhone| <= 15
    && |req.service| <= 100
    && FitsIn(location, 255)
    && |req.bookingType| <= 20
    && FitsIn(req.scheduledDate, 20) && FitsIn(req.scheduledTime, 20)
  }

  /** The message PostgreSQL refuses an over-long `varchar` value with. */
  const VALUE_TOO_LONG := "value too long for type character varying"

  /** create_booking: a customer books an existing provider; one PENDING row
      owned by the caller is appended, carrying a fresh six-digit code and
      the provider's location. A row wider than its columns is refused by
      the database at commit, which the handler answers with 500. */
  function CreateBooking(users: seq<User>, profiles: map<nat, ProviderProfile>, t: seq<Booking>,
                         actor: User, req: CreateRequest, n: int): (s: Step<CreateResponse, seq<Booking>>)
    requires 100000 <= n <= 999999
    ensures s.result.Ok? <==>
      && actor.role == CUSTOMER && FirstProvider(users, req.providerPhone).Some?
      && RequestFits(actor, req, ProviderLocation(profiles, FirstProvider(users, req.providerPhone).value))
    ensures s.result.Err? ==> s.state == t
    ensures s.result.Err? && actor.role != CUSTOMER ==> s.result.error.status == FORBIDDEN
    ensures s.result.Err? && actor.role == CUSTOMER && FirstProvider(users, req.providerPhone).None? ==>
      s.result.error.status == NOT_FOUND
    ensures s.result.Err? && actor.role == CUSTOMER && FirstProvider(users, req.providerPhone).Some? ==>
      s.result.error == Error(INTERNAL_ERROR, VALUE_TOO_LONG)
    ensures s.result.Ok? ==>
      && |s.state| == |t| + 1 && s.state[..|t|] == t
      && var b := s.state[|t|];
      && b.id == s.result.value.bookingId == |t| + 1
      && b.status == Pending && s.result.value.status == "pending"
      && b.customerPhone == actor.phone && b.providerPhone == req.providerPhone
      && b.service == req.service && b.bookingType == req.bookingType == s.result.value.bookingType
      && b.scheduledDate == req.scheduledDate && b.scheduledTime == req.scheduledTime
      && b.description == Some(BookingDescription(req.bookingType, req.scheduledDate, req.scheduledTime, req.description))
      && b.location == ProviderLocation(profiles, FirstProvider(users, req.providerPhone).value)
      && b.oneTimeCode == Some(s.result.value.oneTimeCode)
      && |s.result.value.oneTimeCode| == 6 && AllDigits(s.result.value.oneTimeCode)
      && b.acceptanceCode.None? && b.completionCode.None?
      && ColumnsFit(b)
    ensures Keyed(t) ==> Keyed(s.state)
    ensures (forall i :: 0 <= i < |t| ==> ColumnsFit(t[i])) ==> forall i :: 0 <= i < |s.state| ==> ColumnsFit(s.state[i])
  {
    if actor.role != CUSTOMER then
      Step(Err(Error(FORBIDDEN, "Only customers can create bookings")), t)
    else match FirstProvider(users, req.providerPhone)
      case None => Step(Err(Error(NOT_FOUND, "Provider not found")), t)
      case Some(provider) =>
        var code := SixDigitCode(n);
        var location := ProviderLocation(profiles, provider);
        var b := PendingRow(|t| + 1, actor, req, location, code);
        if !RequestFits(actor, req, location) then
          Step(Err(Error(INTERNAL_ERROR, VALUE_TOO_LONG)), t)
        else
          AppendFits(t, b);
          Step(Ok(CreateResponse(b.id, code, StatusValue(b.status), b.bookingType)), t + [b])
  }

  /** The row create_booking adds; it fits its columns exactly when the
      request's values do. */
  function PendingRow(id: nat, actor: User, req: CreateRequest, location: Option<string>, code: string): (b: Booking)
    requires |code| == 6
    ensures b.id == id && b.status == Pending && b.customerPhone == actor.phone
    ensures b.providerPhone == req.providerPhone && b.service == req.service && b.bookingType == req.bookingType
    ensures b.scheduledDate == req.scheduledDate && b.scheduledTime == req.scheduledTime && b.location == location
    ensures b.description == Some(BookingDescription(req.bookingType, req.scheduledDate, req.scheduledTime, req.description))
    ensures b.oneTimeCode == Some(code) && b.acceptanceCode.None? && b.completionCode.None?
    ensures ColumnsFit(b) <==> RequestFits(actor, req, location)
  {
    NewRow(id, actor.phone, req.providerPhone, req.service,
      Some(BookingDescription(req.bookingType, req.scheduledDate, req.scheduledTime, req.description)),
      location, Some(Pending), Some(req.bookingType), req.scheduledDate, req.scheduledTime, Some(code))
  }

  /** Appending a row keeps the table's prefix, and every row fits when
      the old rows and the new one do. */
  lemma AppendFits(t: seq<Booking>, b: Booking)
    ensures (t + [b])[..|t|] == t && (t + [b])[|t|] == b
    ensures (forall i :: 0 <= i < |t| ==> ColumnsFit(t[i])) && ColumnsFit(b) ==>
      forall i :: 0 <= i < |t + [b]| ==> ColumnsFit((t + [b])[i])
  {
  }

  // ---------------------------------------------------------------------
  // accept_booking, reject_booking, cancel_accepted_job, complete_booking

  datatype AcceptResponse = AcceptResponse(bookingId: nat, acceptanceCode: string, customerPhone: string)
  datatype CompleteResponse = CompleteResponse(bookingId: nat, completionCode: string, customerPhone: string)

  /** accept_booking: only the provider of a PENDING booking can accept it;
      it becomes ACCEPTED with a six-digit acceptance code. */
  function AcceptBooking(t: seq<Booking>, actor: User, id: int, n: int): (s: Step<AcceptResponse, seq<Booking>>)
    requires 100000 <= n <= 999999
    ensures s.result.Ok? <==> actor.role == PROVIDER && ProviderHolds(t, id, actor.phone, Pending)
    ensures s.result.Err? ==> s.state == t
    ensures s.result.Err? ==> s.result.error.status == if actor.role != PROVIDER then FORBIDDEN else NOT_FOUND
    ensures s.result.Ok? ==>
      && OnlyRowChanged(t, s.state, id - 1)
      && s.state[id - 1] == t[id - 1].(status := Accepted, acceptanceCode := Some(s.result.value.acceptanceCode))
      && |s.result.value.acceptanceCode| == 6 && AllDigits(s.result.value.acceptanceCode)
      && s.result.value.customerPhone == t[id - 1].customerPhone
  {
    if actor.role != PROVIDER then
      Step(Err(Error(FORBIDDEN, "Only providers can accept bookings")), t)
    else if !ProviderHolds(t, id, actor.phone, Pending) then
      Step(Err(Error(NOT_FOUND, "Booking not found or already processed")), t)
    else
      var b := t[id - 1];
      var code := SixDigitCode(n);
      Step(Ok(AcceptResponse(b.id, code, b.customerPhone)), t[id - 1 := b.(status := Accepted, acceptanceCode := Some(code))])
  }

  /** reject_booking: only the provider of a PENDING booking can reject it. */
  function RejectBooking(t: seq<Booking>, actor: User, id: int): (s: Step<(), seq<Booking>>)
    ensures s.result.Ok? <==> actor.role == PROVIDER && ProviderHolds(t, id, actor.phone, Pending)
    ensures s.result.Err? ==> s.state == t
    ensures s.result.Err? ==> s.result.error.status == if actor.role != PROVIDER then FORBIDDEN else NOT_FOUND
    ensures s.result.Ok? ==>
      OnlyRowChanged(t, s.state, id - 1) && s.state[id - 1] == t[id - 1].(status := Rejected)
  {
    if actor.role != PROVIDER then
      Step(Err(Error(FORBIDDEN, "Only providers can reject bookings")), t)
    else if !ProviderHolds(t, id, actor.phone, Pending) then
      Step(Err(Error(NOT_FOUND, "Booking not found or already processed")), t)
    else
      Step(Ok(()), t[id - 1 := t[id - 1].(status := Rejected)])
  }

  /** cancel_accepted_job: only the provider of an ACCEPTED booking can
      cancel it. */
  function CancelAcceptedJob(t: seq<Booking>, actor: User, id: int): (s: Step<(), seq<Booking>>)
    ensures s.result.Ok? <==> actor.role == PROVIDER && ProviderHolds(t, id, actor.phone, Accepted)
    ensures s.result.Err? ==> s.state == t
    ensures s.result.Err? ==> s.result.error.status == if actor.role != PROVIDER then FORBIDDEN else NOT_FOUND
    ensures s.result.Ok? ==>
      OnlyRowChanged(t, s.state, id - 1) && s.state[id - 1] == t[id - 1].(status := Cancelled)
  {
    if actor.role != PROVIDER then
      Step(Err(Error(FORBIDDEN, "Only providers can cancel jobs")), t)
    else if !ProviderHolds(t, id, actor.phone, Accepted) then
      Step(Err(Error(NOT_FOUND, "Accepted job not found")), t)
    else
      Step(Ok(()), t[id - 1 := t[id - 1].(status := Cancelled)])
  }

  /** complete_booking: only the provider of an ACCEPTED booking can
      complete it; it becomes COMPLETED with a six-digit completion code. */
  function CompleteBooking(t: seq<Booking>, actor: User, id: int, n: int): (s: Step<CompleteResponse, seq<Booking>>)
    requires 100000 <= n <= 999999
    ensures s.result.Ok? <==> actor.role == PROVIDER && ProviderHolds(t, id, actor.phone, Accepted)
    ensures s.result.Err? ==> s.state == t
    ensures s.result.Err? ==> s.result.error.status == if actor.role != PROVIDER then FORBIDDEN else NOT_FOUND
    ensures s.result.Ok? ==>
      && OnlyRowChanged(t, s.state, id - 1)
      && s.state[id - 1] == t[id - 1].(status := Completed, completionCode := Some(s.result.value.completionCode))
      && |s.result.value.completionCode| == 6 && AllDigits(s.result.value.completionCode)
      && s.result.value.customerPhone == t[id - 1].customerPhone
  {
    if actor.role != PROVIDER then
      Step(Err(Error(FORBIDDEN, "Only providers can complete bookings")), t)
    else if !ProviderHolds(t, id, actor.phone, Accepted) then
      Step(Err(Error(NOT_FOUND, "Booking not found or not in accepted status")), t)
    else
      var b := t[id - 1];
      var code := SixDigitCode(n);
      Step(Ok(CompleteResponse(b.id, code, b.customerPhone)), t[id - 1 := b.(status := Completed, completionCode := Some(code))])
  }

  // ---------------------------------------------------------------------
  // verify_acceptance_code (reads only)

  /** verify_acceptance_code: succeeds, with the provider's phone, exactly
      when the caller's own booking is ACCEPTED and the code is its
      acceptance code; it never writes. */
  function VerifyAcceptanceCode(t: seq<Booking>, actor: User, id: int, code: string): (r: Result<string>)
    ensures r.Ok? <==>
      && actor.role == CUSTOMER && CustomerOwns(t, id, actor.phone)
      && t[id - 1].status == Accepted && t[id - 1].acceptanceCode == Some(code)
    ensures r.Ok? ==> r.value == t[id - 1].providerPhone
    ensures r.Err? ==>
      r.error.status == (if actor.role != CUSTOMER then FORBIDDEN else if !CustomerOwns(t, id, actor.phone) then NOT_FOUND else BAD_REQUEST)
  {
    if actor.role != CUSTOMER then Err(Error(FORBIDDEN, "Only customers can verify codes"))
    else if !CustomerOwns(t, id, actor.phone) then Err(Error(NOT_FOUND, "Booking not found"))
    else if t[id - 1].status != Accepted then Err(Error(BAD_REQUEST, "Booking is not in accepted status"))
    else if t[id - 1].acceptanceCode != Some(code) then Err(Error(BAD_REQUEST, "Invalid acceptance code"))
    else Ok(t[id - 1].providerPhone)
  }

  // ---------------------------------------------------------------------
  // create_review

  datatype ReviewRequest = ReviewRequest(bookingId: int, completionCode: string, rating: real, comment: Option<string>)

  /** Whether `reviews` holds one for this (provider, customer, job code). */
  predicate Reviewed(reviews: seq<Review>, providerId: nat, customerId: nat, jobCode: string) {
    exists k :: 0 <= k < |reviews| && reviews[k].providerId == providerId
      && reviews[k].customerId == customerId && reviews[k].jobCode == jobCode
  }

  /** The gate of create_review, in the order the handler checks it. */
  predicate ReviewAllowed(users: seq<User>, t: seq<Booking>, reviews: seq<Review>, actor: User, req: ReviewRequest) {
    && actor.role == CUSTOMER
    && CustomerOwns(t, req.bookingId, actor.phone) && t[req.bookingId - 1].status == Completed
    && t[req.bookingId - 1].completionCode == Some(req.completionCode)
    && 1.0 <= req.rating <= 5.0
    && FirstUserByPhone(users, t[req.bookingId - 1].providerPhone).Some?
    && FirstUserByPhone(users, t[req.bookingId - 1].customerPhone).Some?
    && !Reviewed(reviews, FirstUserByPhone(users, t[req.bookingId - 1].providerPhone).value.id,
                 FirstUserByPhone(users, t[req.bookingId - 1].customerPhone).value.id, req.completionCode)
  }

  /** create_review: appends exactly one review when every check passes, and
      nothing otherwise. */
  function CreateReview(users: seq<User>, t: seq<Booking>, reviews: seq<Review>, actor: User,
                        req: ReviewRequest): (s: Step<nat, seq<Review>>)
    ensures s.result.Ok? <==> ReviewAllowed(users, t, reviews, actor, req)
    ensures s.result.Err? ==> s.state == reviews
    ensures s.result.Ok? ==>
      && |s.state| == |reviews| + 1 && s.state[..|reviews|] == reviews
      && var r := s.state[|reviews|];
      && r.id == s.result.value == |reviews| + 1
      && r.jobCode == req.completionCode && r.rating == req.rating && r.comment == req.comment
      && r.providerId == FirstUserByPhone(users, t[req.bookingId - 1].providerPhone).value.id
      && r.customerId == FirstUserByPhone(users, t[req.bookingId - 1].customerPhone).value.id
  {
    var id := req.bookingId;
    if actor.role != CUSTOMER then
      Step(Err(Error(FORBIDDEN, "Only customers can create reviews")), reviews)
    else if !(CustomerOwns(t, id, actor.phone) && t[id - 1].status == Completed) then
      Step(Err(Error(NOT_FOUND, "Booking not found or not completed")), reviews)
    else if t[id - 1].completionCode != Some(req.completionCode) then
      Step(Err(Error(BAD_REQUEST, "Invalid completion code")), reviews)
    else if req.rating < 1.0 || req.rating > 5.0 then
      Step(Err(Error(BAD_REQUEST, "Rating must be between 1.0 and 5.0")), reviews)
    else
      var provider := FirstUserByPhone(users, t[id - 1].providerPhone);
      var customer := FirstUserByPhone(users, t[id - 1].customerPhone);
      if provider.None? || customer.None? then
        Step(Err(Error(NOT_FOUND, "Provider or customer not found")), reviews)
      else if Reviewed(reviews, provider.value.id, customer.value.id, req.completionCode) then
        Step(Err(Error(BAD_REQUEST, "Review already submitted for this booking")), reviews)
      else
        var r := Review(|reviews| + 1, provider.value.id, customer.value.id, req.completionCode, req.rating, req.comment);
        assert (reviews + [r])[..|reviews|] == reviews;
        Step(Ok(r.id), reviews + [r])
  }

  // ---------------------------------------------------------------------
  // save_provider, unsave_provider

  /** The customer's saved providers (the rows counted by the statistics). */
  function SavedBy(saved: set<SavedPair>, phone: string): set<SavedPair> {
    set p | p in saved && p.0 == phone
  }

  /** save_provider: adds the (caller, provider) pair when the provider
      exists and the pair is not yet saved. */
  function SaveProvider(users: seq<User>, saved: set<SavedPair>, actor: User, providerPhone: string): (s: Step<(), set<SavedPair>>)
    ensures s.result.Ok? <==>
      actor.role == CUSTOMER && FirstProvider(users, providerPhone).Some? && (actor.phone, providerPhone) !in saved
    ensures s.result.Ok? ==> s.state == saved + {(actor.phone, providerPhone)}
    ensures s.result.Err? ==> s.state == saved
    ensures s.result.Err? ==>
      s.result.error.status == (if actor.role != CUSTOMER then FORBIDDEN else if FirstProvider(users, providerPhone).None? then NOT_FOUND else BAD_REQUEST)
  {
    if actor.role != CUSTOMER then Step(Err(Error(FORBIDDEN, "Only customers can save providers")), saved)
    else if FirstProvider(users, providerPhone).None? then Step(Err(Error(NOT_FOUND, "Provider not found")), saved)
    else if (actor.phone, providerPhone) in saved then Step(Err(Error(BAD_REQUEST, "Provider already saved")), saved)
    else Step(Ok(()), saved + {(actor.phone, providerPhone)})
  }

  /** unsave_provider: removes the (caller, provider) pair when present. */
  function UnsaveProvider(saved: set<SavedPair>, actor: User, providerPhone: string): (s: Step<(), set<SavedPair>>)
    ensures s.result.Ok? <==> actor.role == CUSTOMER && (actor.phone, providerPhone) in saved
    ensures s.result.Ok? ==> s.state == saved - {(actor.phone, providerPhone)}
    ensures s.result.Err? ==> s.state == saved
    ensures s.result.Err? ==> s.result.error.status == if actor.role != CUSTOMER then FORBIDDEN else NOT_FOUND
  {
    if actor.role != CUSTOMER then Step(Err(Error(FORBIDDEN, "Only customers can unsave providers")), saved)
    else if (actor.phone, providerPhone) !in saved then Step(Err(Error(NOT_FOUND, "Provider not in saved list")), saved)
    else Step(Ok(()), saved - {(actor.phone, providerPhone)})
  }

  // ---------------------------------------------------------------------
  // get_customer_stats, get_provider_stats: counts over the tables.

  datatype Side = CustomerSide | ProviderSide

  function PartyPhone(b: Booking, side: Side): string {
    if side == CustomerSide then b.customerPhone else b.providerPhone
  }

  /** 1 when `b` belongs to `phone` on `side` and is in one of `sts`. */
  function Hit(b: Booking, side: Side, phone: string, sts: set<BookingStatus>): nat {
    if PartyPhone(b, side) == phone && b.status in sts then 1 else 0
  }

  /** `query(Booking).filter(<side>_phone == phone, status in sts).count()` */
  function CountBookings(t: seq<Booking>, side: Side, phone: string, sts: set<BookingStatus>): (c: nat)
    ensures c <= |t|
  {
    if t == [] then 0 else Hit(t[0], side, phone, sts) + CountBookings(t[1..], side, phone, sts)
  }

  const ALL_STATUSES: set<BookingStatus> := {Pending, Accepted, Rejected, Completed, Cancelled}
  const ACTIVE: set<BookingStatus> := {Pending, Accepted}

  /** The distinct customers of `phone`'s COMPLETED bookings. */
  function ServedCustomers(t: seq<Booking>, phone: string): set<string> {
    if t == [] then {}
    else
      var here: set<string> := if t[0].providerPhone == phone && t[0].status == Completed then {t[0].customerPhone} else {};
      here + ServedCustomers(t[1..], phone)
  }

  /** The reviews whose provider is `providerId`. */
  function CountReviews(reviews: seq<Review>, providerId: nat): (c: nat)
    ensures c <= |reviews|
  {
    if reviews == [] then 0
    else (if reviews[0].providerId == providerId then 1 else 0) + CountReviews(reviews[1..], providerId)
  }

  /** A narrower status filter never counts more bookings. */
  lemma {:induction false} CountMonotone(t: seq<Booking>, side: Side, phone: string, a: set<BookingStatus>, b: set<BookingStatus>)
    requires a <= b
    ensures CountBookings(t, side, phone, a) <= CountBookings(t, side, phone, b)
  {
    if t != [] {
      CountMonotone(t[1..], side, phone, a, b);
    }
  }

  /** Counting over two disjoint status filters adds up. */
  lemma {:induction false} CountSplit(t: seq<Booking>, side: Side, phone: string, a: set<BookingStatus>, b: set<BookingStatus>)
    requires a !! b
    ensures CountBookings(t, side, phone, a + b) == CountBookings(t, side, phone, a) + CountBookings(t, side, phone, b)
  {
    if t != [] {
      CountSplit(t[1..], side, phone, a, b);
    }
  }

  /** Each served customer has a completed booking of their own. */
  lemma {:induction false} ServedBound(t: seq<Booking>, phone: string)
    ensures |ServedCustomers(t, phone)| <= CountBookings(t, ProviderSide, phone, {Completed})
  {
    if t != [] {
      ServedBound(t[1..], phone);
    }
  }

  datatype CustomerStatsResponse = CustomerStatsResponse(activeBookings: nat, bookingHistory: nat, savedProviders: nat)

  /** get_customer_stats: the caller's PENDING or ACCEPTED bookings, all of
      the caller's bookings, and the caller's saved providers. */
  function CustomerStats(t: seq<Booking>, saved: set<SavedPair>, actor: User): (r: Result<CustomerStatsResponse>)
    ensures r.Ok? <==> actor.role == CUSTOMER
    ensures r.Err? ==> r.error.status == FORBIDDEN
    ensures r.Ok? ==> r.value.activeBookings <= r.value.bookingHistory <= |t|
    ensures r.Ok? ==> r.value.activeBookings == CountBookings(t, CustomerSide, actor.phone, ACTIVE)
    ensures r.Ok? ==> r.value.bookingHistory == CountBookings(t, CustomerSide, actor.phone, ALL_STATUSES)
    ensures r.Ok? ==> r.value.savedProviders == |SavedBy(saved, actor.phone)|
  {
    if actor.role != CUSTOMER then Err(Error(FORBIDDEN, "Only customers can access this endpoint"))
    else
      CountMonotone(t, CustomerSide, actor.phone, ACTIVE, ALL_STATUSES);
      Ok(CustomerStatsResponse(
        CountBookings(t, CustomerSide, actor.phone, ACTIVE),
        CountBookings(t, CustomerSide, actor.phone, ALL_STATUSES),
        |SavedBy(saved, actor.phone)|))
  }

  datatype ProviderStatsResponse = ProviderStatsResponse(
    totalReviews: nat, customersServed: nat, activeBookings: nat, pendingRequests: nat, acceptedJobs: nat)

  /** get_provider_stats, without the average rating: the review count,
      the distinct customers of completed bookings and the booking counts;
      active bookings are exactly the pending requests plus the accepted
      jobs, and no more customers are served than bookings were completed. */
  function ProviderStats(t: seq<Booking>, reviews: seq<Review>, actor: User): (r: Result<ProviderStatsResponse>)
    ensures r.Ok? <==> actor.role == PROVIDER
    ensures r.Err? ==> r.error.status == FORBIDDEN
    ensures r.Ok? ==> r.value.activeBookings == r.value.pendingRequests + r.value.acceptedJobs
    ensures r.Ok? ==> r.value.customersServed <= CountBookings(t, ProviderSide, actor.phone, {Completed})
    ensures r.Ok? ==> r.value.pendingRequests == CountBookings(t, ProviderSide, actor.phone, {Pending})
    ensures r.Ok? ==> r.value.acceptedJobs == CountBookings(t, ProviderSide, actor.phone, {Accepted})
    ensures r.Ok? ==> r.value.totalReviews == CountReviews(reviews, actor.id) <= |reviews|
    ensures r.Ok? ==> r.value.customersServed == |ServedCustomers(t, actor.phone)|
  {
    if actor.role != PROVIDER then Err(Error(FORBIDDEN, "Only providers can access this endpoint"))
    else
      CountSplit(t, ProviderSide, actor.phone, {Pending}, {Accepted});
      assert ACTIVE == {Pending} + {Accepted};
      ServedBound(t, actor.phone);
      Ok(ProviderStatsResponse(
        CountReviews(reviews, actor.id),
        |ServedCustomers(t, actor.phone)|,
        CountBookings(t, ProviderSide, actor.phone, ACTIVE),
        CountBookings(t, ProviderSide, actor.phone, {Pending}),
        CountBookings(t, ProviderSide, actor.phone, {Accepted})))
  }
}

=== FILE: database.dfy ===
/** The database every handler reaches through its session
    (backend/Database_connection/db.py): one object holding the tables the
    core reads and writes. Handlers that commit reassign the fields their
    `modifies` clause names. */
module Db {

  import opened Common
  import opened Models
  import opened Bookings

  class Database {
    var users: seq<User>
    var providerProfiles: map<nat, ProviderProfile>
    var customerProfiles: map<nat, CustomerProfile>
    var bookings: seq<Booking>
    var savedProviders: set<SavedPair>
    var reviews: seq<Review>
    var otpRecords: seq<OtpRecord>
    var jobCodes: map<string, JobCode>

    /** The key constraints and column widths the schema declares. */
    ghost predicate Valid()
      reads this
    {
      && UsersValid(users)
      && Keyed(bookings)
      && (forall i :: 0 <= i < |bookings| ==> ColumnsFit(bookings[i]))
      && (forall id :: id in providerProfiles ==> providerProfiles[id].userId == id)
      && (forall id :: id in customerProfiles ==> customerProfiles[id].userId == id)
      && (forall c :: c in jobCodes ==> jobCodes[c].code == c)
    }

    /** A freshly created, empty database. */
    constructor ()
      ensures Valid()
      ensures users == [] && bookings == [] && reviews == [] && otpRecords == []
      ensures providerProfiles == map[] && customerProfiles == map[] && jobCodes == map[]
      ensures savedProviders == {}
    {
      users := [];
      providerProfiles := map[];
      customerProfiles := map[];
      bookings := [];
      savedProviders := {};
      reviews := [];
      otpRecords := [];
      jobCodes := map[];
    }
  }
}

=== FILE: language_context.dfy ===
/** The translation context (frontend/src/contexts/LanguageContext.jsx):
    three translation tables, the `t` lookup that falls back to the key,
    the provider's language state and the `useLanguage` guard. A table is
    the list of its key and text entries in the order the object literal
    writes them. */
module LanguageContext {

  import opened Common

  type Table = seq<(string, string)>

  /** The English table, entries in the order they are written. */
  const EN: Table := [
    ("welcome", "Welcome to DoMyService"),
    ("tagline", "Connecting Communities, Building Trust"),
    ("findService", "Find a Service"),
    ("provideService", "Provide a Service"),
    ("customer", "Customer"),
    ("provider", "Service Provider"),
    ("signIn", "Sign In"),
    ("signUp", "Sign Up"),
    ("customerSignUp", "Customer Sign Up"),
    ("providerSignUp", "Service Provider Sign Up"),
    ("name", "Name"),
    ("location", "Location"),
    ("email", "Email"),
    ("mobile", "Mobile Number"),
    ("password", "Password"),
    ("serviceName", "Service Name"),
    ("serviceDescription", "Service Description"),
    ("experience", "Years of Experience"),
    ("submit", "Submit"),
    ("backToHome", "Back to Home"),
    ("alreadyHaveAccount", "Already have an account?"),
    ("dontHaveAccount", "Don't have an account?"),
    ("dashboard", "Dashboard"),
    ("comingSoon", "Coming Soon...")]

  /** The Hindi table, entries in the order they are written. */
  const HI: Table := [
    ("welcome", "DoMyService में आपका स्वागत है"),
    ("tagline", "समुदायों को जोड़ना, विश्वास बनाना"),
    ("findService", "सेवा खोजें"),
    ("provideService", "सेवा प्रदान करें"),
    ("customer", "ग्राहक"),
    ("provider", "सेवा प्रदाता"),
    ("signIn", "साइन इन करें"),
    ("signUp", "साइन अप करें"),
    ("customerSignUp", "ग्राहक साइन अप"),
    ("providerSignUp", "सेवा प्रदाता साइन अप"),
    ("name", "नाम"),
    ("location", "स्थान"),
    ("email", "ईमेल"),
    ("mobile", "मोबाइल नंबर"),
    ("password", "पासवर्ड"),
    ("serviceName", "सेवा का नाम"),
    ("serviceDescription", "सेवा का विवरण"),
    ("experience", "अनुभव के वर्ष"),
    ("submit", "जमा करें"),
    ("backToHome", "होम पर वापस जाएं"),
    ("alreadyHaveAccount", "पहले से खाता है?"),
    ("dontHaveAccount", "खाता नहीं है?"),
    ("dashboard", "डैशबोर्ड"),
    ("comingSoon", "जल्द आ रहा है...")]

  /** The Marathi table, entries in the order they are written. */
  const MR: Table := [
    ("welcome", "DoMyService मध्ये तुमचे स्वागत आहे"),
    ("tagline", "समुदायांना जोडणे, विश्वास निर्माण करणे"),
    ("findService", "सेवा शोधा"),
    ("provideService", "सेवा प्रदान करा"),
    ("customer", "ग्राहक"),
    ("provider", "सेवा प्रदाता"),
    ("signIn", "साइन इन करा"),
    ("signUp", "साइन अप करा"),
    ("customerSignUp", "ग्राहक साइन अप"),
    ("providerSignUp", "सेवा प्रदाता साइन अप"),
    ("name", "नाव"),
    ("location", "स्थान"),
    ("email", "ईमेल"),
    ("mobile", "मोबाइल नंबर"),
    ("password", "पासवर्ड"),
    ("serviceName", "सेवेचे नाव"),
    ("serviceDescription", "सेवेचे वर्णन"),
    ("experience", "अनुभवाची वर्षे"),
    ("submit", "सबमिट करा"),
    ("backToHome", "होम वर परत जा"),
    ("alreadyHaveAccount", "आधीच खाते आहे?"),
    ("dontHaveAccount", "खाते नाही आहे?"),
    ("dashboard", "डॅशबोर्ड"),
    ("comingSoon", "लवकरच येत आहे...")]

  const INITIAL_LANGUAGE := "en"
  const NO_PROVIDER := "useLanguage must be used within LanguageProvider"

  /** `translations[language]`: the table of a language, None for a
      language the object does not have. */
  function TableFor(language: string): (t: Option<Table>)
    ensures t.Some? <==> language in {"en", "hi", "mr"}
  {
    if language == "en" then Some(EN)
    else if language == "hi" then Some(HI)
    else if language == "mr" then Some(MR)
    else None
  }

  /** The keys of a table, in order. */
  function Keys(t: Table): (keys: seq<string>)
    ensures |keys| == |t| && forall i :: 0 <= i < |t| ==> keys[i] == t[i].0
  {
    seq(|t|, i requires 0 <= i < |t| => t[i].0)
  }

  /** `table[key]`: the text of the first entry with that key, None when
      no entry has it. */
  function Lookup(t: Table, key: string): (r: Option<string>)
    ensures r.None? <==> key !in Keys(t)
    ensures r.Some? ==> (key, r.value) in t
    decreases |t|
  {
    if t == [] then None
    else if t[0].0 == key then Some(t[0].1)
    else
      assert Keys(t) == [t[0].0] + Keys(t[1..]);
      Lookup(t[1..], key)
  }

  /** No key is written twice. */
  predicate Distinct(keys: seq<string>) {
    forall i, j :: 0 <= i < j < |keys| ==> keys[i] != keys[j]
  }

  /** Every entry has a non-empty text. */
  predicate Filled(t: Table) {
    forall i :: 0 <= i < |t| ==> t[i].1 != ""
  }

  /** In a table whose keys are distinct, looking up the key of an entry
      finds that entry's text. */
  lemma {:induction false} LookupEntry(t: Table, i: int)
    requires Distinct(Keys(t)) && 0 <= i < |t|
    ensures Lookup(t, t[i].0) == Some(t[i].1)
    decreases |t|
  {
    if i > 0 {
      assert Keys(t)[0] != Keys(t)[i];
      assert Distinct(Keys(t[1..])) by {
        forall a, b | 0 <= a < b < |t| - 1 ensures Keys(t[1..])[a] != Keys(t[1..])[b] {
          assert Keys(t)[a + 1] != Keys(t)[b + 1];
        }
      }
      LookupEntry(t[1..], i - 1);
    }
  }

  /** The three tables are written with the same keys in the same order. */
  lemma SameKeys()
    ensures |EN| == 24
    ensures Keys(HI) == Keys(EN) && Keys(MR) == Keys(EN)
  {
  }

  /** No key is written twice. */
  lemma DistinctKeys()
    ensures Distinct(Keys(EN))
  {
  }

  /** No text is empty. */
  lemma FilledTables()
    ensures Filled(EN) && Filled(HI) && Filled(MR)
  {
  }

  /** `t(key)` while `language` is selected: the table's text when it is
      there and not empty, the key itself otherwise. None stands for the
      TypeError raised when the language has no table. */
  function T(language: string, key: string): (r: Option<string>)
    ensures r.None? <==> TableFor(language).None?
    ensures r.Some? && Lookup(TableFor(language).value, key).Some? && Lookup(TableFor(language).value, key).value != ""
      ==> r.value == Lookup(TableFor(language).value, key).value
    ensures r.Some? && (Lookup(TableFor(language).value, key).None? || Lookup(TableFor(language).value, key).value == "")
      ==> r.value == key
  {
    match TableFor(language)
    case None => None
    case Some(table) => Some(OrElse(Lookup(table, key), key))
  }

  /** In each of the three languages every key of the tables is
      translated: `t` gives the table's own text for it. */
  lemma TranslatesEveryKey(language: string, i: int)
    requires language in {"en", "hi", "mr"} && 0 <= i < |EN|
    ensures T(language, EN[i].0) == Some(TableFor(language).value[i].1)
  {
    SameKeys();
    DistinctKeys();
    FilledTables();
    var table := TableFor(language).value;
    assert Keys(table) == Keys(EN);
    assert table[i].0 == EN[i].0;
    LookupEntry(table, i);
  }

  /** A key no table has is shown as it is, in every language. */
  lemma EchoesUnknownKey(language: string, key: string)
    requires language in {"en", "hi", "mr"} && key !in Keys(EN)
    ensures T(language, key) == Some(key)
  {
    SameKeys();
  }

  /** The value the provider hands down. */
  datatype Context = Context(language: string)

  /** What `useLanguage` does: the context when a provider is above the
      component, the guard's error message otherwise. */
  datatype Use = Provided(context: Context) | Thrown(message: string)

  function UseLanguage(context: Option<Context>): (u: Use)
    ensures u.Provided? <==> context.Some?
    ensures u.Provided? ==> u.context == context.value
    ensures u.Thrown? ==> u.message == NO_PROVIDER
  {
    match context
    case Some(c) => Provided(c)
    case None => Thrown(NO_PROVIDER)
  }

  /** The provider's state: the selected language. */
  class LanguageProvider {
    var language: string

    /** A provider starts in English. */
    constructor ()
      ensures language == INITIAL_LANGUAGE
    {
      language := INITIAL_LANGUAGE;
    }

    /** `setLanguage`: any string is accepted. */
    method SetLanguage(l: string)
      modifies this`language
      ensures language == l
    {
      language := l;
    }

    /** `t` bound to the selected language. */
    function Translate(key: string): (r: Option<string>)
      reads this
      ensures r == T(language, key)
    {
      T(language, key)
    }
  }
}

=== FILE: models.dfy ===
/** Rows of the tables other than `bookings`: users and their profiles
    (backend/auth/models.py, backend/models/customers.py), reviews
    (backend/models/reviews.py), one-time passwords (backend/models/otp.py)
    and job codes (backend/models/job_codes.py). Instants are whole seconds
    since the epoch, in UTC. */
module Models {

  import opened Common

  /** A row of `users`; `role` is "customer" or "provider". */
  datatype User = User(id: nat, phone: string, passwordHash: string, name: string, role: string)

  /** A row of `providers`, keyed by the owning user's id. */
  datatype ProviderProfile = ProviderProfile(
    userId: nat,
    bio: Option<string>,
    locationName: Option<string>,
    yearsOfExperience: Option<int>,
    averageRating: real,
    jobsCompleted: int,
    isVerified: bool)

  /** A provider profile as first inserted: no rating yet, no completed
      jobs, not verified. */
  function NewProviderProfile(userId: nat, bio: Option<string>, locationName: Option<string>): (p: ProviderProfile)
    ensures p.userId == userId && p.bio == bio && p.locationName == locationName
    ensures p.averageRating == 0.0 && p.jobsCompleted == 0 && !p.isVerified
  {
    ProviderProfile(userId, bio, locationName, None, 0.0, 0, false)
  }

  /** A row of `customers`, keyed by the owning user's id. */
  datatype CustomerProfile = CustomerProfile(
    userId: nat,
    address: Option<string>,
    locationName: Option<string>,
    preferences: Option<string>)

  /** A row of `reviews`; `jobCode` holds the booking's completion code. */
  datatype Review = Review(id: nat, providerId: nat, customerId: nat, jobCode: string, rating: real, comment: Option<string>)

  /** A row of `saved_providers`: (customer phone, provider phone). */
  type SavedPair = (string, string)

  /** A row of `otp_verifications`. */
  datatype OtpRecord = OtpRecord(phone: string, otp: string, createdAt: int, expiresAt: int, isUsed: bool, attempts: int)

  datatype JobCodeStatus = Unused | Used

  /** A row of `job_codes`; the code itself is the primary key. */
  datatype JobCode = JobCode(code: string, providerId: nat, status: JobCodeStatus, expiresAt: int, usedAt: Option<int>)

  /** The `users` table as the database keeps it: the auto-increment key
      gives the row at position i the id i + 1, and `phone_number` is
      unique. */
  predicate UsersValid(users: seq<User>) {
    && (forall i :: 0 <= i < |users| ==> users[i].id == i + 1)
    && (forall i, j :: 0 <= i < j < |users| ==> users[i].phone != users[j].phone)
  }
}

=== FILE: otp_modal.dfy ===
/** The one-time-password form (frontend/src/components/OtpModal.jsx): six
    one-character cells, a resend countdown, and the submit and resend
    handlers. The component state is the fields of a class; what the
    `onVerify` and `onResend` callbacks do is a parameter (None when they
    resolve, the message of the error they throw otherwise). */
module OtpModal {

  import opened Common
  import opened Strings

  const CELLS := 6
  const RESEND_SECONDS := 60
  const INCOMPLETE := "Please enter complete OTP"
  const VERIFY_FAILED := "Invalid OTP. Please try again."
  const RESEND_FAILED := "Failed to resend OTP"

  /** Six empty cells. */
  function Blank(): (cells: seq<string>)
    ensures |cells| == CELLS && forall i :: 0 <= i < |cells| ==> cells[i] == ""
  {
    ["", "", "", "", "", ""]
  }

  /** `otp.join('')`. */
  function Join(cells: seq<string>): string
    decreases |cells|
  {
    if cells == [] then "" else cells[0] + Join(cells[1..])
  }

  /** The cells after a paste of `value` at `index`: its first characters,
      at most six, go one per cell from `index` on, as far as the last
      cell; the other cells keep their content. */
  function Paste(cells: seq<string>, index: int, value: string): (r: seq<string>)
    requires |cells| == CELLS
    ensures |r| == CELLS
    ensures forall j :: 0 <= j < CELLS && index <= j < index + |value| && j - index < CELLS ==> r[j] == [value[j - index]]
    ensures forall j :: 0 <= j < CELLS && !(index <= j < index + |value| && j - index < CELLS) ==> r[j] == cells[j]
  {
    seq(CELLS, j requires 0 <= j < CELLS =>
      if index <= j < index + |value| && j - index < CELLS then [value[j - index]] else cells[j])
  }

  /** Where the focus goes after a paste. */
  function PasteFocus(index: int, value: string): (f: int)
    requires 0 <= index < CELLS
    ensures index + |value| < CELLS - 1 ==> f == index + |value|
    ensures index + |value| >= CELLS - 1 ==> f == CELLS - 1
  {
    var pasted := if |value| < CELLS then |value| else CELLS;
    if index + pasted < CELLS - 1 then index + pasted else CELLS - 1
  }

  /** Every cell holds at most one character. */
  predicate Narrow(cells: seq<string>) {
    forall i :: 0 <= i < |cells| ==> |cells[i]| <= 1
  }

  /** With at most one character per cell, the joined code is complete
      exactly when no cell is empty. */
  lemma {:induction false} JoinComplete(cells: seq<string>)
    requires Narrow(cells)
    ensures |Join(cells)| <= |cells|
    ensures |Join(cells)| == |cells| <==> forall i :: 0 <= i < |cells| ==> cells[i] != ""
    decreases |cells|
  {
    if cells != [] {
      JoinComplete(cells[1..]);
      if |Join(cells)| == |cells| {
        forall i | 0 <= i < |cells| ensures cells[i] != "" {
          if i > 0 { assert cells[i] == cells[1..][i - 1]; }
        }
      }
    }
  }

  /** Pasting a whole six-character code into the first cell fills the
      form with it: the joined cells are the pasted code. */
  lemma PasteWholeCode(cells: seq<string>, code: string)
    requires |cells| == CELLS && |code| == CELLS
    ensures Join(Paste(cells, 0, code)) == code
  {
    var r := Paste(cells, 0, code);
    assert r == [[code[0]], [code[1]], [code[2]], [code[3]], [code[4]], [code[5]]];
    assert Join(r[5..]) == [code[5]];
    assert Join(r[4..]) == [code[4]] + [code[5]];
    assert Join(r[3..]) == [code[3]] + [code[4]] + [code[5]];
    assert Join(r[2..]) == [code[2]] + [code[3]] + [code[4]] + [code[5]];
    assert Join(r[1..]) == [code[1]] + [code[2]] + [code[3]] + [code[4]] + [code[5]];
    assert code == [code[0]] + [code[1]] + [code[2]] + [code[3]] + [code[4]] + [code[5]];
  }

  /** One run of the countdown effect: above zero, the timeout it sets
      lowers the timer a second later; at zero, it enables resend at once. */
  function Tick(timer: int, canResend: bool): (s: (int, bool))
    ensures timer > 0 ==> s == (timer - 1, canResend)
    ensures timer <= 0 ==> s == (timer, true)
  {
    if timer > 0 then (timer - 1, canResend) else (timer, true)
  }

  function Ticks(timer: int, canResend: bool, n: nat): (int, bool)
    decreases n
  {
    if n == 0 then (timer, canResend) else var s := Tick(timer, canResend); Ticks(s.0, s.1, n - 1)
  }

  /** Resend is offered only once the countdown has run out: after a
      resend it takes 61 runs of the effect (60 one-second steps to reach
      zero, then the run at zero that enables it) and no fewer. */
  lemma {:induction false} CountdownEnablesResend(timer: nat, n: nat)
    ensures Ticks(timer, false, n).1 <==> n > timer
    ensures Ticks(timer, false, n).0 == if n <= timer then timer - n else 0
    decreases n
  {
    if n > 0 {
      if timer > 0 {
        CountdownEnablesResend(timer - 1, n - 1);
      } else {
        ResendStaysEnabled(0, n - 1);
      }
    }
  }

  lemma {:induction false} ResendStaysEnabled(timer: int, n: nat)
    requires timer <= 0
    ensures Ticks(timer, true, n) == (timer, true)
    decreases n
  {
    if n > 0 {
      ResendStaysEnabled(timer, n - 1);
    }
  }

  class OtpForm {
    var cells: seq<string>
    var loading: bool
    var error: string
    var resendTimer: int
    var canResend: bool
    var focus: int

    /** Six cells of at most one character each, a focus on one of them,
        and a countdown within its range that has run out whenever resend
        is offered. */
    ghost predicate Valid()
      reads this
    {
      && |cells| == CELLS && Narrow(cells)
      && 0 <= focus < CELLS
      && 0 <= resendTimer <= RESEND_SECONDS
      && (canResend ==> resendTimer == 0)
    }

    /** The state the component mounts with. */
    constructor ()
      ensures Valid()
      ensures cells == Blank() && !loading && error == "" && resendTimer == RESEND_SECONDS && !canResend && focus == 0
    {
      cells := Blank();
      loading := false;
      error := "";
      resendTimer := RESEND_SECONDS;
      canResend := false;
      focus := 0;
    }

    /** handleChange for the cell at `index`: a value of more than one
        character is a paste, written cell by cell; a single digit (or
        nothing) replaces the cell; anything else is ignored. */
    method HandleChange(index: int, value: string)
      requires Valid() && 0 <= index < CELLS
      modifies this`cells, this`focus, this`error
      ensures Valid()
      ensures |value| > 1 ==> cells == Paste(old(cells), index, value) && focus == PasteFocus(index, value)
      ensures |value| <= 1 && AllDigits(value) ==>
        cells == old(cells)[index := value] && focus == (if value != "" && index < CELLS - 1 then index + 1 else old(focus))
      ensures |value| <= 1 && !AllDigits(value) ==> cells == old(cells) && focus == old(focus)
      ensures error == ""
    {
      if |value| > 1 {
        var pasted := if |value| <= CELLS then value else value[..CELLS];
        var newOtp := cells;
        var i := 0;
        while i < |pasted|
          invariant 0 <= i <= |pasted|
          invariant |newOtp| == CELLS
          invariant forall j :: 0 <= j < CELLS ==>
            newOtp[j] == (if index <= j < index + i then [pasted[j - index]] else old(cells)[j])
        {
          if index + i < CELLS {
            newOtp := newOtp[index + i := [pasted[i]]];
          }
          i := i + 1;
        }
        cells := newOtp;
        focus := if index + |pasted| < CELLS - 1 then index + |pasted| else CELLS - 1;
      } else if AllDigits(value) {
        cells := cells[index := value];
        if value != "" && index < CELLS - 1 {
          focus := index + 1;
        }
      }
      error := "";
    }

    /** handleKeyDown: Backspace in an empty cell moves back one cell. */
    method HandleKeyDown(index: int, key: string)
      requires Valid() && 0 <= index < CELLS
      modifies this`focus
      ensures Valid()
      ensures focus == if key == "Backspace" && cells[index] == "" && index > 0 then index - 1 else old(focus)
    {
      if key == "Backspace" && cells[index] == "" && index > 0 {
        focus := index - 1;
      }
    }

    /** Whether the Verify button can be pressed. */
    function VerifyEnabled(): (enabled: bool)
      reads this
      requires Valid()
      ensures enabled <==> !loading && forall i :: 0 <= i < CELLS ==> cells[i] != ""
    {
      JoinComplete(cells);
      !loading && |Join(cells)| == CELLS
    }

    /** handleSubmit: an incomplete code is refused without calling
        `onVerify`; a complete one is passed to it, and a failure empties
        every cell. Returns the code `onVerify` was called with. */
    method HandleSubmit(failure: Option<string>) returns (sent: Option<string>)
      requires Valid()
      modifies this`cells, this`loading, this`error, this`focus
      ensures Valid()
      ensures sent.Some? <==> forall i :: 0 <= i < CELLS ==> old(cells)[i] != ""
      ensures sent.Some? ==> sent.value == Join(old(cells)) && |sent.value| == CELLS
      ensures sent.None? ==> cells == old(cells) && error == INCOMPLETE && loading == old(loading)
      ensures sent.Some? && failure.None? ==> cells == old(cells) && error == "" && !loading
      ensures sent.Some? && failure.Some? ==>
        cells == Blank() && error == OrElse(failure, VERIFY_FAILED) && !loading && focus == 0
    {
      JoinComplete(cells);
      var otpCode := Join(cells);
      if |otpCode| != CELLS {
        error := INCOMPLETE;
        return None;
      }
      loading := true;
      error := "";
      sent := Some(otpCode);
      if failure.Some? {
        error := OrElse(failure, VERIFY_FAILED);
        cells := Blank();
        focus := 0;
      }
      loading := false;
    }

    /** handleResend: nothing happens while the countdown runs; otherwise
        the cells are emptied and, when the resend succeeds, the countdown
        starts again from 60. Returns whether `onResend` was called. */
    method HandleResend(failure: Option<string>) returns (called: bool)
      requires Valid()
      modifies this`cells, this`loading, this`error, this`resendTimer, this`canResend, this`focus
      ensures Valid()
      ensures called == old(canResend)
      ensures !called ==> cells == old(cells) && error == old(error) && resendTimer == old(resendTimer) && !canResend
      ensures called ==> cells == Blank() && !loading
      ensures called && failure.None? ==> resendTimer == RESEND_SECONDS && !canResend && error == "" && focus == 0
      ensures called && failure.Some? ==> resendTimer == old(resendTimer) && canResend && error == OrElse(failure, RESEND_FAILED)
    {
      if !canResend {
        return false;
      }
      loading := true;
      error := "";
      cells := Blank();
      if failure.None? {
        resendTimer := RESEND_SECONDS;
        canResend := false;
        focus := 0;
      } else {
        error := OrElse(failure, RESEND_FAILED);
      }
      loading := false;
      return true;
    }

    /** One run of the countdown effect. */
    method CountDown()
      requires Valid()
      modifies this`resendTimer, this`canResend
      ensures Valid()
      ensures (resendTimer, canResend) == Tick(old(resendTimer), old(canResend))
    {
      if resendTimer > 0 {
        resendTimer := resendTimer - 1;
      } else {
        canResend := true;
      }
    }
  }
}

=== FILE: otp_routes.dfy ===
/** The OTP endpoints (backend/routes/otp.py): `/auth/send-otp` issues a
    code, stores it and hands it to the SMS provider; `/auth/verify-otp`
    consumes a stored code; `/auth/resend-otp` is `send-otp` again.
    The `otp_verifications` table is a sequence of records in insertion
    order; the clock, the random digits and the provider's delivery outcome
    are parameters. Each endpoint is specified by a function giving its
    outcome (what it did, or why it refused) and the table afterwards; the
    HTTP answer is read off the outcome. */
module OtpRoutes {

  import opened Common
  import opened Strings
  import opened Models
  import opened AuthSchemas
  import S = OtpService
  import Db

  datatype SendOtpRequest = SendOtpRequest(phone: string)
  datatype VerifyOtpRequest = VerifyOtpRequest(phone: string, otp: string)
  datatype OtpResponse = OtpResponse(message: string, expiresInMinutes: int)
  datatype VerifyResponse = VerifyResponse(message: string, phone: string, verified: bool)

  /** The request fields the schemas constrain. */
  datatype Field = PhoneField | OtpField

  /** Why an endpoint refused. */
  datatype Refusal =
    | Malformed(field: Field)       // the request schema rejected a field
    | RateLimited                   // a code was sent to the phone under a minute ago
    | DeliveryFailed                // the SMS provider did not take the message
    | NoSuchCode                    // no unused record holds the phone and code
    | Expired                       // the record's expiry has passed
    | AttemptsExhausted             // the record's attempts are used up
    | WrongCode(remaining: int)     // the record holds another code

  /** What an endpoint did: succeeded for a phone, or refused. */
  datatype Outcome = Done(phone: string) | Refused(why: Refusal)

  /** An endpoint's outcome and the table afterwards. */
  datatype Round = Round(outcome: Outcome, state: seq<OtpRecord>)

  /** Seconds within which a second code for the same phone is refused. */
  const RATE_WINDOW := 60

  const RATE_LIMITED := "Please wait 1 minute before requesting another OTP"
  const SEND_FAILED := "Failed to send OTP. Please try again."
  const INVALID_OTP := "Invalid OTP"
  const OTP_EXPIRED := "OTP has expired. Please request a new one."
  const TOO_MANY_ATTEMPTS := "Maximum verification attempts exceeded. Please request a new OTP."
  const VERIFIED := "OTP verified successfully"

  /** The `HTTPException` each refusal raises. */
  function RefusalError(why: Refusal): (e: Error)
    ensures why.Malformed? <==> e.status == UNPROCESSABLE
    ensures why.RateLimited? <==> e.status == TOO_MANY_REQUESTS
    ensures why.DeliveryFailed? <==> e.status == INTERNAL_ERROR
    ensures why.NoSuchCode? || why.Expired? || why.AttemptsExhausted? || why.WrongCode? <==> e.status == BAD_REQUEST
  {
    match why
    case Malformed(field) => Error(UNPROCESSABLE, if field == PhoneField then "phone" else "otp")
    case RateLimited => Error(TOO_MANY_REQUESTS, RATE_LIMITED)
    case DeliveryFailed => Error(INTERNAL_ERROR, SEND_FAILED)
    case NoSuchCode => Error(BAD_REQUEST, INVALID_OTP)
    case Expired => Error(BAD_REQUEST, OTP_EXPIRED)
    case AttemptsExhausted => Error(BAD_REQUEST, TOO_MANY_ATTEMPTS)
    case WrongCode(n) => Error(BAD_REQUEST, "Invalid OTP. " + IntString(n) + " attempts remaining.")
  }

  /** The answer of send-otp and resend-otp. */
  function SendAnswer(o: Outcome): (r: Result<OtpResponse>)
    ensures r.Ok? <==> o.Done?
    ensures o.Done? ==> r.value.expiresInMinutes == S.OTP_EXPIRY_MINUTES && StartsWith(r.value.message, "OTP sent successfully to ")
  {
    match o
    case Done(phone) =>
      StartsWithConcat("OTP sent successfully to ", phone);
      Ok(OtpResponse("OTP sent successfully to " + phone, 5))
    case Refused(why) => Err(RefusalError(why))
  }

  /** The answer of verify-otp. */
  function VerifyAnswer(o: Outcome): (r: Result<VerifyResponse>)
    ensures r.Ok? <==> o.Done?
    ensures o.Done? ==> r.value.phone == o.phone && r.value.verified
  {
    match o
    case Done(phone) => Ok(VerifyResponse(VERIFIED, phone, true))
    case Refused(why) => Err(RefusalError(why))
  }

  // ---------------------------------------------------------------------
  // Request schemas

  predicate ValidSendRequest(req: SendOtpRequest) {
    ValidPhone(req.phone)
  }

  predicate ValidVerifyRequest(req: VerifyOtpRequest) {
    ValidPhone(req.phone) && |req.otp| == S.OTP_LENGTH
  }

  function ValidateSend(req: SendOtpRequest): (r: Result<SendOtpRequest>)
    ensures r.Ok? <==> 10 <= |req.phone| <= 15
    ensures r.Ok? ==> r.value == req
    ensures r.Err? ==> r.error.status == UNPROCESSABLE
  {
    if !ValidSendRequest(req) then Err(RefusalError(Malformed(PhoneField))) else Ok(req)
  }

  function ValidateVerify(req: VerifyOtpRequest): (r: Result<VerifyOtpRequest>)
    ensures r.Ok? <==> 10 <= |req.phone| <= 15 && |req.otp| == 6
    ensures r.Ok? ==> r.value == req
    ensures r.Err? ==> r.error.status == UNPROCESSABLE
  {
    if !ValidPhone(req.phone) then Err(RefusalError(Malformed(PhoneField)))
    else if |req.otp| != S.OTP_LENGTH then Err(RefusalError(Malformed(OtpField)))
    else Ok(req)
  }

  // ---------------------------------------------------------------------
  // The state the endpoints keep

  /** Every record is either fresh (no attempt, unused) or spent (one
      attempt, used): the only write a record ever receives is the one
      that consumes it. */
  predicate OtpRecordsValid(records: seq<OtpRecord>) {
    forall i :: 0 <= i < |records| ==>
      (records[i].attempts == 0 && !records[i].isUsed) || (records[i].attempts == 1 && records[i].isUsed)
  }

  /** Some record for `phone` was created less than a minute before `now`. */
  predicate RecentlySent(records: seq<OtpRecord>, phone: string, now: int) {
    exists i :: 0 <= i < |records| && records[i].phone == phone && records[i].createdAt > now - RATE_WINDOW
  }

  /** An unused record for `phone`, holding `otp` when one is given. */
  predicate Matches(rec: OtpRecord, phone: string, otp: Option<string>) {
    rec.phone == phone && !rec.isUsed && (otp.None? || rec.otp == otp.value)
  }

  /** Record i is the one `ORDER BY created_at DESC ... first()` returns
      among the matches: none is newer, and of equally new ones the last
      inserted wins. */
  predicate Newest(rs: seq<OtpRecord>, i: int, phone: string, otp: Option<string>) {
    && 0 <= i < |rs|
    && Matches(rs[i], phone, otp)
    && (forall j :: 0 <= j < i && Matches(rs[j], phone, otp) ==> rs[j].createdAt <= rs[i].createdAt)
    && (forall j :: i < j < |rs| && Matches(rs[j], phone, otp) ==> rs[j].createdAt < rs[i].createdAt)
  }

  lemma NewestUnique(rs: seq<OtpRecord>, i: int, phone: string, otp: Option<string>)
    requires Newest(rs, i, phone, otp)
    ensures forall j :: Newest(rs, j, phone, otp) ==> j == i
  {
  }

  /** The newest matching record, if there is one. */
  function Latest(rs: seq<OtpRecord>, phone: string, otp: Option<string>): (k: Option<nat>)
    ensures k.Some? ==> Newest(rs, k.value, phone, otp)
    ensures k.None? <==> forall j :: 0 <= j < |rs| ==> !Matches(rs[j], phone, otp)
    decreases |rs|
  {
    if rs == [] then None
    else
      var k := Latest(rs[..|rs| - 1], phone, otp);
      var last := rs[|rs| - 1];
      if Matches(last, phone, otp) && (k.None? || rs[k.value].createdAt <= last.createdAt) then Some(|rs| - 1)
      else k
  }

  /** Two tables whose records agree on what the lookup reads (phone,
      code, used flag, creation time) give the same lookup result. */
  lemma {:induction false} LatestSameKeys(rs: seq<OtpRecord>, ts: seq<OtpRecord>, phone: string, otp: Option<string>)
    requires |rs| == |ts|
    requires forall j :: 0 <= j < |rs| ==> Matches(rs[j], phone, otp) == Matches(ts[j], phone, otp) && rs[j].createdAt == ts[j].createdAt
    ensures Latest(rs, phone, otp) == Latest(ts, phone, otp)
    decreases |rs|
  {
    if rs != [] {
      LatestSameKeys(rs[..|rs| - 1], ts[..|ts| - 1], phone, otp);
    }
  }

  /** A freshly issued record. */
  function Issued(phone: string, otp: string, now: int): (rec: OtpRecord)
    ensures !rec.isUsed && rec.attempts == 0
    ensures rec.expiresAt - rec.createdAt == S.OTP_EXPIRY_MINUTES * 60
  {
    OtpRecord(phone, otp, now, S.OtpExpiry(now).seconds, false, 0)
  }

  /** A record after a successful verification. */
  function Spent(rec: OtpRecord): (r: OtpRecord)
    ensures r.isUsed && r.attempts == rec.attempts + 1
    ensures r.phone == rec.phone && r.otp == rec.otp && r.createdAt == rec.createdAt && r.expiresAt == rec.expiresAt
  {
    rec.(attempts := rec.attempts + 1, isUsed := true)
  }

  // ---------------------------------------------------------------------
  // send_otp

  /** send_otp on the table. `draws` are the six random digits and
      `delivered` what the SMS provider reported. */
  function Send(records: seq<OtpRecord>, req: SendOtpRequest, draws: seq<nat>, now: int, delivered: bool): (s: Round)
    requires |draws| == S.OTP_LENGTH && forall i :: 0 <= i < |draws| ==> draws[i] < 10
    ensures s.outcome.Done? <==> ValidSendRequest(req) && !RecentlySent(records, Strip(req.phone), now) && delivered
    ensures s.outcome.Refused? ==> s.state == records
    ensures ValidSendRequest(req) && RecentlySent(records, Strip(req.phone), now) ==> s.outcome == Refused(RateLimited)
    ensures ValidSendRequest(req) && !RecentlySent(records, Strip(req.phone), now) && !delivered ==>
      s.outcome == Refused(DeliveryFailed)
    ensures s.outcome.Done? ==>
      && s.outcome.phone == Strip(req.phone)
      && |s.state| == |records| + 1 && s.state[..|records|] == records
      && var rec := s.state[|records|];
      && rec.phone == Strip(req.phone) && rec.createdAt == now && rec.expiresAt == now + 300
      && !rec.isUsed && rec.attempts == 0
      && |rec.otp| == 6 && AllDigits(rec.otp) && rec.otp == S.GenerateOtp(draws, 6)
  {
    if !ValidSendRequest(req) then Round(Refused(Malformed(PhoneField)), records)
    else
      var phone := Strip(req.phone);
      if RecentlySent(records, phone, now) then Round(Refused(RateLimited), records)
      else
        var stored := records + [Issued(phone, S.GenerateOtp(draws, S.OTP_LENGTH), now)];
        if !delivered then Round(Refused(DeliveryFailed), stored[..|records|])
        else
          assert stored[..|records|] == records;
          Round(Done(phone), stored)
  }

  lemma SendKeepsValid(records: seq<OtpRecord>, req: SendOtpRequest, draws: seq<nat>, now: int, delivered: bool)
    requires |draws| == S.OTP_LENGTH && forall i :: 0 <= i < |draws| ==> draws[i] < 10
    requires OtpRecordsValid(records)
    ensures OtpRecordsValid(Send(records, req, draws, now, delivered).state)
  {
    var s := Send(records, req, draws, now, delivered);
    if s.outcome.Done? {
      assert forall i :: 0 <= i < |records| ==> s.state[i] == records[i];
    }
  }

  /** A phone that was just sent a code is refused another for a minute. */
  lemma SendThenSendIsThrottled(records: seq<OtpRecord>, req: SendOtpRequest, draws: seq<nat>, draws2: seq<nat>,
                                now: int, later: int, delivered: bool, delivered2: bool)
    requires |draws| == S.OTP_LENGTH && forall i :: 0 <= i < |draws| ==> draws[i] < 10
    requires |draws2| == S.OTP_LENGTH && forall i :: 0 <= i < |draws2| ==> draws2[i] < 10
    requires Send(records, req, draws, now, delivered).outcome.Done?
    requires now <= later < now + RATE_WINDOW
    ensures Send(Send(records, req, draws, now, delivered).state, req, draws2, later, delivered2).outcome
      == Refused(RateLimited)
  {
    var st := Send(records, req, draws, now, delivered).state;
    assert st[|records|].phone == Strip(req.phone) && st[|records|].createdAt > later - RATE_WINDOW;
    assert RecentlySent(st, Strip(req.phone), later);
  }

  /** A failed delivery does not count towards the rate limit: the record
      is gone, so an immediate retry is not throttled by it. */
  lemma FailedSendDoesNotThrottle(records: seq<OtpRecord>, req: SendOtpRequest, draws: seq<nat>, now: int, later: int)
    requires |draws| == S.OTP_LENGTH && forall i :: 0 <= i < |draws| ==> draws[i] < 10
    requires ValidSendRequest(req) && !RecentlySent(records, Strip(req.phone), later)
    ensures !RecentlySent(Send(records, req, draws, now, false).state, Strip(req.phone), later)
  {
  }

  /** resend_otp is send_otp. */
  function Resend(records: seq<OtpRecord>, req: SendOtpRequest, draws: seq<nat>, now: int, delivered: bool): (s: Round)
    requires |draws| == S.OTP_LENGTH && forall i :: 0 <= i < |draws| ==> draws[i] < 10
    ensures s == Send(records, req, draws, now, delivered)
  {
    Send(records, req, draws, now, delivered)
  }

  // ---------------------------------------------------------------------
  // verify_otp

  /** verify_otp on the table, as the code is written. The lookup already
      requires the stored code to equal the submitted one, so the
      mismatch branch (which would commit the incremented attempt count)
      is never taken, and every refusal leaves the table unchanged. */
  function Verify(records: seq<OtpRecord>, req: VerifyOtpRequest, now: int): (s: Round)
    ensures s.outcome.Refused? ==> s.state == records
    ensures !ValidVerifyRequest(req) ==> s.outcome.Refused? && s.outcome.why.Malformed?
  {
    if !ValidPhone(req.phone) then Round(Refused(Malformed(PhoneField)), records)
    else if |req.otp| != S.OTP_LENGTH then Round(Refused(Malformed(OtpField)), records)
    else Consume(records, Strip(req.phone), Strip(req.otp), now)
  }

  /** The lookup and the checks of verify_otp, on the stripped phone and
      code. */
  function Consume(records: seq<OtpRecord>, phone: string, otp: string, now: int): (s: Round)
    ensures s.outcome.Refused? ==> s.state == records
  {
    var k := Latest(records, phone, Some(otp));
    if k.None? then Round(Refused(NoSuchCode), records)
    else
      var i := k.value;
      var rec := records[i];
      if S.IsOtpExpired(now, S.Aware(rec.expiresAt)) then Round(Refused(Expired), records)
      else if rec.attempts >= S.MAX_OTP_ATTEMPTS then Round(Refused(AttemptsExhausted), records)
      else
        var tried := rec.(attempts := rec.attempts + 1);
        var committed := records[i := tried];
        if tried.otp != otp then Round(Refused(WrongCode(S.MAX_OTP_ATTEMPTS - tried.attempts)), committed)
        else Round(Done(phone), records[i := tried.(isUsed := true)])
  }

  /** With no unused record holding the phone and the code, the answer is
      "Invalid OTP". */
  lemma VerifyWithoutMatch(records: seq<OtpRecord>, req: VerifyOtpRequest, now: int)
    requires ValidVerifyRequest(req)
    requires forall j :: 0 <= j < |records| ==> !Matches(records[j], Strip(req.phone), Some(Strip(req.otp)))
    ensures Verify(records, req, now) == Round(Refused(NoSuchCode), records)
  {
  }

  /** What happens to the newest matching record: an expired one and one
      whose attempts are used up are refused without change; otherwise it
      is consumed and the phone is verified. */
  lemma VerifyNewest(records: seq<OtpRecord>, req: VerifyOtpRequest, now: int, i: int)
    requires ValidVerifyRequest(req) && Newest(records, i, Strip(req.phone), Some(Strip(req.otp)))
    ensures now > records[i].expiresAt ==> Verify(records, req, now) == Round(Refused(Expired), records)
    ensures now <= records[i].expiresAt && records[i].attempts >= S.MAX_OTP_ATTEMPTS ==>
      Verify(records, req, now) == Round(Refused(AttemptsExhausted), records)
    ensures now <= records[i].expiresAt && records[i].attempts < S.MAX_OTP_ATTEMPTS ==>
      Verify(records, req, now) == Round(Done(Strip(req.phone)), records[i := Spent(records[i])])
  {
    NewestUnique(records, i, Strip(req.phone), Some(Strip(req.otp)));
  }

  lemma VerifyKeepsValid(records: seq<OtpRecord>, req: VerifyOtpRequest, now: int)
    requires OtpRecordsValid(records)
    ensures OtpRecordsValid(Verify(records, req, now).state)
  {
    var k := Latest(records, Strip(req.phone), Some(Strip(req.otp)));
    if k.Some? && ValidVerifyRequest(req) {
      VerifyNewest(records, req, now, k.value);
    }
  }

  /** The records a successful verification can consume. */
  function UnusedMatches(records: seq<OtpRecord>, phone: string, otp: string): (m: set<nat>)
    ensures forall i :: i in m <==> 0 <= i < |records| && Matches(records[i], phone, Some(otp))
  {
    set i: nat | i < |records| && Matches(records[i], phone, Some(otp))
  }

  /** A successful verification consumes exactly one matching record, so a
      phone and code issued once verify once. */
  lemma VerifyConsumesOne(records: seq<OtpRecord>, req: VerifyOtpRequest, now: int)
    requires Verify(records, req, now).outcome.Done?
    ensures exists i ::
      && i in UnusedMatches(records, Strip(req.phone), Strip(req.otp))
      && UnusedMatches(Verify(records, req, now).state, Strip(req.phone), Strip(req.otp))
           == UnusedMatches(records, Strip(req.phone), Strip(req.otp)) - {i}
  {
    var p, o := Strip(req.phone), Strip(req.otp);
    var k := Latest(records, p, Some(o));
    assert k.Some?;
    var i := k.value;
    VerifyNewest(records, req, now, i);
    var st := Verify(records, req, now).state;
    assert st == records[i := Spent(records[i])];
    assert UnusedMatches(st, p, o) == UnusedMatches(records, p, o) - {i};
  }

  lemma VerifyTwiceFails(records: seq<OtpRecord>, req: VerifyOtpRequest, now: int, later: int)
    requires Verify(records, req, now).outcome.Done?
    requires |UnusedMatches(records, Strip(req.phone), Strip(req.otp))| == 1
    ensures Verify(Verify(records, req, now).state, req, later).outcome == Refused(NoSuchCode)
  {
    var p, o := Strip(req.phone), Strip(req.otp);
    VerifyConsumesOne(records, req, now);
    var i :| i in UnusedMatches(records, p, o) &&
      UnusedMatches(Verify(records, req, now).state, p, o) == UnusedMatches(records, p, o) - {i};
    var m := UnusedMatches(records, p, o);
    var rest := m - {i};
    assert m == rest + {i} && i !in rest;
    assert |rest| == 0;
    var st := Verify(records, req, now).state;
    assert UnusedMatches(st, p, o) == {};
    assert forall j :: 0 <= j < |st| ==> !Matches(st[j], p, Some(o)) by {
      forall j | 0 <= j < |st| ensures !Matches(st[j], p, Some(o)) {
        assert j !in UnusedMatches(st, p, o);
      }
    }
    VerifyWithoutMatch(st, req, later);
  }

  /** The record a successful send adds is the newest unused record for
      its phone and code. */
  lemma SentIsNewest(records: seq<OtpRecord>, phone: string, draws: seq<nat>, now: int)
    requires |draws| == S.OTP_LENGTH && forall i :: 0 <= i < |draws| ==> draws[i] < 10
    requires Send(records, SendOtpRequest(phone), draws, now, true).outcome.Done?
    requires forall j :: 0 <= j < |records| ==> records[j].createdAt <= now
    ensures var st := Send(records, SendOtpRequest(phone), draws, now, true).state;
      Newest(st, |records|, Strip(phone), Some(S.GenerateOtp(draws, 6)))
  {
    var st := Send(records, SendOtpRequest(phone), draws, now, true).state;
    assert forall j :: 0 <= j < |records| ==> st[j] == records[j];
  }

  /** Sending a code and then submitting it within five minutes succeeds. */
  lemma SendThenVerify(records: seq<OtpRecord>, phone: string, draws: seq<nat>, now: int, later: int)
    requires |draws| == S.OTP_LENGTH && forall i :: 0 <= i < |draws| ==> draws[i] < 10
    requires Send(records, SendOtpRequest(phone), draws, now, true).outcome.Done?
    requires now <= later <= now + 300
    requires forall j :: 0 <= j < |records| ==> records[j].createdAt <= now
    ensures var st := Send(records, SendOtpRequest(phone), draws, now, true).state;
      Verify(st, VerifyOtpRequest(phone, S.GenerateOtp(draws, 6)), later).outcome == Done(Strip(phone))
  {
    var st := Send(records, SendOtpRequest(phone), draws, now, true).state;
    var otp := S.GenerateOtp(draws, 6);
    SentIsNewest(records, phone, draws, now);
    VerifyFresh(st, |records|, phone, otp, later);
  }

  /** A fresh, unexpired code of six digits, newest for its phone, is
      accepted. */
  lemma VerifyFresh(records: seq<OtpRecord>, i: int, phone: string, otp: string, now: int)
    requires ValidPhone(phone) && |otp| == S.OTP_LENGTH && AllDigits(otp)
    requires Newest(records, i, Strip(phone), Some(otp))
    requires now <= records[i].expiresAt && records[i].attempts < S.MAX_OTP_ATTEMPTS
    ensures Verify(records, VerifyOtpRequest(phone, otp), now).outcome == Done(Strip(phone))
  {
    AllDigitsStripped(otp);
    VerifyNewest(records, VerifyOtpRequest(phone, otp), now, i);
  }

  /** A string of digits has no surrounding whitespace. */
  lemma AllDigitsStripped(s: string)
    requires AllDigits(s)
    ensures Strip(s) == s
  {
    if s != [] {
      assert IsDigit(s[0]) && IsDigit(s[|s| - 1]);
      var none: string := [];
      assert s + none == s;
      StripTrailingSpace(s, none, Python);
    }
  }

  // ---------------------------------------------------------------------
  // The attempt limit, as written and as intended

  /** In every table the endpoints can produce, the attempt limit never
      fires: records are only ever written once, when consumed. */
  lemma AttemptLimitNeverFires(records: seq<OtpRecord>, req: VerifyOtpRequest, now: int)
    requires OtpRecordsValid(records)
    ensures Verify(records, req, now).outcome != Refused(AttemptsExhausted)
  {
    var k := Latest(records, Strip(req.phone), Some(Strip(req.otp)));
    if k.Some? && ValidVerifyRequest(req) {
      VerifyNewest(records, req, now, k.value);
    }
  }

  /** The table after submitting each guess in turn, where `step` is what
      one submission does to the table. */
  function Replay(step: (seq<OtpRecord>, string) -> seq<OtpRecord>, records: seq<OtpRecord>, guesses: seq<string>): seq<OtpRecord>
    decreases |guesses|
  {
    if guesses == [] then records
    else Replay(step, step(records, guesses[0]), guesses[1..])
  }

  /** Guesses that each leave the table as it is leave it as it is
      together. */
  lemma {:induction false} ReplayUnchanged(step: (seq<OtpRecord>, string) -> seq<OtpRecord>, records: seq<OtpRecord>, guesses: seq<string>)
    requires forall k :: 0 <= k < |guesses| ==> step(records, guesses[k]) == records
    ensures Replay(step, records, guesses) == records
    decreases |guesses|
  {
    if guesses != [] {
      assert step(records, guesses[0]) == records;
      ReplayUnchanged(step, records, guesses[1..]);
    }
  }

  /** Submitting each guess in turn to verify_otp. */
  function VerifyAll(records: seq<OtpRecord>, phone: string, guesses: seq<string>, now: int): seq<OtpRecord>
  {
    Replay((s, g) => Verify(s, VerifyOtpRequest(phone, g), now).state, records, guesses)
  }

  /** Wrong guesses leave no trace: however many codes are tried for a
      phone, the table is unchanged afterwards, so the correct code still
      verifies after any number of wrong ones. */
  lemma WrongGuessesLeaveNoTrace(records: seq<OtpRecord>, phone: string, guesses: seq<string>, now: int)
    requires forall k, j :: 0 <= k < |guesses| && 0 <= j < |records| ==> !Matches(records[j], Strip(phone), Some(Strip(guesses[k])))
    ensures VerifyAll(records, phone, guesses, now) == records
  {
    var step := (s, g) => Verify(s, VerifyOtpRequest(phone, g), now).state;
    forall k | 0 <= k < |guesses| ensures step(records, guesses[k]) == records {
      assert Verify(records, VerifyOtpRequest(phone, guesses[k]), now).outcome.Refused?;
    }
    ReplayUnchanged(step, records, guesses);
  }

  lemma UnlimitedGuesses(records: seq<OtpRecord>, phone: string, guesses: seq<string>, code: string, now: int)
    requires forall k, j :: 0 <= k < |guesses| && 0 <= j < |records| ==> !Matches(records[j], Strip(phone), Some(Strip(guesses[k])))
    requires Verify(records, VerifyOtpRequest(phone, code), now).outcome.Done?
    ensures Verify(VerifyAll(records, phone, guesses, now), VerifyOtpRequest(phone, code), now).outcome.Done?
  {
    WrongGuessesLeaveNoTrace(records, phone, guesses, now);
  }

  /** verify_otp as intended: look the newest unused record up by phone
      alone, so that a wrong code is counted against it, and refuse the
      record once `MAX_OTP_ATTEMPTS` tries have been spent. */
  function VerifyCounted(records: seq<OtpRecord>, req: VerifyOtpRequest, now: int): (s: Round)
    ensures |s.state| == |records|
    ensures !ValidVerifyRequest(req) ==> s.outcome.Refused? && s.outcome.why.Malformed? && s.state == records
  {
    if !ValidPhone(req.phone) then Round(Refused(Malformed(PhoneField)), records)
    else if |req.otp| != S.OTP_LENGTH then Round(Refused(Malformed(OtpField)), records)
    else ConsumeCounted(records, Strip(req.phone), Strip(req.otp), now)
  }

  /** The lookup by phone and the checks of the intended verification. */
  function ConsumeCounted(records: seq<OtpRecord>, phone: string, otp: string, now: int): (s: Round)
    ensures |s.state| == |records|
  {
    var k := Latest(records, phone, None);
    if k.None? then Round(Refused(NoSuchCode), records)
    else
      var i := k.value;
      var rec := records[i];
      if S.IsOtpExpired(now, S.Aware(rec.expiresAt)) then Round(Refused(Expired), records)
      else if rec.attempts >= S.MAX_OTP_ATTEMPTS then Round(Refused(AttemptsExhausted), records)
      else
        var tried := rec.(attempts := rec.attempts + 1);
        if tried.otp != otp then Round(Refused(WrongCode(S.MAX_OTP_ATTEMPTS - tried.attempts)), records[i := tried])
        else Round(Done(phone), records[i := tried.(isUsed := true)])
  }

  /** What the intended lookup does to the newest unused record of the
      phone. */
  lemma ConsumeCountedNewest(records: seq<OtpRecord>, phone: string, otp: string, now: int, i: int)
    requires Newest(records, i, phone, None)
    ensures now > records[i].expiresAt ==>
      ConsumeCounted(records, phone, otp, now) == Round(Refused(Expired), records)
    ensures now <= records[i].expiresAt && records[i].attempts >= S.MAX_OTP_ATTEMPTS ==>
      ConsumeCounted(records, phone, otp, now) == Round(Refused(AttemptsExhausted), records)
    ensures now <= records[i].expiresAt && records[i].attempts < S.MAX_OTP_ATTEMPTS && records[i].otp != otp ==>
      ConsumeCounted(records, phone, otp, now) == Round(Refused(WrongCode(S.MAX_OTP_ATTEMPTS - records[i].attempts - 1)),
                                                        records[i := records[i].(attempts := records[i].attempts + 1)])
    ensures now <= records[i].expiresAt && records[i].attempts < S.MAX_OTP_ATTEMPTS && records[i].otp == otp ==>
      ConsumeCounted(records, phone, otp, now) == Round(Done(phone), records[i := Spent(records[i])])
  {
    NewestUnique(records, i, phone, None);
  }

  /** With no unused record for the phone, the answer is "Invalid OTP". */
  lemma CountedWithoutRecord(records: seq<OtpRecord>, req: VerifyOtpRequest, now: int)
    requires ValidVerifyRequest(req)
    requires forall j :: 0 <= j < |records| ==> !Matches(records[j], Strip(req.phone), None)
    ensures VerifyCounted(records, req, now) == Round(Refused(NoSuchCode), records)
  {
  }

  /** What the intended verification does to the newest unused record of
      the phone: a wrong code is counted against it, the right one
      consumes it, and once the attempts are used up it is refused. */
  lemma CountedNewest(records: seq<OtpRecord>, req: VerifyOtpRequest, now: int, i: int)
    requires ValidVerifyRequest(req) && Newest(records, i, Strip(req.phone), None)
    ensures now > records[i].expiresAt ==>
      VerifyCounted(records, req, now) == Round(Refused(Expired), records)
    ensures now <= records[i].expiresAt && records[i].attempts >= S.MAX_OTP_ATTEMPTS ==>
      VerifyCounted(records, req, now) == Round(Refused(AttemptsExhausted), records)
    ensures now <= records[i].expiresAt && records[i].attempts < S.MAX_OTP_ATTEMPTS && records[i].otp != Strip(req.otp) ==>
      VerifyCounted(records, req, now) == Round(Refused(WrongCode(S.MAX_OTP_ATTEMPTS - records[i].attempts - 1)),
                                                records[i := records[i].(attempts := records[i].attempts + 1)])
    ensures now <= records[i].expiresAt && records[i].attempts < S.MAX_OTP_ATTEMPTS && records[i].otp == Strip(req.otp) ==>
      VerifyCounted(records, req, now) == Round(Done(Strip(req.phone)), records[i := Spent(records[i])])
  {
    ConsumeCountedNewest(records, Strip(req.phone), Strip(req.otp), now, i);
  }

  /** Submitting each guess in turn to the intended verification. */
  function VerifyCountedAll(records: seq<OtpRecord>, phone: string, guesses: seq<string>, now: int): seq<OtpRecord>
  {
    Replay((s, g) => VerifyCounted(s, VerifyOtpRequest(phone, g), now).state, records, guesses)
  }

  /** The attempt count after one wrong guess: raised by one until it
      reaches the limit, where the record is refused unchanged. */
  function Bump(attempts: int): (a: int)
    ensures a >= attempts && (attempts < S.MAX_OTP_ATTEMPTS ==> a == attempts + 1)
  {
    if attempts >= S.MAX_OTP_ATTEMPTS then attempts else attempts + 1
  }

  /** The attempt count after `n` wrong guesses. */
  function BumpN(attempts: int, n: nat): (a: int)
    ensures a >= attempts
    decreases n
  {
    if n == 0 then attempts else BumpN(Bump(attempts), n - 1)
  }

  /** Enough wrong guesses always reach the limit. */
  lemma {:induction false} BumpNReachesLimit(attempts: int, n: nat)
    requires attempts + n >= S.MAX_OTP_ATTEMPTS
    ensures BumpN(attempts, n) >= S.MAX_OTP_ATTEMPTS
    decreases n
  {
    if n > 0 && attempts < S.MAX_OTP_ATTEMPTS {
      BumpNReachesLimit(Bump(attempts), n - 1);
    }
  }

  /** The newest unused record of a phone stays the newest when only its
      attempt count changes. */
  lemma NewestAfterCount(records: seq<OtpRecord>, i: int, phone: string, a: int)
    requires Newest(records, i, phone, None)
    ensures Newest(records[i := records[i].(attempts := a)], i, phone, None)
  {
    var next := records[i := records[i].(attempts := a)];
    assert forall j :: 0 <= j < |next| ==> Matches(next[j], phone, None) == Matches(records[j], phone, None) && next[j].createdAt == records[j].createdAt;
  }

  /** One wrong guess against the newest, unexpired record. */
  lemma CountedWrongGuess(records: seq<OtpRecord>, phone: string, i: nat, g: string, now: int)
    requires ValidPhone(phone) && |g| == S.OTP_LENGTH
    requires Newest(records, i, Strip(phone), None) && now <= records[i].expiresAt
    requires Strip(g) != records[i].otp
    ensures VerifyCounted(records, VerifyOtpRequest(phone, g), now).state
      == records[i := records[i].(attempts := Bump(records[i].attempts))]
  {
    ConsumeCountedNewest(records, Strip(phone), Strip(g), now, i);
    if records[i].attempts >= S.MAX_OTP_ATTEMPTS {
      assert records[i := records[i].(attempts := records[i].attempts)] == records;
    }
  }

  /** Guesses that each raise the attempt count of the newest record of
      a phone raise it once per guess. */
  lemma {:induction false} ReplayCounts(step: (seq<OtpRecord>, string) -> seq<OtpRecord>, records: seq<OtpRecord>,
                                        i: nat, phone: string, guesses: seq<string>)
    requires Newest(records, i, phone, None)
    requires forall s: seq<OtpRecord>, k ::
      (0 <= k < |guesses| && Newest(s, i, phone, None) && s[i].expiresAt == records[i].expiresAt && s[i].otp == records[i].otp)
      ==> step(s, guesses[k]) == s[i := s[i].(attempts := Bump(s[i].attempts))]
    ensures Replay(step, records, guesses) == records[i := records[i].(attempts := BumpN(records[i].attempts, |guesses|))]
    decreases |guesses|
  {
    if guesses == [] {
      assert records == records[i := records[i].(attempts := records[i].attempts)];
    } else {
      var a := Bump(records[i].attempts);
      var next := records[i := records[i].(attempts := a)];
      assert step(records, guesses[0]) == next;
      NewestAfterCount(records, i, phone, a);
      ReplayCounts(step, next, i, phone, guesses[1..]);
      assert next[i := next[i].(attempts := BumpN(a, |guesses| - 1))]
        == records[i := records[i].(attempts := BumpN(records[i].attempts, |guesses|))];
    }
  }

  /** Wrong guesses are counted on the newest record, up to the limit, and
      nothing else in the table changes. */
  lemma WrongGuessesCounted(records: seq<OtpRecord>, phone: string, i: nat, guesses: seq<string>, now: int)
    requires ValidPhone(phone) && Newest(records, i, Strip(phone), None)
    requires now <= records[i].expiresAt
    requires forall k :: 0 <= k < |guesses| ==> |guesses[k]| == S.OTP_LENGTH && Strip(guesses[k]) != records[i].otp
    ensures VerifyCountedAll(records, phone, guesses, now)
      == records[i := records[i].(attempts := BumpN(records[i].attempts, |guesses|))]
  {
    var step := (s, g) => VerifyCounted(s, VerifyOtpRequest(phone, g), now).state;
    forall s: seq<OtpRecord>, k |
      && 0 <= k < |guesses| && Newest(s, i, Strip(phone), None)
      && s[i].expiresAt == records[i].expiresAt && s[i].otp == records[i].otp
      ensures step(s, guesses[k]) == s[i := s[i].(attempts := Bump(s[i].attempts))]
    {
      CountedWrongGuess(s, phone, i, guesses[k], now);
    }
    ReplayCounts(step, records, i, Strip(phone), guesses);
  }

  /** The intended verification locks a code out after
      `MAX_OTP_ATTEMPTS` wrong guesses: the right code is refused then. */
  lemma LockedOutAfterMaxWrongGuesses(records: seq<OtpRecord>, phone: string, i: nat, guesses: seq<string>, code: string, now: int)
    requires ValidPhone(phone) && |code| == S.OTP_LENGTH
    requires Newest(records, i, Strip(phone), None) && now <= records[i].expiresAt
    requires OtpRecordsValid(records)
    requires forall k :: 0 <= k < |guesses| ==> |guesses[k]| == S.OTP_LENGTH && Strip(guesses[k]) != records[i].otp
    requires |guesses| >= S.MAX_OTP_ATTEMPTS
    ensures VerifyCounted(VerifyCountedAll(records, phone, guesses, now), VerifyOtpRequest(phone, code), now)
      == Round(Refused(AttemptsExhausted), VerifyCountedAll(records, phone, guesses, now))
  {
    WrongGuessesCounted(records, phone, i, guesses, now);
    var a := BumpN(records[i].attempts, |guesses|);
    BumpNReachesLimit(records[i].attempts, |guesses|);
    NewestAfterCount(records, i, Strip(phone), a);
    var st := records[i := records[i].(attempts := a)];
    CountedNewest(st, VerifyOtpRequest(phone, code), now, i);
  }

  /** The intended verification still accepts the right code on the first
      try, exactly as the written one does. */
  lemma CountedAcceptsRightCode(records: seq<OtpRecord>, req: VerifyOtpRequest, now: int)
    requires OtpRecordsValid(records)
    requires ValidVerifyRequest(req)
    requires forall j :: 0 <= j < |records| && Matches(records[j], Strip(req.phone), None) ==> records[j].otp == Strip(req.otp)
    ensures VerifyCounted(records, req, now) == Verify(records, req, now)
  {
    var p, o := Strip(req.phone), Strip(req.otp);
    LatestSameKeys(records, records, p, None);
    assert forall j :: 0 <= j < |records| ==> Matches(records[j], p, None) == Matches(records[j], p, Some(o));
    LatestAgrees(records, p, o);
  }

  /** When every unused record of the phone holds the submitted code, the
      lookup by phone and the lookup by phone and code agree. */
  lemma {:induction false} LatestAgrees(rs: seq<OtpRecord>, phone: string, otp: string)
    requires forall j :: 0 <= j < |rs| ==> Matches(rs[j], phone, None) == Matches(rs[j], phone, Some(otp))
    ensures Latest(rs, phone, None) == Latest(rs, phone, Some(otp))
    decreases |rs|
  {
    if rs != [] {
      LatestAgrees(rs[..|rs| - 1], phone, otp);
    }
  }

  // ---------------------------------------------------------------------
  // The endpoints on the database

  /** POST /auth/send-otp: the record is added and committed before the
      provider is called, and deleted again if delivery failed. */
  method SendOtp(db: Db.Database, req: SendOtpRequest, draws: seq<nat>, now: int, delivered: bool) returns (r: Result<OtpResponse>)
    requires |draws| == S.OTP_LENGTH && forall i :: 0 <= i < |draws| ==> draws[i] < 10
    modifies db`otpRecords
    ensures r == SendAnswer(Send(old(db.otpRecords), req, draws, now, delivered).outcome)
    ensures db.otpRecords == Send(old(db.otpRecords), req, draws, now, delivered).state
    ensures old(OtpRecordsValid(db.otpRecords)) ==> OtpRecordsValid(db.otpRecords)
  {
    if OtpRecordsValid(db.otpRecords) {
      SendKeepsValid(db.otpRecords, req, draws, now, delivered);
    }
    if !ValidSendRequest(req) {
      return Err(RefusalError(Malformed(PhoneField)));
    }
    var phone := Strip(req.phone);
    if RecentlySent(db.otpRecords, phone, now) {
      return Err(RefusalError(RateLimited));
    }
    var otp := S.GenerateOtp(draws, S.OTP_LENGTH);
    var expiresAt := S.OtpExpiry(now);
    db.otpRecords := db.otpRecords + [OtpRecord(phone, otp, now, expiresAt.seconds, false, 0)];
    if !delivered {
      db.otpRecords := db.otpRecords[..|db.otpRecords| - 1];
      return Err(RefusalError(DeliveryFailed));
    }
    r := Ok(OtpResponse("OTP sent successfully to " + phone, 5));
  }

  /** POST /auth/resend-otp. */
  method ResendOtp(db: Db.Database, req: SendOtpRequest, draws: seq<nat>, now: int, delivered: bool) returns (r: Result<OtpResponse>)
    requires |draws| == S.OTP_LENGTH && forall i :: 0 <= i < |draws| ==> draws[i] < 10
    modifies db`otpRecords
    ensures r == SendAnswer(Resend(old(db.otpRecords), req, draws, now, delivered).outcome)
    ensures db.otpRecords == Resend(old(db.otpRecords), req, draws, now, delivered).state
    ensures old(OtpRecordsValid(db.otpRecords)) ==> OtpRecordsValid(db.otpRecords)
  {
    r := SendOtp(db, req, draws, now, delivered);
  }

  /** POST /auth/verify-otp: the attempt count is raised on the stored
      record before the code is compared, and the record is marked used. */
  method VerifyOtp(db: Db.Database, req: VerifyOtpRequest, now: int) returns (r: Result<VerifyResponse>)
    modifies db`otpRecords
    ensures r == VerifyAnswer(Verify(old(db.otpRecords), req, now).outcome)
    ensures db.otpRecords == Verify(old(db.otpRecords), req, now).state
    ensures old(OtpRecordsValid(db.otpRecords)) ==> OtpRecordsValid(db.otpRecords)
  {
    if OtpRecordsValid(db.otpRecords) {
      VerifyKeepsValid(db.otpRecords, req, now);
    }
    if !ValidPhone(req.phone) {
      return Err(RefusalError(Malformed(PhoneField)));
    }
    if |req.otp| != S.OTP_LENGTH {
      return Err(RefusalError(Malformed(OtpField)));
    }
    var phone := Strip(req.phone);
    var otp := Strip(req.otp);
    var k := Latest(db.otpRecords, phone, Some(otp));
    if k.None? {
      return Err(RefusalError(NoSuchCode));
    }
    var i := k.value;
    var rec := db.otpRecords[i];
    if S.IsOtpExpired(now, S.Aware(rec.expiresAt)) {
      return Err(RefusalError(Expired));
    }
    if rec.attempts >= S.MAX_OTP_ATTEMPTS {
      return Err(RefusalError(AttemptsExhausted));
    }
    rec := rec.(attempts := rec.attempts + 1);
    db.otpRecords := db.otpRecords[i := rec];
    if rec.otp != otp {
      return Err(RefusalError(WrongCode(S.MAX_OTP_ATTEMPTS - rec.attempts)));
    }
    rec := rec.(isUsed := true);
    db.otpRecords := db.otpRecords[i := rec];
    assert db.otpRecords == old(db.otpRecords)[i := rec];
    r := Ok(VerifyResponse(VERIFIED, phone, true));
  }
}

=== FILE: otp_service.dfy ===
/** The one-time-password helpers the OTP routes use
    (backend/utils/otp_service.py): code generation from random digits,
    expiry, the choice of SMS provider, and how each provider is handed the
    phone number. The HTTP calls themselves are not modelled; their outcome
    reaches the routes as a parameter. */
module OtpService {

  import opened Common
  import opened Strings

  /** Defaults of the settings read from the environment. */
  const OTP_LENGTH: nat := 6
  const OTP_EXPIRY_MINUTES: nat := 5
  const MAX_OTP_ATTEMPTS: nat := 3

  const TWILIO: string := "TWILIO"
  const TEMPLATE_PLACEHOLDER: string := "your_template_id_here"

  /** An instant in whole seconds. A naive datetime carries no zone and is
      read as UTC; an aware one is UTC already. */
  datatype Timestamp = Naive(seconds: int) | Aware(seconds: int)

  /** The character of one digit drawn from `string.digits`. */
  function DigitOf(d: nat): (c: char)
    requires d < 10
    ensures IsDigit(c)
  {
    DigitChar(d)
  }

  /** generate_otp: `length` digits chosen by the random draws (no digits
      for a negative length). */
  function GenerateOtp(draws: seq<nat>, length: int): (otp: string)
    requires |draws| == (if length < 0 then 0 else length)
    requires forall i :: 0 <= i < |draws| ==> draws[i] < 10
    ensures |otp| == |draws| && AllDigits(otp)
    ensures forall i :: 0 <= i < |otp| ==> otp[i] as int - '0' as int == draws[i]
  {
    seq(|draws|, i requires 0 <= i < |draws| => DigitOf(draws[i]))
  }

  /** The draws that produce a given code. */
  function DrawsOf(code: string): (draws: seq<nat>)
    requires AllDigits(code)
    ensures |draws| == |code| && forall i :: 0 <= i < |draws| ==> draws[i] < 10
  {
    seq(|code|, i requires 0 <= i < |code| => (code[i] as int - '0' as int) as nat)
  }

  /** Every string of `length` digits is a possible code, so no code is
      favoured or excluded by the generator. */
  lemma EveryCodePossible(code: string)
    requires AllDigits(code)
    ensures GenerateOtp(DrawsOf(code), |code|) == code
  {
    var g := GenerateOtp(DrawsOf(code), |code|);
    forall i | 0 <= i < |code| ensures g[i] == code[i] {
      assert g[i] as int - '0' as int == code[i] as int - '0' as int;
    }
  }

  /** get_otp_expiry: five minutes from now, as an aware UTC instant. */
  function OtpExpiry(now: int): (t: Timestamp)
    ensures t.Aware? && t.seconds - now == OTP_EXPIRY_MINUTES * 60
  {
    Aware(now + OTP_EXPIRY_MINUTES * 60)
  }

  /** is_otp_expired: a naive instant is given the UTC zone first; the code
      expires strictly after its expiry instant. */
  function IsOtpExpired(now: int, expiresAt: Timestamp): (expired: bool)
    ensures expired <==> now > expiresAt.seconds
  {
    var aware := if expiresAt.Naive? then Aware(expiresAt.seconds) else expiresAt;
    now > aware.seconds
  }

  /** A code issued at `issued` is accepted up to and including the instant
      five minutes later, and expired from the next second on. */
  lemma {:induction false} ExpiryWindow(issued: int, now: int)
    ensures !IsOtpExpired(now, OtpExpiry(issued)) <==> now <= issued + 300
  {
  }

  // ---------------------------------------------------------------------
  // Provider dispatch and phone formats

  datatype Channel = ViaTwilio | ViaMsg91

  /** send_otp: Twilio exactly when the provider setting is "TWILIO". */
  function ChannelFor(provider: string): (c: Channel)
    ensures c == ViaTwilio <==> provider == TWILIO
  {
    if provider == TWILIO then ViaTwilio else ViaMsg91
  }

  /** The phone with every '+' and every space removed. */
  function Cleaned(phone: string): (c: string)
    ensures forall i :: 0 <= i < |c| ==> c[i] != '+' && c[i] != ' '
    ensures forall i :: 0 <= i < |c| ==> c[i] in phone
  {
    RemoveChar(RemoveChar(phone, '+'), ' ')
  }

  /** Cleaning a clean number changes nothing. */
  lemma CleanedIdempotent(phone: string)
    ensures Cleaned(Cleaned(phone)) == Cleaned(phone)
  {
    var c := Cleaned(phone);
    RemoveCharAbsent(c, '+');
    RemoveCharAbsent(c, ' ');
  }

  /** The number Twilio is given by send_otp_via_twilio. */
  function TwilioFormat(phone: string): (to: string)
    ensures StartsWith(to, "+91")
    ensures to[1..] == Cleaned(phone) || to[3..] == Cleaned(phone)
    ensures StartsWith(Cleaned(phone), "91") <==> to[1..] == Cleaned(phone)
  {
    var c := Cleaned(phone);
    if !StartsWith(c, "91") then "+91" + c else "+" + c
  }

  /** The same steps, reassigning the phone in place. */
  method TwilioNumber(phone: string) returns (to: string)
    ensures to == TwilioFormat(phone)
  {
    to := RemoveChar(phone, '+');
    to := RemoveChar(to, ' ');
    if !StartsWith(to, "91") {
      to := "+91" + to;
    } else {
      to := "+" + to;
    }
  }

  /** Formatting is stable: a number already in Twilio form is kept. */
  lemma TwilioFormatIdempotent(phone: string)
    ensures TwilioFormat(TwilioFormat(phone)) == TwilioFormat(phone)
  {
    var to := TwilioFormat(phone);
    var c := Cleaned(phone);
    assert to == "+" + to[1..];
    RemoveCharConcat("+", to[1..], '+');
    RemoveCharAbsent(to[1..], '+');
    RemoveCharAbsent(to[1..], ' ');
    assert Cleaned(to) == to[1..];
    assert StartsWith(to[1..], "91");
  }

  /** The number MSG91 is given by send_otp_via_msg91: cleaned, with "91"
      in front unless already there. */
  function Msg91Format(phone: string): (mobiles: string)
    ensures StartsWith(mobiles, "91")
    ensures mobiles == Cleaned(phone) || mobiles == "91" + Cleaned(phone)
  {
    var c := Cleaned(phone);
    if !StartsWith(c, "91") then "91" + c else c
  }

  /** The OTP API is given the number without its country code. */
  function OtpApiMobile(mobiles: string): (mobile: string)
    ensures StartsWith(mobiles, "91") ==> "91" + mobile == mobiles
  {
    if StartsWith(mobiles, "91") then mobiles[2..] else mobiles
  }

  /** The OTP API path receives exactly the cleaned number when it lacked
      the prefix, and the cleaned number less "91" otherwise. */
  lemma OtpApiGetsNationalNumber(phone: string)
    ensures var c := Cleaned(phone);
      OtpApiMobile(Msg91Format(phone)) == (if StartsWith(c, "91") then c[2..] else c)
  {
    var c := Cleaned(phone);
    if !StartsWith(c, "91") {
      assert ("91" + c)[2..] == c;
    }
  }

  /** The phone reassignments of send_otp_via_msg91. */
  method Msg91Numbers(phone: string) returns (mobiles: string, mobile: string)
    ensures mobiles == Msg91Format(phone)
    ensures mobile == OtpApiMobile(mobiles)
  {
    mobiles := RemoveChar(phone, '+');
    mobiles := RemoveChar(mobiles, ' ');
    if !StartsWith(mobiles, "91") {
      mobiles := "91" + mobiles;
    }
    mobile := if StartsWith(mobiles, "91") then mobiles[2..] else mobiles;
  }

  /** The DLT template path is taken when a real template id is configured. */
  predicate UsesDltTemplate(templateId: Option<string>) {
    templateId.Some? && templateId.value != "" && templateId.value != TEMPLATE_PLACEHOLDER
  }

  /** A DLT send succeeds on HTTP 200 whose stripped, lower-cased body
      mentions neither "error" nor "invalid". */
  function DltSucceeded(status: int, body: string): (ok: bool)
    ensures ok ==> status == 200
    ensures ok <==> status == 200 && !Contains(Lower(Strip(body)), "error") && !Contains(Lower(Strip(body)), "invalid")
  {
    if status != 200 then false
    else
      var text := Lower(Strip(body));
      !Contains(text, "error") && !Contains(text, "invalid")
  }

  /** An OTP API send succeeds on HTTP 200 whose JSON `type` is "success". */
  function OtpApiSucceeded(status: int, jsonType: Option<string>): (ok: bool)
    ensures ok <==> status == 200 && jsonType == Some("success")
  {
    status == 200 && jsonType == Some("success")
  }

  /** send_otp_via_msg91's verdict for the responses it could receive. */
  function Msg91Sent(templateId: Option<string>, status: int, body: string, jsonType: Option<string>): (ok: bool)
    ensures ok ==> status == 200
  {
    if UsesDltTemplate(templateId) then DltSucceeded(status, body) else OtpApiSucceeded(status, jsonType)
  }

  /** A body reporting an error is a failed send, whatever the status. */
  lemma ErrorBodyFails(status: int, rest: string)
    ensures !DltSucceeded(status, "ERROR" + rest)
  {
    var body := "ERROR" + rest;
    if status == 200 {
      var e: string := "ERROR";
      StripKeepsPrefix(e, rest, Python);
      var t := Strip(body);
      assert t[..5] == "ERROR";
      var l := Lower(t);
      assert l[..5] == "error" by {
        forall i | 0 <= i < 5 ensures l[i] == "error"[i] {
          assert t[i] == "ERROR"[i];
        }
      }
      assert OccursAt(l, "error", 0);
    }
  }
}

=== FILE: protected_route.dfy ===
/** The route guard (frontend/src/components/ProtectedRoute.jsx): on mount
    it checks the stored token against the backend, and it renders a
    placeholder, a redirect or the protected page. What `getCurrentUser`
    gives back is a parameter: the user it resolves with, or None when it
    throws. */
module ProtectedRoute {

  import opened Common
  import Api

  const SIGNIN := "/signin"
  const UNAUTHORIZED_PAGE := "/unauthorized"

  /** The part of `/auth/me`'s answer the guard looks at. */
  datatype User = User(role: string)

  /** What the guard renders. */
  datatype View = LoadingPlaceholder | Redirect(to: string) | Children

  /** The render decision: the placeholder while loading, the sign-in page
      without a user, the unauthorized page when a role is required and
      the user has another one, the protected page otherwise. */
  function Render(loading: bool, user: Option<User>, requiredRole: Option<string>): (v: View)
    ensures v == LoadingPlaceholder <==> loading
    ensures v == Redirect(SIGNIN) <==> !loading && user.None?
    ensures v == Redirect(UNAUTHORIZED_PAGE) <==>
      !loading && user.Some? && Api.Truthy(requiredRole) && user.value.role != requiredRole.value
    ensures v == Children <==>
      !loading && user.Some? && (Api.Truthy(requiredRole) ==> user.value.role == requiredRole.value)
  {
    if loading then LoadingPlaceholder
    else if user.None? then Redirect(SIGNIN)
    else if Api.Truthy(requiredRole) && user.value.role != requiredRole.value then Redirect(UNAUTHORIZED_PAGE)
    else Children
  }

  /** Without a required role (the default `null`, or an empty string) any
      signed-in user sees the page; with one, only a user of that role. */
  lemma ChildrenOnlyForRole(user: User, requiredRole: Option<string>)
    ensures !Api.Truthy(requiredRole) ==> Render(false, Some(user), requiredRole) == Children
    ensures Api.Truthy(requiredRole) ==>
      (Render(false, Some(user), requiredRole) == Children <==> user.role == requiredRole.value)
  {
  }

  class RouteGuard {
    const requiredRole: Option<string>
    var loading: bool
    var user: Option<User>

    /** The state the guard mounts with: loading, no user. */
    constructor (requiredRole: Option<string>)
      ensures this.requiredRole == requiredRole && loading && user == None
    {
      this.requiredRole := requiredRole;
      loading := true;
      user := None;
    }

    /** What the guard renders now. */
    function View(): (v: View)
      reads this
      ensures v == Render(loading, user, requiredRole)
    {
      Render(loading, user, requiredRole)
    }

    /** checkAuth, run once on mount: without a (non-empty) token it stops
        loading at once and asks nothing; otherwise it asks the backend,
        keeps the user it answers with, and removes the token when the call
        fails. Returns whether `getCurrentUser` was called. */
    method CheckAuth(store: Api.TokenStore, answer: Option<User>) returns (asked: bool)
      requires loading && user.None?
      modifies this`loading, this`user, store
      ensures asked <==> Api.Truthy(old(store.stored))
      ensures !loading
      ensures !asked ==> user.None? && store.stored == old(store.stored)
      ensures asked && answer.Some? ==> user == answer && store.stored == old(store.stored)
      ensures asked && answer.None? ==> user.None? && !store.IsAuthenticated()
      ensures View() == Children ==> asked && answer.Some?
      ensures user.None? ==> View() == Redirect(SIGNIN)
    {
      var token := store.GetAuthToken();
      if !Api.Truthy(token) {
        loading := false;
        return false;
      }
      asked := true;
      if answer.Some? {
        user := answer;
      } else {
        store.RemoveAuthToken();
      }
      loading := false;
    }
  }
}

=== FILE: provider_cards.dfy ===
/** The provider listing a customer browses (`get_providers_for_customer`,
    backend/routes/dashboard.py): the grouped query joining provider users
    with their profiles and review ratings, the search/service/location
    filters, offset and limit, and the loop that turns each row into a card,
    extracting the service name from the bio that sign-up wrote. */
module ProviderCards {

  import opened Common
  import opened Strings
  import opened Models
  import R = DashboardRules
  import AuthService
  import Db

  /** One row of the grouped query: a provider user, its profile's location
      and bio when it has a profile, and the mean and number of the ratings
      it received. */
  datatype ProviderRow = ProviderRow(
    userId: nat, phone: string, name: string,
    locationName: Option<string>, bio: Option<string>,
    avgRating: real, reviewCount: nat)

  datatype ProviderCard = ProviderCard(
    phone: string, name: string, service: string, description: string,
    rating: real, location: string, reviewsCount: nat, isSaved: bool)

  const GENERAL_SERVICES: string := "General Services"
  const NO_DESCRIPTION: string := "No description available"
  const NO_LOCATION: string := "Location not specified"

  // ---------------------------------------------------------------------
  // The grouped query

  /** The ratings given to one provider, in table order. */
  function Ratings(reviews: seq<Review>, providerId: nat): (r: seq<real>)
    ensures |r| == R.CountReviews(reviews, providerId)
    ensures forall x :: x in r ==> exists v :: v in reviews && v.providerId == providerId && v.rating == x
  {
    if reviews == [] then []
    else (if reviews[0].providerId == providerId then [reviews[0].rating] else []) + Ratings(reviews[1..], providerId)
  }

  function Sum(xs: seq<real>): real {
    if xs == [] then 0.0 else xs[0] + Sum(xs[1..])
  }

  /** `coalesce(avg(rating), 0.0)` */
  function Average(xs: seq<real>): real {
    if xs == [] then 0.0 else Sum(xs) / (|xs| as real)
  }

  lemma {:induction false} SumBounds(xs: seq<real>, lo: real, hi: real)
    requires forall x :: x in xs ==> lo <= x <= hi
    ensures (|xs| as real) * lo <= Sum(xs) <= (|xs| as real) * hi
  {
    if xs != [] {
      assert forall x :: x in xs[1..] ==> x in xs;
      SumBounds(xs[1..], lo, hi);
      assert xs[0] in xs;
    }
  }

  /** The mean of ratings within a range stays within it. */
  lemma AverageBounds(xs: seq<real>, lo: real, hi: real)
    requires xs != [] && forall x :: x in xs ==> lo <= x <= hi
    ensures lo <= Average(xs) <= hi
  {
    SumBounds(xs, lo, hi);
    var n := |xs| as real;
    assert Sum(xs) / n * n == Sum(xs);
  }

  /** A provider whose reviews all passed the 1.0 to 5.0 check is listed
      with an average in that range, or 0.0 when it has no review. */
  lemma RatingInRange(reviews: seq<Review>, providerId: nat)
    requires forall v :: v in reviews ==> 1.0 <= v.rating <= 5.0
    ensures var a := Average(Ratings(reviews, providerId));
      (Ratings(reviews, providerId) == [] && a == 0.0) || (1.0 <= a <= 5.0)
  {
    var xs := Ratings(reviews, providerId);
    if xs != [] {
      AverageBounds(xs, 1.0, 5.0);
    }
  }

  /** The outer join of one provider user with its profile and reviews. */
  function RowOf(u: User, profiles: map<nat, ProviderProfile>, reviews: seq<Review>): (row: ProviderRow)
    ensures row.userId == u.id && row.phone == u.phone && row.name == u.name
    ensures u.id !in profiles ==> row.bio.None? && row.locationName.None?
    ensures row.reviewCount == R.CountReviews(reviews, u.id)
  {
    var ratings := Ratings(reviews, u.id);
    ProviderRow(u.id, u.phone, u.name,
      if u.id in profiles then profiles[u.id].locationName else None,
      if u.id in profiles then profiles[u.id].bio else None,
      Average(ratings), |ratings|)
  }

  /** One row per user whose role is provider; users of other roles are
      not listed. */
  function JoinRows(users: seq<User>, profiles: map<nat, ProviderProfile>, reviews: seq<Review>): (rows: seq<ProviderRow>)
    ensures |rows| <= |users|
    ensures forall u :: u in users && u.role == R.PROVIDER ==> RowOf(u, profiles, reviews) in rows
    ensures forall row :: row in rows ==>
      exists u :: u in users && u.role == R.PROVIDER && row == RowOf(u, profiles, reviews)
  {
    if users == [] then []
    else
      var rest := JoinRows(users[1..], profiles, reviews);
      assert forall u :: u in users[1..] ==> u in users;
      assert forall u :: u in users ==> u == users[0] || u in users[1..];
      if users[0].role == R.PROVIDER then [RowOf(users[0], profiles, reviews)] + rest else rest
  }

  // ---------------------------------------------------------------------
  // Filters, offset and limit

  /** Python truthiness of an optional query parameter. */
  predicate Truthy(x: Option<string>) {
    x.Some? && x.value != ""
  }

  /** `s LIKE p` by PostgreSQL's pattern rules: `%` matches any run of
      characters, `_` any one character, and a backslash makes the next
      character literal; every other character matches itself. */
  predicate Like(s: string, p: string)
    decreases |p|, |s|
  {
    if p == [] then s == []
    else if p[0] == '%' then Like(s, p[1..]) || (s != [] && Like(s[1..], p))
    else if p[0] == '_' then s != [] && Like(s[1..], p[1..])
    else if p[0] == '\\' && |p| >= 2 then s != [] && s[0] == p[1] && Like(s[1..], p[2..])
    else s != [] && s[0] == p[0] && Like(s[1..], p[1..])
  }

  /** `column ILIKE '%text%'` on a nullable column: NULL matches nothing,
      and the typed text is the middle of the pattern, wildcards and all. */
  predicate ILike(column: Option<string>, text: string) {
    column.Some? && Like(Lower(column.value), Lower("%" + text + "%"))
  }

  /** A text in which no character is special to LIKE. */
  predicate Literal(q: string) {
    forall i :: 0 <= i < |q| ==> q[i] != '%' && q[i] != '_' && q[i] != '\\'
  }

  lemma {:induction false} PercentMatchesAll(s: string)
    ensures Like(s, "%")
    decreases |s|
  {
    if s != [] {
      PercentMatchesAll(s[1..]);
    }
  }

  /** A literal text followed by `%` matches exactly the strings it starts. */
  lemma {:induction false} LiteralThenPercent(u: string, q: string)
    requires Literal(q)
    ensures Like(u, q + "%") <==> |q| <= |u| && u[..|q|] == q
    decreases |q|
  {
    if q == [] {
      assert q + "%" == "%";
      PercentMatchesAll(u);
    } else {
      var p := q + "%";
      assert p[0] == q[0] && p[1..] == q[1..] + "%";
      if u != [] {
        LiteralThenPercent(u[1..], q[1..]);
        if |q| <= |u| {
          assert u[..|q|] == [u[0]] + u[1..][..|q| - 1];
          assert q == [q[0]] + q[1..];
        }
      }
    }
  }

  /** A leading `%` lets the rest of the pattern match any suffix. */
  lemma {:induction false} LeadingPercent(s: string, r: string)
    ensures Like(s, "%" + r) <==> exists k :: 0 <= k <= |s| && Like(s[k..], r)
    decreases |s|
  {
    var p := "%" + r;
    assert p[0] == '%' && p[1..] == r;
    assert s[0..] == s;
    if s != [] {
      LeadingPercent(s[1..], r);
      forall k | 1 <= k <= |s| ensures s[1..][k - 1..] == s[k..] {
      }
      if exists k :: 0 <= k <= |s| && Like(s[k..], r) {
        var k :| 0 <= k <= |s| && Like(s[k..], r);
        if k > 0 {
          assert Like(s[1..][k - 1..], r);
        }
      }
    }
  }

  /** Without wildcards in the text, `ILIKE '%text%'` is a substring test. */
  lemma LiteralSearchIsContains(s: string, q: string)
    requires Literal(q)
    ensures Like(s, "%" + q + "%") <==> Contains(s, q)
  {
    assert "%" + q + "%" == "%" + (q + "%");
    LeadingPercent(s, q + "%");
    forall k | 0 <= k <= |s| ensures Like(s[k..], q + "%") <==> OccursAt(s, q, k) {
      LiteralThenPercent(s[k..], q);
      if k + |q| <= |s| {
        assert s[k..][..|q|] == s[k..k + |q|];
      }
    }
    if Contains(s, q) {
      var k := Find(s, q).value;
      assert Like(s[k..], q + "%");
    }
  }

  lemma LowerFrame(q: string)
    ensures Lower("%" + q + "%") == "%" + Lower(q) + "%"
    ensures Literal(q) ==> Literal(Lower(q))
  {
  }

  /** A search text without `%`, `_` or a backslash matches a column
      exactly when it occurs in it, ignoring case. */
  lemma ILikeLiteral(column: string, text: string)
    requires Literal(text)
    ensures ILike(Some(column), text) <==> Contains(Lower(column), Lower(text))
  {
    LowerFrame(text);
    LiteralSearchIsContains(Lower(column), Lower(text));
  }

  /** The typed text is a pattern: a search for "_" matches every
      non-empty column. */
  lemma UnderscoreMatchesAnyText(column: string)
    ensures ILike(Some(column), "_") <==> column != ""
  {
    var s := Lower(column);
    assert Lower("%" + "_" + "%") == "%" + "_%";
    LeadingPercent(s, "_%");
    if s != [] {
      var u := s[1..];
      assert "_%"[1..] == "%";
      PercentMatchesAll(u);
      assert s[0..] == s;
      assert Like(s[0..], "_%");
    }
  }

  /** A service or location filter applies unless absent, empty or "all". */
  predicate Selective(x: Option<string>) {
    Truthy(x) && Lower(x.value) != "all"
  }

  predicate RowMatches(row: ProviderRow, search: Option<string>, service: Option<string>, location: Option<string>) {
    && (Truthy(search) ==>
         ILike(Some(row.name), search.value) || ILike(row.bio, search.value) || ILike(row.locationName, search.value))
    && (Selective(service) ==> ILike(row.bio, service.value))
    && (Selective(location) ==> ILike(row.locationName, location.value))
  }

  function FilterRows(rows: seq<ProviderRow>, search: Option<string>, service: Option<string>, location: Option<string>)
    : (r: seq<ProviderRow>)
    ensures |r| <= |rows|
    ensures forall row :: row in r <==> row in rows && RowMatches(row, search, service, location)
  {
    if rows == [] then []
    else
      var rest := FilterRows(rows[1..], search, service, location);
      assert forall row :: row in rows <==> row == rows[0] || row in rows[1..];
      if RowMatches(rows[0], search, service, location) then [rows[0]] + rest else rest
  }

  /** `OFFSET skip LIMIT limit`; the database refuses negative values,
      which surfaces as a server error. */
  function Page<T>(rows: seq<T>, skip: int, limit: int): (r: Result<seq<T>>)
    ensures r.Ok? <==> skip >= 0 && limit >= 0
    ensures r.Err? ==> r.error.status == INTERNAL_ERROR
    ensures r.Ok? ==> |r.value| <= limit && (r.value == [] || skip + |r.value| <= |rows|)
    ensures r.Ok? ==> forall i :: 0 <= i < |r.value| ==> r.value[i] == rows[skip + i]
    ensures r.Ok? && skip + limit <= |rows| ==> |r.value| == limit
    ensures r.Ok? && skip <= |rows| && |rows| <= skip + limit ==> |r.value| == |rows| - skip
  {
    if skip < 0 || limit < 0 then Err(Error(INTERNAL_ERROR, "OFFSET and LIMIT must not be negative"))
    else if skip >= |rows| then Ok([])
    else if skip + limit >= |rows| then Ok(rows[skip..])
    else Ok(rows[skip..skip + limit])
  }

  // ---------------------------------------------------------------------
  // Building the cards

  /** The service named in a bio of the form "Experienced {service} in
      {location}": the text after the first "Experienced", up to the next
      "Experienced" and then up to the first "in", stripped. A bio without
      "Experienced" gives "General Services". The cut at "in" also falls
      inside words, so the result never contains "in". */
  function ExtractService(bio: Option<string>): (s: string)
    ensures !(bio.Some? && Contains(bio.value, "Experienced")) ==> s == GENERAL_SERVICES
    ensures bio.Some? && Contains(bio.value, "Experienced") ==> !Contains(s, "in")
  {
    if bio.Some? && bio.value != "" && Contains(bio.value, "Experienced") then
      var segment := Before(After(bio.value, "Experienced"), "Experienced");
      BeforeExcludesSep(segment, "in");
      StripNotContains(Before(segment, "in"), "in", Python);
      Strip(Before(segment, "in"))
    else GENERAL_SERVICES
  }

  /** The same rule cutting at the word " in " instead of the letters "in". */
  function ExtractServiceFixed(bio: Option<string>): (s: string)
    ensures !(bio.Some? && Contains(bio.value, "Experienced")) ==> s == GENERAL_SERVICES
    ensures bio.Some? && Contains(bio.value, "Experienced") ==> !Contains(s, " in ")
  {
    if bio.Some? && bio.value != "" && Contains(bio.value, "Experienced") then
      var segment := Before(After(bio.value, "Experienced"), "Experienced");
      BeforeExcludesSep(segment, " in ");
      StripNotContains(Before(segment, " in "), " in ", Python);
      Strip(Before(segment, " in "))
    else GENERAL_SERVICES
  }

  /** The skip rule: a truthy `min_rating` hides providers rated below it. */
  predicate Shown(row: ProviderRow, minRating: Option<real>) {
    !(minRating.Some? && minRating.value != 0.0 && row.avgRating < minRating.value)
  }

  function CardOf(row: ProviderRow, savedPhones: set<string>): (c: ProviderCard)
    ensures c.phone == row.phone && c.name == row.name && c.reviewsCount == row.reviewCount
    ensures c.isSaved <==> row.phone in savedPhones
    ensures c.description == (if Truthy(row.bio) then row.bio.value else NO_DESCRIPTION)
    ensures c.location == (if Truthy(row.locationName) then row.locationName.value else NO_LOCATION)
  {
    ProviderCard(row.phone, row.name, ExtractService(row.bio), OrElse(row.bio, NO_DESCRIPTION),
      row.avgRating, OrElse(row.locationName, NO_LOCATION), row.reviewCount, row.phone in savedPhones)
  }

  /** The cards of the shown rows, in row order. */
  function Cards(rows: seq<ProviderRow>, savedPhones: set<string>, minRating: Option<real>): (cards: seq<ProviderCard>)
    ensures |cards| <= |rows|
    ensures minRating.None? ==> |cards| == |rows|
    ensures forall c :: c in cards ==> (c.isSaved <==> c.phone in savedPhones)
    ensures forall c :: c in cards ==> exists row :: row in rows && Shown(row, minRating) && c == CardOf(row, savedPhones)
    ensures forall row :: row in rows && Shown(row, minRating) ==> CardOf(row, savedPhones) in cards
  {
    if rows == [] then []
    else
      var init := rows[..|rows| - 1];
      var last := rows[|rows| - 1];
      var before := Cards(init, savedPhones, minRating);
      assert forall row :: row in rows <==> row in init || row == last;
      before + (if Shown(last, minRating) then [CardOf(last, savedPhones)] else [])
  }

  /** One more row extends the cards of a prefix by at most that row's card. */
  lemma CardsStep(rows: seq<ProviderRow>, savedPhones: set<string>, minRating: Option<real>, i: nat)
    requires i < |rows|
    ensures Cards(rows[..i + 1], savedPhones, minRating)
         == Cards(rows[..i], savedPhones, minRating)
            + (if Shown(rows[i], minRating) then [CardOf(rows[i], savedPhones)] else [])
  {
    assert rows[..i + 1][..i] == rows[..i];
  }

  /** The phones of the providers the customer saved. */
  function SavedPhones(saved: set<SavedPair>, customerPhone: string): (r: set<string>)
    ensures forall p :: p in r <==> (customerPhone, p) in saved
  {
    set pair | pair in saved && pair.0 == customerPhone :: pair.1
  }

  /** The loop that fills `result`, one card per row that passes the
      rating filter. */
  method BuildCards(rows: seq<ProviderRow>, savedPhones: set<string>, minRating: Option<real>)
    returns (result: seq<ProviderCard>)
    ensures result == Cards(rows, savedPhones, minRating)
  {
    result := [];
    var i := 0;
    while i < |rows|
      invariant 0 <= i <= |rows|
      invariant result == Cards(rows[..i], savedPhones, minRating)
    {
      var row := rows[i];
      CardsStep(rows, savedPhones, minRating, i);
      var service := GENERAL_SERVICES;
      var description := OrElse(row.bio, NO_DESCRIPTION);
      if Truthy(row.bio) && Contains(row.bio.value, "Experienced") {
        service := ExtractService(row.bio);
      }
      var avgRating := row.avgRating;
      if minRating.Some? && minRating.value != 0.0 && avgRating < minRating.value {
        i := i + 1;
        continue;
      }
      var isSaved := row.phone in savedPhones;
      result := result + [ProviderCard(row.phone, row.name, service, description,
        avgRating, OrElse(row.locationName, NO_LOCATION), row.reviewCount, isSaved)];
      i := i + 1;
    }
    assert rows[..|rows|] == rows;
  }

  /** get_providers_for_customer: the cards of one page of the providers
      matching the filters. */
  function ProvidersForCustomer(users: seq<User>, profiles: map<nat, ProviderProfile>, reviews: seq<Review>,
                                saved: set<SavedPair>, actor: User,
                                search: Option<string>, service: Option<string>, location: Option<string>,
                                minRating: Option<real>, skip: int, limit: int): (r: Result<seq<ProviderCard>>)
    ensures r.Ok? <==> skip >= 0 && limit >= 0
    ensures r.Ok? ==> |r.value| <= limit
    ensures r.Ok? ==> forall c :: c in r.value ==> (c.isSaved <==> (actor.phone, c.phone) in saved)
    ensures r.Ok? ==> forall c :: c in r.value ==>
      exists u :: u in users && u.role == R.PROVIDER && u.phone == c.phone && u.name == c.name
  {
    var rows := FilterRows(JoinRows(users, profiles, reviews), search, service, location);
    match Page(rows, skip, limit)
    case Err(e) => Err(e)
    case Ok(page) =>
      assert forall row :: row in page ==> row in rows;
      Ok(Cards(page, SavedPhones(saved, actor.phone), minRating))
  }

  /** The handler on the database: reads the tables and runs the card loop. */
  method GetProvidersForCustomer(db: Db.Database, actor: User,
                                 search: Option<string>, service: Option<string>, location: Option<string>,
                                 minRating: Option<real>, skip: int, limit: int)
    returns (r: Result<seq<ProviderCard>>)
    ensures r == ProvidersForCustomer(db.users, db.providerProfiles, db.reviews, db.savedProviders, actor,
                                      search, service, location, minRating, skip, limit)
  {
    var rows := FilterRows(JoinRows(db.users, db.providerProfiles, db.reviews), search, service, location);
    var page := Page(rows, skip, limit);
    if page.Err? {
      return Err(page.error);
    }
    var cards := BuildCards(page.value, SavedPhones(db.savedProviders, actor.phone), minRating);
    r := Ok(cards);
  }

  // ---------------------------------------------------------------------
  // The bio written at sign-up, read back

  /** For a service name without "in" (and without "Experienced"), the card
      shows the service that sign-up wrote into the bio, stripped. */
  lemma ExtractFromBio(service: string, location: string)
    requires !Contains(service, "in") && !Contains(service, "Experienced")
    ensures ExtractService(Some(AuthService.BioText(Some(service), Some(location)))) == Strip(service)
  {
    var bio := AuthService.BioText(Some(service), Some(location));
    var x := " " + service + " " + ("in " + location);
    var m := |service| + 2;
    ExperiencedAtStart(service, location);
    assert x[m] == 'i' && x[m + 1] == 'n';
    LateExperienced(service, location, m + 2);
    var y := Before(x, "Experienced");
    SpacedNoEarly(service, "in " + location, "in");
    SamePrefixOccurrences(x, y, "in", m + 2);
    assert x[m..m + 2] == "in";
    BeforeAt(y, "in", m);
    assert y[..m] == x[..m] == " " + service + " ";
    StripPadded(service, Python);
  }

  /** Sign-up's bio starts with "Experienced"; what follows is
      `" " + service + " in " + location`. */
  lemma ExperiencedAtStart(service: string, location: string)
    ensures var bio := AuthService.BioText(Some(service), Some(location));
      Contains(bio, "Experienced") && After(bio, "Experienced") == " " + service + " " + ("in " + location)
  {
    var bio := AuthService.BioText(Some(service), Some(location));
    assert bio == "Experienced" + (" " + service + " " + ("in " + location));
    assert bio[..11] == "Experienced";
  }

  /** No "Experienced" starts in the first `m` characters after the prefix
      when the service has none and the text there is " in ". */
  lemma LateExperienced(service: string, location: string, m: nat)
    requires !Contains(service, "Experienced")
    requires m == |service| + 4 || m == |service| + 5
    ensures var x := " " + service + " " + ("in " + location);
      m <= |x| && forall j :: 0 <= j < m ==> !OccursAt(x, "Experienced", j)
  {
    var x := " " + service + " " + ("in " + location);
    var k := |service| + 2;
    SpacedNoEarly(service, "in " + location, "Experienced");
    assert x[k] == 'i' && x[k + 1] == 'n' && x[k + 2] == ' ';
    forall j | k <= j < m ensures !OccursAt(x, "Experienced", j) {
      if j + 11 <= |x| {
        assert x[j..j + 11][0] == x[j];
      }
    }
  }

  /** In the text after "Experienced", the first " in " is the one the
      bio puts after the service. */
  lemma FirstSpacedIn(service: string, location: string)
    requires !Contains(" " + service + " ", " in ")
    ensures var x := " " + service + " " + ("in " + location);
      && OccursAt(x, " in ", |service| + 1)
      && forall j :: 0 <= j < |service| + 1 ==> !OccursAt(x, " in ", j)
  {
    var x := " " + service + " " + ("in " + location);
    var z := " " + service + " ";
    var m := |service| + 1;
    assert x[..m + 1] == z[..m + 1];
    SamePrefixOccurrences(x, z, " in ", m + 1);
    assert x[m] == ' ' && x[m + 1] == 'i' && x[m + 2] == 'n' && x[m + 3] == ' ';
    forall j | 0 <= j < m ensures !OccursAt(x, " in ", j) {
      if j + 4 > m + 1 && j + 4 <= |x| {
        assert x[j..j + 4][m - j] == x[m];
      }
    }
    assert x[m..m + 4] == " in ";
  }

  /** With the word cut, every service without the word " in " and without
      "Experienced" reads back from its bio, "Plumbing" included. */
  lemma ExtractFixedFromBio(service: string, location: string)
    requires !Contains(" " + service + " ", " in ") && !Contains(service, "Experienced")
    ensures ExtractServiceFixed(Some(AuthService.BioText(Some(service), Some(location)))) == Strip(service)
  {
    var x := " " + service + " " + ("in " + location);
    var m := |service| + 1;
    ExperiencedAtStart(service, location);
    LateExperienced(service, location, m + 4);
    var y := Before(x, "Experienced");
    FirstSpacedIn(service, location);
    SamePrefixOccurrences(x, y, " in ", m + 4);
    BeforeAt(y, " in ", m);
    assert y[..m] == x[..m] == " " + service;
    StripLeadingSpace(service, Python);
  }

  /** The segment between "Experienced" and the next "Experienced" is cut
      at the first "in" of the service. */
  lemma SegmentCutsAtIn(service: string, location: string, k: nat)
    requires !Contains(service, "Experienced")
    requires OccursAt(service, "in", k) && forall j :: 0 <= j < k ==> !OccursAt(service, "in", j)
    ensures Before(Before(" " + service + " " + ("in " + location), "Experienced"), "in") == " " + service[..k]
  {
    var x := " " + service + " " + ("in " + location);
    var m := |service| + 2;
    LateExperienced(service, location, m + 2);
    var y := Before(x, "Experienced");
    SamePrefixOccurrences(x, y, "in", m + 2);
    assert x == " " + service + (" " + ("in " + location));
    EarlyOccurrences(service, " " + ("in " + location), k);
    BeforeAt(y, "in", k + 1);
    assert y[..k + 1] == x[..k + 1] == " " + service[..k];
  }

  /** As written, the service is cut at its first "in", even inside a word. */
  lemma ExtractCutsAtIn(service: string, location: string, k: nat)
    requires !Contains(service, "Experienced")
    requires OccursAt(service, "in", k) && forall j :: 0 <= j < k ==> !OccursAt(service, "in", j)
    ensures ExtractService(Some(AuthService.BioText(Some(service), Some(location)))) == Strip(service[..k])
  {
    ExperiencedAtStart(service, location);
    SegmentCutsAtIn(service, location, k);
    StripLeadingSpace(service[..k], Python);
  }


  /** Before the first "in" of `service`, `" " + service + rest` has none either. */
  lemma EarlyOccurrences(service: string, rest: string, k: nat)
    requires OccursAt(service, "in", k) && forall j :: 0 <= j < k ==> !OccursAt(service, "in", j)
    ensures OccursAt(" " + service + rest, "in", k + 1)
    ensures forall j :: 0 <= j < k + 1 ==> !OccursAt(" " + service + rest, "in", j)
  {
    var x := " " + service + rest;
    assert x[1..|service| + 1] == service;
    forall j | 1 <= j <= k + 1 ensures OccursAt(x, "in", j) == OccursAt(service, "in", j - 1) {
      assert x[j..j + 2] == service[j - 1..j + 1];
    }
    assert x[0..2][0] == ' ';
  }

  /** Where "in" first occurs in "Plumbing". */
  lemma PlumbingFirstIn(service: string)
    requires service == "Plumbing"
    ensures OccursAt(service, "in", 5) && forall j :: 0 <= j < 5 ==> !OccursAt(service, "in", j)
    ensures !Contains(service, "Experienced")
  {
    assert service[5..7] == "in";
    forall j | 0 <= j < 5 ensures !OccursAt(service, "in", j) {
      assert service[j..j + 2][0] == service[j] != 'i';
    }
  }

  /** "Plumbing" has no word " in ". */
  lemma PlumbingNoWordIn(service: string)
    requires service == "Plumbing"
    ensures !Contains(" " + service + " ", " in ")
  {
    var z := " " + service + " ";
    forall j | 0 <= j ensures !OccursAt(z, " in ", j) {
      if j + 4 <= |z| {
        if j == 0 {
          assert z[j..j + 4][3] == z[3] != ' ';
        } else {
          assert z[j..j + 4][0] == z[j] != ' ';
        }
      }
    }
  }

  /** Stripping leaves "Plumbing" as it is. */
  lemma PlumbingStrips(service: string)
    requires service == "Plumbing"
    ensures Strip(service) == service
  {
  }

  /** Stripping leaves the first five letters of "Plumbing" as they are. */
  lemma PlumbStrips(service: string)
    requires service == "Plumbing"
    ensures Strip(service[..5]) == "Plumb"
  {
    assert service[..5] == "Plumb";
  }

  lemma PlumbingCut(service: string, location: string)
    requires service == "Plumbing"
    ensures ExtractService(Some(AuthService.BioText(Some(service), Some(location)))) == Strip(service[..5])
  {
    PlumbingFirstIn(service);
    ExtractCutsAtIn(service, location, 5);
  }

  /** "Plumbing" contains "in", so its bio is read back as "Plumb". */
  lemma PlumbingReadsBackAsPlumb(service: string, location: string)
    requires service == "Plumbing"
    ensures ExtractService(Some(AuthService.BioText(Some(service), Some(location)))) == "Plumb"
  {
    PlumbingCut(service, location);
    PlumbStrips(service);
  }

  /** The corrected rule reads "Plumbing" back unchanged. */
  lemma PlumbingReadsBackFixed(service: string, location: string)
    requires service == "Plumbing"
    ensures ExtractServiceFixed(Some(AuthService.BioText(Some(service), Some(location)))) == "Plumbing"
  {
    PlumbingFirstIn(service);
    PlumbingNoWordIn(service);
    PlumbingStrips(service);
    ExtractFixedFromBio(service, location);
  }
}

=== FILE: provider_profile_modal.dfy ===
/** The provider profile dialog with its booking form
    (frontend/src/components/ProviderProfileModal.jsx): the default time
    slot, the booking request it sends, the Confirm button rule and the
    number its WhatsApp link opens. The clock reading (today's date and the
    hour and minute in India) is a parameter; what the `onBook` callback
    does is a parameter too (None when it resolves, the message of the
    error it throws otherwise), and the alert it shows is returned. */
module ProviderProfileModal {

  import opened Common
  import opened Strings
  import WhatsApp

  // ---------------------------------------------------------------------
  // Time slots

  datatype Period = AM | PM

  /** A slot label such as "01:00 PM", by its parts. */
  datatype Slot = Slot(hour: nat, minute: nat, period: Period)

  /** The slots offered for a scheduled booking, in the order listed. */
  const TIME_SLOTS: seq<Slot> := [
    Slot(9, 0, AM), Slot(10, 0, AM), Slot(11, 0, AM), Slot(12, 0, PM),
    Slot(1, 0, PM), Slot(2, 0, PM), Slot(3, 0, PM), Slot(4, 0, PM),
    Slot(5, 0, PM), Slot(6, 0, PM)]

  /** The text of a slot: two-digit hour and minute, then the period. */
  function Label(s: Slot): string {
    Pad2(s.hour) + ":" + Pad2(s.minute) + " " + (if s.period == AM then "AM" else "PM")
  }

  function Pad2(n: nat): string {
    if n < 10 then "0" + DecimalString(n) else DecimalString(n)
  }

  /** The hour of a slot on the 24-hour clock: afternoon hours but 12 PM
      move up by twelve, and 12 AM becomes hour 0. */
  function Hour24(s: Slot): (h: nat)
    ensures 1 <= s.hour <= 12 ==> h < 24 && (s.period == AM <==> h < 12)
  {
    match s.period
    case PM => if s.hour != 12 then s.hour + 12 else s.hour
    case AM => if s.hour == 12 then 0 else s.hour
  }

  /** The conversion loses nothing: two 12-hour readings with the same
      24-hour hour are the same reading. */
  lemma Hour24Injective(s: Slot, t: Slot)
    requires 1 <= s.hour <= 12 && 1 <= t.hour <= 12
    requires Hour24(s) == Hour24(t)
    ensures s.hour == t.hour && s.period == t.period
  {
  }

  /** Minutes since midnight. */
  function Minutes(s: Slot): nat {
    Hour24(s) * 60 + s.minute
  }

  /** The first slot, in list order, that starts strictly after `now`
      (minutes since midnight); None when every slot has begun. */
  function FirstLater(slots: seq<Slot>, now: int): (r: Option<Slot>)
    ensures r.Some? ==> r.value in slots && Minutes(r.value) > now
    ensures r.None? <==> forall k :: 0 <= k < |slots| ==> Minutes(slots[k]) <= now
    decreases |slots|
  {
    if slots == [] then None
    else if Minutes(slots[0]) > now then Some(slots[0])
    else
      var rest := FirstLater(slots[1..], now);
      assert forall k :: 1 <= k < |slots| ==> slots[k] == slots[1..][k - 1];
      rest
  }

  /** A list of slots in strictly increasing order of time. */
  predicate Ascending(slots: seq<Slot>) {
    forall i, j :: 0 <= i < j < |slots| ==> Minutes(slots[i]) < Minutes(slots[j])
  }

  /** In an ascending list the first later slot is the earliest later
      slot. */
  lemma {:induction false} FirstLaterEarliest(slots: seq<Slot>, now: int)
    requires Ascending(slots)
    ensures FirstLater(slots, now).Some? ==>
      forall k :: 0 <= k < |slots| && Minutes(slots[k]) > now ==> Minutes(FirstLater(slots, now).value) <= Minutes(slots[k])
    decreases |slots|
  {
    if slots != [] && Minutes(slots[0]) <= now {
      var rest := slots[1..];
      assert Ascending(rest) by {
        forall i, j | 0 <= i < j < |rest| ensures Minutes(rest[i]) < Minutes(rest[j]) {
          assert rest[i] == slots[i + 1] && rest[j] == slots[j + 1];
        }
      }
      FirstLaterEarliest(rest, now);
      forall k | 1 <= k < |slots| ensures slots[k] == rest[k - 1] { }
    }
  }

  /** The listed slots run from 09:00 to 18:00, one hour apart. */
  lemma SlotsAscending()
    ensures Ascending(TIME_SLOTS)
    ensures forall k :: 0 <= k < |TIME_SLOTS| ==> Minutes(TIME_SLOTS[k]) == 540 + 60 * k
  {
    forall k | 0 <= k < |TIME_SLOTS| ensures Minutes(TIME_SLOTS[k]) == 540 + 60 * k {
    }
  }

  /** The slot the form starts with: the earliest slot after the current
      time while one is left today (before 18:00), and 09:00 AM once
      18:00 has passed. */
  lemma DefaultSlot(now: int)
    ensures now < 18 * 60 ==>
      && FirstLater(TIME_SLOTS, now).Some?
      && forall k :: 0 <= k < |TIME_SLOTS| && Minutes(TIME_SLOTS[k]) > now ==>
           Minutes(FirstLater(TIME_SLOTS, now).value) <= Minutes(TIME_SLOTS[k])
    ensures now >= 18 * 60 ==> FirstLater(TIME_SLOTS, now) == None
  {
    SlotsAscending();
    FirstLaterEarliest(TIME_SLOTS, now);
    assert Minutes(TIME_SLOTS[9]) == 18 * 60;
  }

  /** The loop of getCurrentIndianTime: the slots are read in order, each
      converted to the 24-hour clock, and the first that starts after
      `currentMinutes` is returned. */
  method NextSlot(timeSlots: seq<Slot>, currentMinutes: int) returns (found: Option<Slot>)
    ensures found == FirstLater(timeSlots, currentMinutes)
  {
    var i := 0;
    while i < |timeSlots|
      invariant 0 <= i <= |timeSlots|
      invariant FirstLater(timeSlots, currentMinutes) == FirstLater(timeSlots[i..], currentMinutes)
    {
      var s := timeSlots[i];
      var slotHour24 := s.hour;
      if s.period == PM && s.hour != 12 {
        slotHour24 := slotHour24 + 12;
      } else if s.period == AM && s.hour == 12 {
        slotHour24 := 0;
      }
      var slotMinutesTotal := slotHour24 * 60 + s.minute;
      if slotMinutesTotal > currentMinutes {
        return Some(s);
      }
      assert timeSlots[i..][1..] == timeSlots[i + 1..];
      i := i + 1;
    }
    return None;
  }

  /** getCurrentIndianTime, given the hour and minute in India: the first
      listed slot that starts after now, or the first slot when none is
      left today. */
  method CurrentSlot(hours: int, minutes: int) returns (slot: Slot)
    ensures slot == FirstLater(TIME_SLOTS, hours * 60 + minutes).GetOr(TIME_SLOTS[0])
  {
    var currentMinutes := hours * 60 + minutes;
    var found := NextSlot(TIME_SLOTS, currentMinutes);
    slot := if found.Some? then found.value else TIME_SLOTS[0];
  }

  // ---------------------------------------------------------------------
  // The booking request

  const IMMEDIATE := "immediate"
  const SCHEDULED := "scheduled"
  const MISSING_SCHEDULE := "Please select both date and time for scheduled booking"
  const BOOKING_FAILED := "Failed to create booking"

  /** The object handed to `onBook`. */
  datatype BookingData = BookingData(providerPhone: string, service: string, bookingType: string,
                                     scheduledDate: Option<string>, scheduledTime: Option<string>,
                                     description: string)

  /** A scheduled booking that lacks its date or its time. */
  predicate Incomplete(bookingType: string, date: string, time: string) {
    bookingType == SCHEDULED && (date == "" || time == "")
  }

  /** handleBooking's request: refused (None) for an incomplete scheduled
      booking; otherwise the date and time travel only with a scheduled
      booking and are null for any other. */
  function BookingRequest(providerPhone: string, service: string, bookingType: string,
                          date: string, time: string, description: string): (r: Option<BookingData>)
    ensures r.None? <==> Incomplete(bookingType, date, time)
    ensures r.Some? ==>
      && r.value.providerPhone == providerPhone && r.value.service == service
      && r.value.bookingType == bookingType && r.value.description == description
      && (r.value.scheduledDate.Some? <==> bookingType == SCHEDULED)
      && (r.value.scheduledTime.Some? <==> bookingType == SCHEDULED)
      && (bookingType == SCHEDULED ==> r.value.scheduledDate == Some(date) && r.value.scheduledTime == Some(time))
  {
    if Incomplete(bookingType, date, time) then None
    else
      var scheduled := bookingType == SCHEDULED;
      Some(BookingData(providerPhone, service, bookingType,
                       if scheduled then Some(date) else None,
                       if scheduled then Some(time) else None,
                       description))
  }

  /** Whether the Confirm button is disabled. */
  function ConfirmDisabled(loading: bool, bookingType: string, date: string, time: string): bool {
    loading || Incomplete(bookingType, date, time)
  }

  /** Outside a request in flight, Confirm is enabled exactly when
      handleBooking would send a request. */
  lemma ConfirmSendsRequest(providerPhone: string, service: string, bookingType: string,
                            date: string, time: string, description: string)
    ensures !ConfirmDisabled(false, bookingType, date, time) <==>
      BookingRequest(providerPhone, service, bookingType, date, time, description).Some?
  {
  }

  class BookingForm {
    var bookingType: string
    var selectedDate: string
    var selectedTime: string
    var description: string
    var loading: bool

    /** The state the dialog opens with, before its mount effect. */
    constructor ()
      ensures bookingType == IMMEDIATE && selectedDate == "" && selectedTime == "" && description == "" && !loading
    {
      bookingType := IMMEDIATE;
      selectedDate := "";
      selectedTime := "";
      description := "";
      loading := false;
    }

    /** The mount effect: today's date and the current default slot. */
    method Mount(today: string, hours: int, minutes: int)
      modifies this`selectedDate, this`selectedTime
      ensures selectedDate == today
      ensures selectedTime == Label(FirstLater(TIME_SLOTS, hours * 60 + minutes).GetOr(TIME_SLOTS[0]))
    {
      selectedDate := today;
      var slot := CurrentSlot(hours, minutes);
      selectedTime := Label(slot);
    }

    /** handleBooking: an incomplete scheduled booking is refused with an
        alert and `onBook` is not called; otherwise the request is sent, and
        a failure is reported in an alert. Returns the request `onBook` was
        called with and the alert shown, if any. */
    method HandleBooking(providerPhone: string, service: string, failure: Option<string>)
      returns (sent: Option<BookingData>, alert: Option<string>)
      modifies this`loading
      ensures sent == BookingRequest(providerPhone, service, bookingType, selectedDate, selectedTime, description)
      ensures sent.None? ==> alert == Some(MISSING_SCHEDULE)
      ensures sent.Some? && failure.None? ==> alert == None
      ensures sent.Some? && failure.Some? ==> alert == Some(OrElse(failure, BOOKING_FAILED))
      ensures sent.None? ==> loading == old(loading)
      ensures sent.Some? ==> !loading
    {
      if bookingType == SCHEDULED && (selectedDate == "" || selectedTime == "") {
        return None, Some(MISSING_SCHEDULE);
      }
      loading := true;
      sent := BookingRequest(providerPhone, service, bookingType, selectedDate, selectedTime, description);
      alert := None;
      if failure.Some? {
        alert := Some(OrElse(failure, BOOKING_FAILED));
      }
      loading := false;
    }
  }

  // ---------------------------------------------------------------------
  // The WhatsApp link

  /** The number the WhatsApp link opens: the digits of the provider's
      phone, with "91" in front unless they already start with it. */
  function WaNumber(phone: string): (n: string)
    ensures AllDigits(n) && StartsWith(n, "91")
    ensures StartsWith(KeepDigits(phone), "91") <==> n == KeepDigits(phone)
    ensures !StartsWith(KeepDigits(phone), "91") ==> n == "91" + KeepDigits(phone)
  {
    var digits := KeepDigits(phone);
    StartsWithConcat("91", digits);
    assert AllDigits("91" + digits) by {
      forall i | 0 <= i < |"91" + digits| ensures IsDigit(("91" + digits)[i]) {
        if i >= 2 { assert ("91" + digits)[i] == digits[i - 2]; }
      }
    }
    if StartsWith(digits, "91") then digits else "91" + digits
  }

  /** Formatting the number again leaves it as it is. */
  lemma WaNumberIdempotent(phone: string)
    ensures WaNumber(WaNumber(phone)) == WaNumber(phone)
  {
    KeepDigitsOfDigits(WaNumber(phone));
  }

  /** For a number of digits, the link opens the same number the backend
      sends its WhatsApp notifications to. */
  lemma WaNumberMatchesBackend(phone: string)
    requires AllDigits(phone)
    ensures WhatsApp.WhatsAppFormat(phone) == "whatsapp:+" + WaNumber(phone)
  {
    KeepDigitsOfDigits(phone);
    WhatsApp.DigitsAreClean(phone);
  }
}

=== FILE: providers.dfy ===
/** The provider-profile endpoints (backend/routes/providers.py): create,
    partial update, read (own and by id) and delete of the caller's row in
    `providers`, keyed by user id. */
module ProviderProfiles {

  import opened Common
  import opened Models
  import AuthSchemas
  import AuthService
  import Db

  const PROVIDER: string := "provider"

  /** The body of a create or update request. */
  datatype ProfileBody = ProfileBody(bio: Option<string>, locationName: Option<string>)

  predicate AtMost(x: Option<string>, n: nat) {
    x.None? || |x.value| <= n
  }

  /** The field limits checked before the handler runs. */
  function ValidateBody(b: ProfileBody): (r: Result<ProfileBody>)
    ensures r.Ok? <==> AtMost(b.bio, 1000) && AtMost(b.locationName, 255)
    ensures r.Ok? ==> r.value == b
    ensures r.Err? ==> r.error.status == UNPROCESSABLE
  {
    if !AtMost(b.bio, 1000) then Err(Error(UNPROCESSABLE, "bio"))
    else if !AtMost(b.locationName, 255) then Err(Error(UNPROCESSABLE, "location_name"))
    else Ok(b)
  }

  type Profiles = map<nat, ProviderProfile>

  /** The stored profile with the supplied bio and location written over it. */
  function Merge(p: ProviderProfile, b: ProfileBody): (q: ProviderProfile)
    ensures q.bio == (if b.bio.Some? then b.bio else p.bio)
    ensures q.locationName == (if b.locationName.Some? then b.locationName else p.locationName)
    ensures q.(bio := p.bio, locationName := p.locationName) == p
  {
    p.(bio := if b.bio.Some? then b.bio else p.bio,
       locationName := if b.locationName.Some? then b.locationName else p.locationName)
  }

  /** create_provider_profile: a new profile has no rating, no completed
      jobs and is not verified. */
  function Create(profiles: Profiles, actor: User, b: ProfileBody): (s: Step<ProviderProfile, Profiles>)
    ensures s.result.Ok? <==> actor.role == PROVIDER && actor.id !in profiles
    ensures s.result.Err? ==> s.state == profiles
    ensures s.result.Err? ==> s.result.error.status == (if actor.role != PROVIDER then FORBIDDEN else BAD_REQUEST)
    ensures s.result.Ok? ==>
      && s.result.value == NewProviderProfile(actor.id, b.bio, b.locationName)
      && s.state == profiles[actor.id := s.result.value]
  {
    if actor.role != PROVIDER then
      Step(Err(Error(FORBIDDEN, "Only users with provider role can create a provider profile")), profiles)
    else if actor.id in profiles then
      Step(Err(Error(BAD_REQUEST, "Provider profile already exists. Use PUT /providers/profile to update.")), profiles)
    else
      var p := NewProviderProfile(actor.id, b.bio, b.locationName);
      Step(Ok(p), profiles[actor.id := p])
  }

  /** update_provider_profile */
  function Update(profiles: Profiles, actor: User, b: ProfileBody): (s: Step<ProviderProfile, Profiles>)
    ensures s.result.Ok? <==> actor.role == PROVIDER && actor.id in profiles
    ensures s.result.Err? ==> s.state == profiles
    ensures s.result.Err? ==> s.result.error.status == (if actor.role != PROVIDER then FORBIDDEN else NOT_FOUND)
    ensures s.result.Ok? ==>
      && s.result.value == Merge(profiles[actor.id], b)
      && s.state == profiles[actor.id := s.result.value]
  {
    if actor.role != PROVIDER then
      Step(Err(Error(FORBIDDEN, "Only users with provider role can update a provider profile")), profiles)
    else if actor.id !in profiles then
      Step(Err(Error(NOT_FOUND, "Provider profile not found. Use POST /providers/profile to create one.")), profiles)
    else
      var p := Merge(profiles[actor.id], b);
      Step(Ok(p), profiles[actor.id := p])
  }

  /** get_my_provider_profile */
  function Get(profiles: Profiles, actor: User): (r: Result<ProviderProfile>)
    ensures r.Ok? <==> actor.role == PROVIDER && actor.id in profiles
    ensures r.Ok? ==> r.value == profiles[actor.id]
    ensures r.Err? ==> r.error.status == (if actor.role != PROVIDER then FORBIDDEN else NOT_FOUND)
  {
    if actor.role != PROVIDER then Err(Error(FORBIDDEN, "Only users with provider role can access provider profiles"))
    else if actor.id !in profiles then Err(Error(NOT_FOUND, "Provider profile not found"))
    else Ok(profiles[actor.id])
  }

  /** get_provider_profile_by_id: public, no role check. */
  function GetById(profiles: Profiles, id: int): (r: Result<ProviderProfile>)
    ensures r.Ok? <==> id >= 0 && id as nat in profiles
    ensures r.Ok? ==> r.value == profiles[id as nat]
    ensures r.Err? ==> r.error == Error(NOT_FOUND, "Provider profile not found")
  {
    if id < 0 || id as nat !in profiles then Err(Error(NOT_FOUND, "Provider profile not found"))
    else Ok(profiles[id as nat])
  }

  /** delete_provider_profile */
  function Delete(profiles: Profiles, actor: User): (s: Step<(), Profiles>)
    ensures s.result.Ok? <==> actor.role == PROVIDER && actor.id in profiles
    ensures s.result.Err? ==> s.state == profiles
    ensures s.result.Err? ==> s.result.error.status == (if actor.role != PROVIDER then FORBIDDEN else NOT_FOUND)
    ensures s.result.Ok? ==> s.state == profiles - {actor.id}
  {
    if actor.role != PROVIDER then
      Step(Err(Error(FORBIDDEN, "Only users with provider role can delete a provider profile")), profiles)
    else if actor.id !in profiles then
      Step(Err(Error(NOT_FOUND, "Provider profile not found")), profiles)
    else
      Step(Ok(()), profiles - {actor.id})
  }

  // ---------------------------------------------------------------------
  // How the endpoints relate

  /** A created profile reads back by either endpoint, with the defaults. */
  lemma CreateThenGet(profiles: Profiles, actor: User, b: ProfileBody)
    requires Create(profiles, actor, b).result.Ok?
    ensures var s := Create(profiles, actor, b).state;
      && Get(s, actor) == Ok(ProviderProfile(actor.id, b.bio, b.locationName, None, 0.0, 0, false))
      && GetById(s, actor.id) == Get(s, actor)
      && Create(s, actor, b).result.Err?
  {
  }

  /** An update never changes the rating, the completed-job count, the
      verification flag or the years of experience. */
  lemma UpdateKeepsStanding(profiles: Profiles, actor: User, b: ProfileBody)
    requires Update(profiles, actor, b).result.Ok?
    ensures var p := profiles[actor.id];
      var q := Update(profiles, actor, b).state[actor.id];
      && q.averageRating == p.averageRating && q.jobsCompleted == p.jobsCompleted
      && q.isVerified == p.isVerified && q.yearsOfExperience == p.yearsOfExperience
      && q.userId == p.userId
  {
    var p := profiles[actor.id];
    assert Merge(p, b).(bio := p.bio, locationName := p.locationName) == p;
  }

  /** An update whose body supplies nothing leaves the table as it was;
      repeating an update changes nothing more. */
  lemma UpdateIdempotent(profiles: Profiles, actor: User, b: ProfileBody)
    requires Update(profiles, actor, b).result.Ok?
    ensures b == ProfileBody(None, None) ==> Update(profiles, actor, b).state == profiles
    ensures var s := Update(profiles, actor, b).state; Update(s, actor, b).state == s
  {
    var p := profiles[actor.id];
    if b == ProfileBody(None, None) {
      assert Merge(p, b) == p;
      assert profiles[actor.id := p] == profiles;
    }
    var q := Merge(p, b);
    assert Merge(q, b) == q;
  }

  /** After a delete the profile is gone, and it can be created again. */
  lemma DeleteThenGet(profiles: Profiles, actor: User, b: ProfileBody)
    requires Delete(profiles, actor).result.Ok?
    ensures var s := Delete(profiles, actor).state;
      && Get(s, actor) == Err(Error(NOT_FOUND, "Provider profile not found"))
      && Create(s, actor, b).result.Ok?
  {
  }

  /** A provider who signed up already has the profile sign-up wrote, so
      creating one is refused with 400. */
  lemma SignupMakesProfile(db: AuthService.Tables, data: AuthSchemas.UserSignup, hash: string, token: string, b: ProfileBody)
    requires data.userType == PROVIDER
    requires AuthService.Register(db, data, hash, token).result.Ok?
    ensures var s := AuthService.Register(db, data, hash, token).state;
      var user := s.users[|s.users| - 1];
      && user.role == PROVIDER
      && GetById(s.providers, user.id).Ok?
      && Create(s.providers, user, b).result == Err(Error(BAD_REQUEST,
           "Provider profile already exists. Use PUT /providers/profile to update."))
  {
  }

  // ---------------------------------------------------------------------
  // The handlers on the database

  method CreateProfile(db: Db.Database, actor: User, b: ProfileBody) returns (r: Result<ProviderProfile>)
    modifies db`providerProfiles
    ensures Step(r, db.providerProfiles) == Create(old(db.providerProfiles), actor, b)
    ensures old(db.Valid()) ==> db.Valid()
  {
    if actor.role != PROVIDER {
      return Err(Error(FORBIDDEN, "Only users with provider role can create a provider profile"));
    }
    if actor.id in db.providerProfiles {
      return Err(Error(BAD_REQUEST, "Provider profile already exists. Use PUT /providers/profile to update."));
    }
    var p := ProviderProfile(actor.id, b.bio, b.locationName, None, 0.0, 0, false);
    db.providerProfiles := db.providerProfiles[actor.id := p];
    r := Ok(p);
  }

  /** Each supplied field is written in turn; the others keep their values. */
  method UpdateProfile(db: Db.Database, actor: User, b: ProfileBody) returns (r: Result<ProviderProfile>)
    modifies db`providerProfiles
    ensures Step(r, db.providerProfiles) == Update(old(db.providerProfiles), actor, b)
    ensures old(db.Valid()) ==> db.Valid()
  {
    if actor.role != PROVIDER {
      return Err(Error(FORBIDDEN, "Only users with provider role can update a provider profile"));
    }
    if actor.id !in db.providerProfiles {
      return Err(Error(NOT_FOUND, "Provider profile not found. Use POST /providers/profile to create one."));
    }
    var p := db.providerProfiles[actor.id];
    if b.bio.Some? {
      p := p.(bio := b.bio);
    }
    if b.locationName.Some? {
      p := p.(locationName := b.locationName);
    }
    db.providerProfiles := db.providerProfiles[actor.id := p];
    r := Ok(p);
  }

  method DeleteProfile(db: Db.Database, actor: User) returns (r: Result<()>)
    modifies db`providerProfiles
    ensures Step(r, db.providerProfiles) == Delete(old(db.providerProfiles), actor)
    ensures old(db.Valid()) ==> db.Valid()
  {
    if actor.role != PROVIDER {
      return Err(Error(FORBIDDEN, "Only users with provider role can delete a provider profile"));
    }
    if actor.id !in db.providerProfiles {
      return Err(Error(NOT_FOUND, "Provider profile not found"));
    }
    db.providerProfiles := db.providerProfiles - {actor.id};
    r := Ok(());
  }
}

=== FILE: review_modal.dfy ===
/** The review dialog a customer fills in after a completed job
    (frontend/src/components/ReviewModal.jsx): a one-to-five star rating,
    an optional comment and the six-digit completion code. The component
    state is the fields of a class; what the `onSubmit` callback does is a
    parameter (None when it resolves, the message of the error it throws
    otherwise), and `onClose` is recorded as a flag. */
module ReviewModal {

  import opened Common
  import opened Strings
  import CodeVerificationModal

  const CODE_LENGTH := 6
  const STARS := 5
  const NO_RATING := "Please select a rating"
  const NO_CODE := "Please enter the 6-digit completion code"
  const SUBMIT_FAILED := "Failed to submit review"

  /** The object handed to `onSubmit`. */
  datatype ReviewPayload = ReviewPayload(bookingId: int, completionCode: string, rating: int, comment: string)

  /** The checks handleSubmit makes before submitting, in order: a rating
      must have been chosen, and, when a code is required, it must have six
      characters. None when the form may be submitted. */
  function Check(rating: int, code: string, requiresCode: bool): (e: Option<string>)
    ensures e.None? <==> rating != 0 && (requiresCode ==> |code| == CODE_LENGTH)
    ensures rating == 0 ==> e == Some(NO_RATING)
    ensures rating != 0 && requiresCode && |code| != CODE_LENGTH ==> e == Some(NO_CODE)
  {
    if rating == 0 then Some(NO_RATING)
    else if requiresCode && |code| != CODE_LENGTH then Some(NO_CODE)
    else None
  }

  /** The payload handed to `onSubmit`. */
  function Payload(bookingId: int, code: string, rating: int, comment: string): (p: ReviewPayload)
    ensures p.bookingId == bookingId && p.completionCode == code && p.rating == rating
  {
    ReviewPayload(bookingId, code, rating, Trim(comment))
  }

  /** The comment goes out trimmed: no whitespace is left around it, and
      a comment of whitespace only goes out empty. */
  lemma PayloadTrimmed(bookingId: int, code: string, rating: int, comment: string)
    ensures var p := Payload(bookingId, code, rating, comment);
      && Trim(p.comment) == p.comment
      && (AllSpace(comment, JavaScript) ==> p.comment == "")
  {
    StripIdempotent(comment, JavaScript);
    if AllSpace(comment, JavaScript) {
      StripOfAllSpace(comment, JavaScript);
    }
  }

  /** What handleSubmit hands to `onSubmit`, if anything. */
  function Submitted(bookingId: int, code: string, rating: int, comment: string, requiresCode: bool): (s: Option<ReviewPayload>)
    ensures s.None? <==> Check(rating, code, requiresCode).Some?
  {
    if Check(rating, code, requiresCode).Some? then None else Some(Payload(bookingId, code, rating, comment))
  }

  /** The level the stars show: the hovered star while the cursor is on
      one (`hoveredRating || rating`), the chosen rating otherwise. */
  function Shown(hovered: int, rating: int): (level: int)
    ensures hovered != 0 ==> level == hovered
    ensures hovered == 0 ==> level == rating
  {
    if hovered != 0 then hovered else rating
  }

  /** Which of the five stars are highlighted, star 1 first. */
  function Lit(hovered: int, rating: int): (lit: seq<bool>)
    ensures |lit| == STARS
    ensures forall i :: 0 <= i < STARS ==> (lit[i] <==> i + 1 <= Shown(hovered, rating))
  {
    seq(STARS, i requires 0 <= i < STARS => i + 1 <= Shown(hovered, rating))
  }

  function Count(lit: seq<bool>): nat
    decreases |lit|
  {
    if lit == [] then 0 else (if lit[0] then 1 else 0) + Count(lit[1..])
  }

  /** A row in which the stars up to some point are lit and the rest are
      not. */
  predicate Prefix(lit: seq<bool>, k: int) {
    forall i :: 0 <= i < |lit| ==> (lit[i] <==> i < k)
  }

  lemma {:induction false} PrefixCount(lit: seq<bool>, k: int)
    requires Prefix(lit, k) && 0 <= k <= |lit|
    ensures Count(lit) == k
    decreases |lit|
  {
    if lit != [] {
      if k == 0 {
        PrefixCount(lit[1..], 0);
      } else {
        PrefixCount(lit[1..], k - 1);
      }
    }
  }

  /** The highlighted stars are exactly the first `level` of them: a level
      between 0 and 5 lights that many stars, and they are the lowest ones. */
  lemma LitStars(hovered: int, rating: int)
    requires 0 <= Shown(hovered, rating) <= STARS
    ensures Prefix(Lit(hovered, rating), Shown(hovered, rating))
    ensures Count(Lit(hovered, rating)) == Shown(hovered, rating)
  {
    PrefixCount(Lit(hovered, rating), Shown(hovered, rating));
  }

  class ReviewForm {
    const bookingId: int
    const requiresCode: bool
    var rating: int
    var hovered: int
    var comment: string
    var completionCode: string
    var error: string
    var loading: bool
    var closeRequested: bool

    /** A rating and a hover level between 0 and 5, a code of at most six
        digits, and no submission in flight between two handlers. */
    ghost predicate Valid()
      reads this
    {
      && 0 <= rating <= STARS && 0 <= hovered <= STARS
      && AllDigits(completionCode) && |completionCode| <= CODE_LENGTH
      && !loading
    }

    /** The state the dialog opens with. */
    constructor (bookingId: int, requiresCode: bool)
      ensures Valid()
      ensures this.bookingId == bookingId && this.requiresCode == requiresCode
      ensures rating == 0 && hovered == 0 && comment == "" && completionCode == "" && error == ""
      ensures !loading && !closeRequested
    {
      this.bookingId := bookingId;
      this.requiresCode := requiresCode;
      rating := 0;
      hovered := 0;
      comment := "";
      completionCode := "";
      error := "";
      loading := false;
      closeRequested := false;
    }

    /** A click on star `star`. */
    method ChooseRating(star: int)
      requires Valid() && 1 <= star <= STARS
      modifies this`rating
      ensures Valid() && rating == star
    {
      rating := star;
    }

    /** The cursor enters star `star` (1 to 5) or leaves the row (0). */
    method HoverStar(star: int)
      requires Valid() && 0 <= star <= STARS
      modifies this`hovered
      ensures Valid() && hovered == star
    {
      hovered := star;
    }

    /** The comment textarea's change handler: the text replaces the
        comment as typed. */
    method SetComment(text: string)
      requires Valid()
      modifies this`comment
      ensures Valid() && comment == text
    {
      comment := text;
    }

    /** handleCodeChange: digits only, at most six of them. */
    method HandleCodeChange(raw: string)
      requires Valid()
      modifies this`completionCode, this`error
      ensures Valid()
      ensures completionCode == CodeVerificationModal.AcceptDigits(old(completionCode), raw, CODE_LENGTH)
      ensures error == if |KeepDigits(raw)| <= CODE_LENGTH then "" else old(error)
    {
      var value := KeepDigits(raw);
      if |value| <= CODE_LENGTH {
        completionCode := value;
        error := "";
      }
    }

    /** handleSubmit: a form that fails a check shows that check's message
        and submits nothing; otherwise the payload is submitted, and on
        success the rating, comment and code are reset and the dialog
        closes, while a failure keeps the form and shows the error. Returns
        the payload `onSubmit` was called with. */
    method HandleSubmit(failure: Option<string>) returns (sent: Option<ReviewPayload>)
      requires Valid()
      modifies this`rating, this`comment, this`completionCode, this`error, this`loading, this`closeRequested
      ensures Valid()
      ensures sent.None? <==> Check(old(rating), old(completionCode), requiresCode).Some?
      ensures sent.None? ==>
        && error == Check(old(rating), old(completionCode), requiresCode).value
        && rating == old(rating) && comment == old(comment) && completionCode == old(completionCode)
        && closeRequested == old(closeRequested)
      ensures sent == Submitted(bookingId, old(completionCode), old(rating), old(comment), requiresCode)
      ensures sent.Some? && failure.None? ==>
        rating == 0 && comment == "" && completionCode == "" && error == "" && closeRequested
      ensures sent.Some? && failure.Some? ==>
        && rating == old(rating) && comment == old(comment) && completionCode == old(completionCode)
        && error == OrElse(failure, SUBMIT_FAILED) && closeRequested == old(closeRequested)
    {
      error := "";
      var refusal := Check(rating, completionCode, requiresCode);
      sent := Submitted(bookingId, completionCode, rating, comment, requiresCode);
      if refusal.Some? {
        error := refusal.value;
        return;
      }
      loading := true;
      if failure.None? {
        rating := 0;
        comment := "";
        completionCode := "";
        closeRequested := true;
      } else {
        error := OrElse(failure, SUBMIT_FAILED);
      }
      loading := false;
    }
  }
}

=== FILE: strings.dfy ===
/** The string operations the backend (Python) and the frontend (JavaScript)
    apply to phone numbers, codes, bios and descriptions. Strings are
    sequences of characters; only the ASCII behaviour of case mapping and
    whitespace is modelled. */
module Strings {

  import opened Common

  predicate IsDigit(c: char) { '0' <= c <= '9' }

  predicate AllDigits(s: string) {
    forall i :: 0 <= i < |s| ==> IsDigit(s[i])
  }

  predicate StartsWith(s: string, prefix: string) {
    |prefix| <= |s| && s[..|prefix|] == prefix
  }

  lemma StartsWithConcat(p: string, q: string)
    ensures StartsWith(p + q, p)
  {
    assert (p + q)[..|p|] == p;
  }

  // ---------------------------------------------------------------------
  // Character removal: Python `s.replace(c, "")` and JavaScript
  // `s.replace(/\D/g, '')`.

  /** `s.replace(c, "")` for a one-character pattern. */
  function RemoveChar(s: string, c: char): (r: string)
    ensures |r| <= |s|
    ensures forall i :: 0 <= i < |r| ==> r[i] != c
    ensures forall i :: 0 <= i < |r| ==> r[i] in s
  {
    if s == [] then []
    else if s[0] == c then RemoveChar(s[1..], c)
    else [s[0]] + RemoveChar(s[1..], c)
  }

  lemma {:induction false} RemoveCharAbsent(s: string, c: char)
    requires forall i :: 0 <= i < |s| ==> s[i] != c
    ensures RemoveChar(s, c) == s
  {
    if s != [] {
      RemoveCharAbsent(s[1..], c);
      assert [s[0]] + s[1..] == s;
    }
  }

  lemma {:induction false} RemoveCharConcat(a: string, b: string, c: char)
    ensures RemoveChar(a + b, c) == RemoveChar(a, c) + RemoveChar(b, c)
  {
    if a == [] {
      assert a + b == b;
    } else {
      assert (a + b)[0] == a[0];
      assert (a + b)[1..] == a[1..] + b;
      RemoveCharConcat(a[1..], b, c);
    }
  }

  /** `s.replace(/\D/g, '')`: keeps the decimal digits of `s`, in order. */
  function KeepDigits(s: string): (r: string)
    ensures |r| <= |s|
    ensures AllDigits(r)
    ensures forall i :: 0 <= i < |r| ==> r[i] in s
    ensures |s| == 1 ==> r == (if IsDigit(s[0]) then s else [])
  {
    if s == [] then []
    else if IsDigit(s[0]) then [s[0]] + KeepDigits(s[1..])
    else KeepDigits(s[1..])
  }

  /** The filter works character by character: the digits of a joined
      text are the digits of its first part followed by those of the
      second. With the one-character case above this fixes the result:
      every digit of the input is kept, in order, and nothing else. */
  lemma {:induction false} KeepDigitsConcat(a: string, b: string)
    ensures KeepDigits(a + b) == KeepDigits(a) + KeepDigits(b)
  {
    if a == [] {
      assert a + b == b;
    } else {
      assert (a + b)[0] == a[0];
      assert (a + b)[1..] == a[1..] + b;
      KeepDigitsConcat(a[1..], b);
    }
  }

  lemma {:induction false} KeepDigitsOfDigits(s: string)
    requires AllDigits(s)
    ensures KeepDigits(s) == s
  {
    if s != [] {
      KeepDigitsOfDigits(s[1..]);
      assert [s[0]] + s[1..] == s;
    }
  }

  /** Sanitising twice is the same as sanitising once. */
  lemma KeepDigitsIdempotent(s: string)
    ensures KeepDigits(KeepDigits(s)) == KeepDigits(s)
  {
    KeepDigitsOfDigits(KeepDigits(s));
  }

  // ---------------------------------------------------------------------
  // Whitespace stripping: Python `str.strip()` and JavaScript `trim()`.

  /** Which language's notion of whitespace a strip uses. */
  datatype Runtime = Python | JavaScript

  /** The ASCII whitespace of each language: both strip space, tab, line
      feed, vertical tab, form feed and carriage return; Python's
      `str.isspace()` also holds for the separators 0x1C-0x1F, which
      JavaScript's `trim()` keeps. */
  predicate IsSpace(c: char, rt: Runtime) {
    || c == ' ' || c == '\t' || c == '\n' || c == '\r' || c == 11 as char || c == 12 as char
    || (rt == Python && 28 as char <= c <= 31 as char)
  }

  predicate AllSpace(s: string, rt: Runtime) {
    forall i :: 0 <= i < |s| ==> IsSpace(s[i], rt)
  }

  function StripLeft(s: string, rt: Runtime): (r: string)
    ensures |r| <= |s| && r == s[|s| - |r|..]
    ensures r == [] || !IsSpace(r[0], rt)
    ensures forall i :: 0 <= i < |s| - |r| ==> IsSpace(s[i], rt)
  {
    if s != [] && IsSpace(s[0], rt) then StripLeft(s[1..], rt) else s
  }

  function StripRight(s: string, rt: Runtime): (r: string)
    ensures |r| <= |s| && r == s[..|r|]
    ensures r == [] || !IsSpace(r[|r| - 1], rt)
    ensures forall i :: |r| <= i < |s| ==> IsSpace(s[i], rt)
  {
    if s != [] && IsSpace(s[|s| - 1], rt) then StripRight(s[..|s| - 1], rt) else s
  }

  /** The slice of `s` between its leading and trailing whitespace. */
  function StripWith(s: string, rt: Runtime): string {
    StripRight(StripLeft(s, rt), rt)
  }

  /** Python's `s.strip()`. */
  function Strip(s: string): string {
    StripWith(s, Python)
  }

  /** JavaScript's `s.trim()`. */
  function Trim(s: string): string {
    StripWith(s, JavaScript)
  }

  lemma {:induction false} StripLeftConcat(a: string, b: string, rt: Runtime)
    ensures AllSpace(a, rt) ==> StripLeft(a + b, rt) == StripLeft(b, rt)
    ensures !AllSpace(a, rt) ==> StripLeft(a + b, rt) == StripLeft(a, rt) + b
  {
    if a == [] {
      assert a + b == b;
    } else {
      assert (a + b)[0] == a[0];
      assert (a + b)[1..] == a[1..] + b;
      AllSpaceCons(a, rt);
      if IsSpace(a[0], rt) {
        StripLeftConcat(a[1..], b, rt);
        assert StripLeft(a + b, rt) == StripLeft(a[1..] + b, rt);
        assert StripLeft(a, rt) == StripLeft(a[1..], rt);
      } else {
        assert StripLeft(a + b, rt) == a + b;
        assert StripLeft(a, rt) == a;
      }
    }
  }

  lemma AllSpaceCons(a: string, rt: Runtime)
    requires a != []
    ensures AllSpace(a, rt) <==> IsSpace(a[0], rt) && AllSpace(a[1..], rt)
  {
    if IsSpace(a[0], rt) && AllSpace(a[1..], rt) {
      forall i | 0 <= i < |a| ensures IsSpace(a[i], rt) {
        if i > 0 { assert a[i] == a[1..][i - 1]; }
      }
    }
  }

  lemma {:induction false} StripRightConcat(a: string, b: string, rt: Runtime)
    ensures AllSpace(b, rt) ==> StripRight(a + b, rt) == StripRight(a, rt)
    ensures !AllSpace(b, rt) ==> StripRight(a + b, rt) == a + StripRight(b, rt)
  {
    if b == [] {
      assert a + b == a;
    } else {
      var n := |b| - 1;
      assert (a + b)[|a + b| - 1] == b[n];
      assert (a + b)[..|a + b| - 1] == a + b[..n];
      AllSpaceSnoc(b, rt);
      if IsSpace(b[n], rt) {
        StripRightConcat(a, b[..n], rt);
        assert StripRight(a + b, rt) == StripRight(a + b[..n], rt);
        assert StripRight(b, rt) == StripRight(b[..n], rt);
      } else {
        assert StripRight(a + b, rt) == a + b;
        assert StripRight(b, rt) == b;
      }
    }
  }

  lemma AllSpaceSnoc(b: string, rt: Runtime)
    requires b != []
    ensures AllSpace(b, rt) <==> IsSpace(b[|b| - 1], rt) && AllSpace(b[..|b| - 1], rt)
  {
    var n := |b| - 1;
    if IsSpace(b[n], rt) && AllSpace(b[..n], rt) {
      forall i | 0 <= i < |b| ensures IsSpace(b[i], rt) {
        if i < n { assert b[i] == b[..n][i]; }
      }
    }
  }

  lemma StripOfAllSpace(s: string, rt: Runtime)
    requires AllSpace(s, rt)
    ensures StripWith(s, rt) == []
  {
    StripLeftConcat(s, [], rt);
    assert s + [] == s;
  }

  /** Surrounding a text with single spaces does not change what `strip` returns. */
  lemma StripPadded(s: string, rt: Runtime)
    ensures StripWith(" " + s + " ", rt) == StripWith(s, rt)
  {
    var sp: string := " ";
    assert AllSpace(sp, rt);
    assert sp + s + sp == sp + (s + sp);
    StripLeftConcat(sp, s + sp, rt);
    assert StripLeft(sp + s + sp, rt) == StripLeft(s + sp, rt);
    StripLeftConcat(s, sp, rt);
    if AllSpace(s, rt) {
      StripOfAllSpace(s, rt);
      AllSpaceConcat(s, sp, rt);
      StripOfAllSpace(s + sp, rt);
    } else {
      StripRightConcat(StripLeft(s, rt), sp, rt);
    }
  }

  /** The information separators 0x1C-0x1F are whitespace to Python's
      `strip()` but not to JavaScript's `trim()`: Python drops one in front
      of a text, JavaScript keeps it. */
  lemma SeparatorsOnlyPythonStrips(c: char, s: string)
    requires 28 as char <= c <= 31 as char
    ensures Strip([c] + s) == Strip(s)
    ensures Trim([c] + s) != [] && Trim([c] + s)[0] == c
  {
    var sep: string := [c];
    assert IsSpace(c, Python) && !IsSpace(c, JavaScript);
    assert forall i :: 0 <= i < |sep| ==> sep[i] == c;
    PythonDropsLeading(sep, s);
    JavaScriptKeepsLeading(sep, s);
  }

  lemma PythonDropsLeading(sep: string, s: string)
    requires AllSpace(sep, Python)
    ensures StripWith(sep + s, Python) == StripWith(s, Python)
  {
    StripLeftConcat(sep, s, Python);
  }

  lemma JavaScriptKeepsLeading(sep: string, s: string)
    requires |sep| == 1 && !IsSpace(sep[0], JavaScript)
    ensures var t := StripWith(sep + s, JavaScript); t != [] && t[0] == sep[0]
  {
    assert !AllSpace(sep, JavaScript);
    StripLeftConcat(sep, s, JavaScript);
    StripRightConcat(sep, s, JavaScript);
  }

  lemma AllSpaceConcat(a: string, b: string, rt: Runtime)
    requires AllSpace(a, rt) && AllSpace(b, rt)
    ensures AllSpace(a + b, rt)
  {
    forall i | 0 <= i < |a + b| ensures IsSpace((a + b)[i], rt) {
      if i < |a| { assert (a + b)[i] == a[i]; } else { assert (a + b)[i] == b[i - |a|]; }
    }
  }

  lemma StripLeadingSpace(s: string, rt: Runtime)
    ensures StripWith(" " + s, rt) == StripWith(s, rt)
  {
    var sp: string := " ";
    assert AllSpace(sp, rt);
    StripLeftConcat(sp, s, rt);
  }

  /** `strip` removes exactly the whitespace around a text that begins
      and ends with other characters. */
  lemma StripFramed(a: string, x: string, b: string, rt: Runtime)
    requires AllSpace(a, rt) && AllSpace(b, rt)
    requires x != [] && !IsSpace(x[0], rt) && !IsSpace(x[|x| - 1], rt)
    ensures StripWith(a + x + b, rt) == x
  {
    var y := x + b;
    assert a + x + b == a + y;
    StripLeftConcat(a, y, rt);
    assert StripLeft(a + x + b, rt) == StripLeft(y, rt);
    StripTrailingSpace(x, b, rt);
    assert StripWith(y, rt) == x;
  }

  /** Stripping twice is the same as stripping once. */
  lemma StripIdempotent(s: string, rt: Runtime)
    ensures StripWith(StripWith(s, rt), rt) == StripWith(s, rt)
  {
    var r := StripWith(s, rt);
    var l := StripLeft(s, rt);
    if r != [] {
      assert r == l[..|r|] && r[0] == l[0];
      var empty: string := [];
      assert r + empty == r;
      StripTrailingSpace(r, empty, rt);
    }
  }

  /** Stripping only cuts characters off, so it adds no occurrence. */
  lemma StripNotContains(s: string, p: string, rt: Runtime)
    requires !Contains(s, p)
    ensures !Contains(StripWith(s, rt), p)
  {
    var l := StripLeft(s, rt);
    var i := |s| - |l|;
    assert l == s[i..|s|];
    NotContainsSlice(s, i, |s|, p);
    assert !Contains(l, p);
    var r := StripRight(l, rt);
    assert r == l[0..|r|];
    NotContainsSlice(l, 0, |r|, p);
    assert StripWith(s, rt) == r;
  }

  /** A text that begins and ends with a non-space character survives
      `strip` as a prefix, whatever follows it. */
  lemma StripKeepsPrefix(p: string, q: string, rt: Runtime)
    requires p != [] && !IsSpace(p[0], rt) && !IsSpace(p[|p| - 1], rt)
    ensures StartsWith(StripWith(p + q, rt), p)
  {
    assert !AllSpace(p, rt);
    StripLeftConcat(p, q, rt);
    assert StripLeft(p, rt) == p;
    if AllSpace(q, rt) {
      StripRightConcat(p, q, rt);
      assert StripRight(p, rt) == p;
    } else {
      StripRightConcat(p, q, rt);
      StartsWithConcat(p, StripRight(q, rt));
    }
    StartsWithConcat(p, q);
    assert StripLeft(p + q, rt) == p + q;
  }

  /** Trailing whitespace after such a text is all that `strip` removes. */
  lemma StripTrailingSpace(p: string, q: string, rt: Runtime)
    requires p != [] && !IsSpace(p[0], rt) && !IsSpace(p[|p| - 1], rt)
    requires AllSpace(q, rt)
    ensures StripWith(p + q, rt) == p
  {
    assert !AllSpace(p, rt);
    StripLeftConcat(p, q, rt);
    assert StripLeft(p, rt) == p;
    StripRightConcat(p, q, rt);
    assert StripRight(p, rt) == p;
  }

  lemma StripTrailingBlank(head: string, rt: Runtime)
    requires head != [] && !IsSpace(head[0], rt) && !IsSpace(head[|head| - 1], rt)
    ensures StripWith(head + " ", rt) == head
  {
    var t: string := " ";
    assert AllSpace(t, rt);
    StripTrailingSpace(head, t, rt);
  }

  /** `f"{head} {text}".strip()` for a sentence `head` without surrounding
      whitespace: it starts with `head`, and is `head` alone for an empty text. */
  lemma StripSentence(head: string, text: string, rt: Runtime)
    requires head != [] && !IsSpace(head[0], rt) && !IsSpace(head[|head| - 1], rt)
    ensures StartsWith(StripWith(head + " " + text, rt), head)
    ensures text == "" ==> StripWith(head + " " + text, rt) == head
  {
    var t := " " + text;
    var whole := head + " " + text;
    assert whole == head + t;
    StripKeepsPrefix(head, t, rt);
    assert StripWith(whole, rt) == StripWith(head + t, rt);
    if text == "" {
      assert whole == head + " ";
      StripTrailingBlank(head, rt);
    }
  }

  // ---------------------------------------------------------------------
  // Substring search: Python `sub in s`, `s.split(sep)`.

  predicate OccursAt(s: string, p: string, j: int) {
    0 <= j && j + |p| <= |s| && s[j..j + |p|] == p
  }

  /** Index of the first occurrence of `p` in `s` (`s.find(p)`). */
  function Find(s: string, p: string): (r: Option<nat>)
    ensures r.Some? ==> OccursAt(s, p, r.value)
    ensures r.Some? ==> forall j :: 0 <= j < r.value ==> !OccursAt(s, p, j)
    ensures r.None? ==> forall j :: 0 <= j ==> !OccursAt(s, p, j)
    decreases |s|
  {
    if |s| < |p| then None
    else if s[..|p|] == p then Some(0)
    else
      match Find(s[1..], p)
      case None =>
        assert forall j :: 1 <= j ==> OccursAt(s, p, j) ==> OccursAt(s[1..], p, j - 1) by {
          forall j | 1 <= j && OccursAt(s, p, j) ensures OccursAt(s[1..], p, j - 1) {
            assert s[1..][j - 1..j - 1 + |p|] == s[j..j + |p|];
          }
        }
        None
      case Some(i) =>
        assert s[1..][i..i + |p|] == s[i + 1..i + 1 + |p|];
        assert forall j :: 1 <= j < i + 1 ==> OccursAt(s, p, j) ==> OccursAt(s[1..], p, j - 1) by {
          forall j | 1 <= j < i + 1 && OccursAt(s, p, j) ensures OccursAt(s[1..], p, j - 1) {
            assert s[1..][j - 1..j - 1 + |p|] == s[j..j + |p|];
          }
        }
        Some(i + 1)
  }

  /** Python `p in s`. */
  predicate Contains(s: string, p: string) {
    Find(s, p).Some?
  }

  /** Text placed between two others occurs in the whole. */
  lemma ContainsMiddle(a: string, p: string, b: string)
    ensures Contains(a + p + b, p)
  {
    assert (a + p + b)[|a|..|a| + |p|] == p;
    assert OccursAt(a + p + b, p, |a|);
  }

  /** The first occurrence is the one `Find` reports. */
  lemma FindFirst(s: string, p: string, k: nat)
    requires OccursAt(s, p, k)
    requires forall j :: 0 <= j < k ==> !OccursAt(s, p, j)
    ensures Find(s, p) == Some(k)
  {
  }

  /** `s.split(sep)[0]`: the text before the first `sep`, or all of `s`. */
  function Before(s: string, sep: string): (r: string)
    ensures StartsWith(s, r)
  {
    match Find(s, sep)
    case None => s
    case Some(i) => s[..i]
  }

  /** The first `sep` cut off by `Before` is the first one in `s`, so none is left. */
  lemma BeforeExcludesSep(s: string, sep: string)
    requires sep != []
    ensures !Contains(Before(s, sep), sep)
  {
    match Find(s, sep)
    case None =>
    case Some(i) =>
      assert s[..i] == s[0..i];
      SliceOccurrences(s, 0, i, sep);
  }

  /** With no `sep` starting before `m`, `Before` keeps the first `m` characters. */
  lemma BeforeKeepsPrefix(s: string, sep: string, m: nat)
    requires m <= |s|
    requires forall j :: 0 <= j < m ==> !OccursAt(s, sep, j)
    ensures m <= |Before(s, sep)| && Before(s, sep)[..m] == s[..m]
  {
  }

  /** `Before` at a known first occurrence. */
  lemma BeforeAt(s: string, sep: string, k: nat)
    requires OccursAt(s, sep, k)
    requires forall j :: 0 <= j < k ==> !OccursAt(s, sep, j)
    ensures Before(s, sep) == s[..k]
  {
    FindFirst(s, sep, k);
  }

  /** An occurrence inside a slice is an occurrence in the whole text. */
  lemma SliceOccurrences(s: string, a: nat, b: nat, p: string)
    requires a <= b <= |s|
    ensures forall j :: OccursAt(s[a..b], p, j) ==> OccursAt(s, p, a + j)
  {
    forall j | OccursAt(s[a..b], p, j) ensures OccursAt(s, p, a + j) {
      assert a + j + |p| <= b;
      forall k | 0 <= k < |p| ensures s[a + j..a + j + |p|][k] == p[k] {
        assert s[a..b][j..j + |p|][k] == s[a + j + k];
      }
    }
  }

  lemma NotContainsSlice(s: string, a: nat, b: nat, p: string)
    requires a <= b <= |s| && !Contains(s, p)
    ensures !Contains(s[a..b], p)
  {
    SliceOccurrences(s, a, b, p);
  }

  /** Two texts that agree on their first `m` characters have the same
      occurrences ending within them. */
  lemma SamePrefixOccurrences(x: string, y: string, p: string, m: nat)
    requires m <= |x| && m <= |y| && x[..m] == y[..m]
    ensures forall j :: 0 <= j && j + |p| <= m ==> (OccursAt(x, p, j) <==> OccursAt(y, p, j))
  {
    forall j | 0 <= j && j + |p| <= m ensures OccursAt(x, p, j) <==> OccursAt(y, p, j) {
      assert x[j..j + |p|] == x[..m][j..j + |p|];
      assert y[j..j + |p|] == y[..m][j..j + |p|];
    }
  }

  /** In `" " + a + " " + b`, a space-free `p` that `a` lacks cannot start
      within the first `|a| + 2` characters. */
  lemma SpacedNoEarly(a: string, b: string, p: string)
    requires p != [] && forall i :: 0 <= i < |p| ==> p[i] != ' '
    requires !Contains(a, p)
    ensures forall j :: 0 <= j < |a| + 2 ==> !OccursAt(" " + a + " " + b, p, j)
  {
    var x := " " + a + " " + b;
    assert x[0] == ' ' && x[|a| + 1] == ' ';
    forall j | 0 <= j < |a| + 2 ensures !OccursAt(x, p, j) {
      if j + |p| <= |x| {
        if j == 0 || j == |a| + 1 {
          assert x[j..j + |p|][0] == ' ';
        } else if j + |p| <= |a| + 1 {
          assert x[j..j + |p|] == a[j - 1..j - 1 + |p|];
          assert !OccursAt(a, p, j - 1);
        } else {
          assert x[j..j + |p|][|a| + 1 - j] == ' ';
        }
      }
    }
  }

  /** The text after the first `sep`; `s.split(sep)[1]` is
      `Before(After(s, sep), sep)`. */
  function After(s: string, sep: string): string
    requires Contains(s, sep)
  {
    s[Find(s, sep).value + |sep|..]
  }

  // ---------------------------------------------------------------------
  // ASCII case mapping: Python `upper()`/`lower()`.

  function UpperChar(c: char): char {
    if 'a' <= c <= 'z' then (c as int - 32) as char else c
  }

  function LowerChar(c: char): char {
    if 'A' <= c <= 'Z' then (c as int + 32) as char else c
  }

  function Upper(s: string): (r: string)
    ensures |r| == |s|
  {
    seq(|s|, i requires 0 <= i < |s| => UpperChar(s[i]))
  }

  function Lower(s: string): (r: string)
    ensures |r| == |s|
  {
    seq(|s|, i requires 0 <= i < |s| => LowerChar(s[i]))
  }

  // ---------------------------------------------------------------------
  // Decimal rendering: Python `str(n)` and JavaScript `String(n)`.

  function DigitChar(d: nat): char
    requires d < 10
  {
    ('0' as int + d) as char
  }

  function DecimalString(n: nat): (r: string)
    ensures r != [] && AllDigits(r)
  {
    if n < 10 then [DigitChar(n)] else DecimalString(n / 10) + [DigitChar(n % 10)]
  }

  /** The value of a string of decimal digits (Python `int(s)`). */
  function DecimalValue(s: string): nat
    requires AllDigits(s)
  {
    if s == [] then 0
    else DecimalValue(s[..|s| - 1]) * 10 + (s[|s| - 1] as int - '0' as int)
  }

  /** Rendering then parsing gives the number back. */
  lemma {:induction false} DecimalRoundTrip(n: nat)
    ensures DecimalValue(DecimalString(n)) == n
  {
    if n >= 10 {
      var s := DecimalString(n);
      assert s[..|s| - 1] == DecimalString(n / 10);
      DecimalRoundTrip(n / 10);
    }
  }

  /** Every number in [100000, 999999] renders as exactly six digits. */
  lemma SixDigitLength(n: nat)
    requires 100000 <= n <= 999999
    ensures |DecimalString(n)| == 6
  {
    var m1 := n / 10;
    var m2 := m1 / 10;
    var m3 := m2 / 10;
    var m4 := m3 / 10;
    var m5 := m4 / 10;
    assert 1 <= m5 < 10 && m4 >= 10 && m3 >= 10 && m2 >= 10 && m1 >= 10;
    assert |DecimalString(m5)| == 1;
    assert |DecimalString(m4)| == 2;
    assert |DecimalString(m3)| == 3;
    assert |DecimalString(m2)| == 4;
    assert |DecimalString(m1)| == 5;
  }

  /** `String(i)` for any integer. */
  function IntString(i: int): (r: string)
    ensures r != []
  {
    if i < 0 then "-" + DecimalString(-i) else DecimalString(i)
  }
}

=== FILE: twilio_otp_service.dfy ===
/** The alternative Twilio-only OTP helpers
    (backend/utils/twilio_otp_service.py). Unlike the main helpers they use
    naive UTC instants throughout, and they format the phone differently. */
module TwilioOtpService {

  import opened Common
  import opened Strings
  import S = OtpService

  /** The number handed to Twilio: a phone already starting with '+' is kept
      as it is; any other is cleaned of '+' and spaces and given "+91". */
  function TwilioFormat(phone: string): (to: string)
    ensures StartsWith(to, "+")
    ensures StartsWith(phone, "+") ==> to == phone
    ensures !StartsWith(phone, "+") ==> to == "+91" + S.Cleaned(phone)
  {
    if !StartsWith(phone, "+") then "+91" + S.Cleaned(phone) else phone
  }

  /** The phone reassignment of send_otp_via_twilio. */
  method TwilioNumber(phone: string) returns (to: string)
    ensures to == TwilioFormat(phone)
  {
    to := phone;
    if !StartsWith(to, "+") {
      to := "+91" + RemoveChar(RemoveChar(to, '+'), ' ');
    }
  }

  /** A formatted number is left alone by a second formatting. */
  lemma TwilioFormatIdempotent(phone: string)
    ensures TwilioFormat(TwilioFormat(phone)) == TwilioFormat(phone)
  {
  }

  /** On a bare national number the two helpers agree. */
  lemma AgreesOnNationalNumbers(phone: string)
    requires !StartsWith(phone, "+") && !StartsWith(S.Cleaned(phone), "91")
    ensures TwilioFormat(phone) == S.TwilioFormat(phone)
  {
  }

  /** On a clean international number with a leading '+' they do not:
      "+12025550100" goes out unchanged here, but the main helper sends it
      to "+9112025550100". */
  lemma DisagreesOnInternationalNumbers(digits: string)
    requires AllDigits(digits) && !StartsWith(digits, "91")
    ensures TwilioFormat("+" + digits) == "+" + digits
    ensures S.TwilioFormat("+" + digits) == "+91" + digits
  {
    RemoveCharConcat("+", digits, '+');
    assert RemoveChar("+", '+') == [];
    assert forall i :: 0 <= i < |digits| ==> digits[i] != '+' && digits[i] != ' ' by {
      forall i | 0 <= i < |digits| ensures digits[i] != '+' && digits[i] != ' ' {
        assert IsDigit(digits[i]);
      }
    }
    RemoveCharAbsent(digits, '+');
    RemoveCharAbsent(digits, ' ');
    assert S.Cleaned("+" + digits) == digits;
  }

  /** generate_otp is the same generator as the main helper's. */
  function GenerateOtp(draws: seq<nat>, length: int): (otp: string)
    requires |draws| == (if length < 0 then 0 else length)
    requires forall i :: 0 <= i < |draws| ==> draws[i] < 10
    ensures |otp| == |draws| && AllDigits(otp)
    ensures otp == S.GenerateOtp(draws, length)
  {
    S.GenerateOtp(draws, length)
  }

  /** get_otp_expiry: five minutes from now, as a naive UTC instant. */
  function OtpExpiry(now: int): (t: S.Timestamp)
    ensures t.Naive? && t.seconds - now == S.OTP_EXPIRY_MINUTES * 60
  {
    S.Naive(now + S.OTP_EXPIRY_MINUTES * 60)
  }

  /** is_otp_expired compares against the naive current instant; Python
      refuses to order a naive and an aware datetime, so an aware expiry
      raises a TypeError, modelled as an internal error. */
  function IsOtpExpired(now: int, expiresAt: S.Timestamp): (r: Result<bool>)
    ensures r.Ok? <==> expiresAt.Naive?
    ensures r.Ok? ==> (r.value <==> now > expiresAt.seconds)
  {
    if expiresAt.Aware? then Err(Error(INTERNAL_ERROR, "can't compare offset-naive and offset-aware datetimes"))
    else Ok(now > expiresAt.seconds)
  }

  /** This module's expiry and check fit together, and give the same
      verdict as the main helpers' pair. */
  lemma ExpiryAgrees(issued: int, now: int)
    ensures IsOtpExpired(now, OtpExpiry(issued)).Ok?
    ensures IsOtpExpired(now, OtpExpiry(issued)).value == S.IsOtpExpired(now, S.OtpExpiry(issued))
  {
  }

  /** The main helpers' aware expiry cannot be checked by this module. */
  lemma AwareExpiryRejected(issued: int, now: int)
    ensures IsOtpExpired(now, S.OtpExpiry(issued)).Err?
  {
  }
}

=== FILE: whatsapp.dfy ===
/** Booking notifications over WhatsApp (backend/utils/whatsapp_service.py):
    the address a phone number is sent to and the text of each message.
    Sending itself goes through the Twilio client and is not modelled; the
    site address (`WEBSITE_URL`) is a parameter. The decorative emoji that
    open the lines of each message are omitted from the texts; the bullets
    and the numbered keycaps inside them are kept. */
module WhatsApp {

  import opened Strings

  const WHATSAPP_SCHEME := "whatsapp:"
  const COUNTRY_CODE := "91"

  // ---------------------------------------------------------------------
  // The recipient address of send_whatsapp_message

  /** The number with '+', spaces and '-' removed. */
  function Cleaned(phone: string): (c: string)
    ensures forall i :: 0 <= i < |c| ==> c[i] != '+' && c[i] != ' ' && c[i] != '-'
    ensures forall i :: 0 <= i < |c| ==> c[i] in phone
  {
    RemoveChar(RemoveChar(RemoveChar(phone, '+'), ' '), '-')
  }

  /** The address a message is sent to: an address that already carries
      the scheme is kept; any other number is cleaned, given the country
      code when it lacks it, and prefixed with "whatsapp:+". */
  function WhatsAppFormat(phone: string): (to: string)
    ensures StartsWith(to, WHATSAPP_SCHEME)
    ensures StartsWith(phone, WHATSAPP_SCHEME) ==> to == phone
    ensures !StartsWith(phone, WHATSAPP_SCHEME) ==>
      && StartsWith(to, "whatsapp:+91")
      && (to == "whatsapp:+" + Cleaned(phone) || to == "whatsapp:+91" + Cleaned(phone))
      && (StartsWith(Cleaned(phone), COUNTRY_CODE) <==> to == "whatsapp:+" + Cleaned(phone))
  {
    if StartsWith(phone, WHATSAPP_SCHEME) then phone
    else
      var c := Cleaned(phone);
      var national := if !StartsWith(c, COUNTRY_CODE) then COUNTRY_CODE + c else c;
      assert "whatsapp:+" + national == WHATSAPP_SCHEME + ("+" + national);
      StartsWithConcat(WHATSAPP_SCHEME, "+" + national);
      assert "whatsapp:+" + (COUNTRY_CODE + c) == "whatsapp:+91" + c;
      assert StartsWith(c, COUNTRY_CODE) ==> "whatsapp:+" + c == "whatsapp:+91" + c[2..] by {
        if StartsWith(c, COUNTRY_CODE) {
          assert c == COUNTRY_CODE + c[2..];
        }
      }
      StartsWithConcat("whatsapp:+91", if StartsWith(c, COUNTRY_CODE) then c[2..] else c);
      "whatsapp:+" + national
  }

  /** The reassignments of send_whatsapp_message. */
  method WhatsAppAddress(phone: string) returns (whatsappPhone: string)
    ensures whatsappPhone == WhatsAppFormat(phone)
  {
    if !StartsWith(phone, WHATSAPP_SCHEME) {
      var cleanPhone := RemoveChar(phone, '+');
      cleanPhone := RemoveChar(cleanPhone, ' ');
      cleanPhone := RemoveChar(cleanPhone, '-');
      if !StartsWith(cleanPhone, COUNTRY_CODE) {
        cleanPhone := COUNTRY_CODE + cleanPhone;
      }
      whatsappPhone := "whatsapp:+" + cleanPhone;
    } else {
      whatsappPhone := phone;
    }
  }

  /** Formatting an address again leaves it as it is. */
  lemma WhatsAppFormatIdempotent(phone: string)
    ensures WhatsAppFormat(WhatsAppFormat(phone)) == WhatsAppFormat(phone)
  {
  }

  /** A number of digits needs no cleaning and carries no scheme. */
  lemma DigitsAreClean(digits: string)
    requires AllDigits(digits)
    ensures Cleaned(digits) == digits
    ensures !StartsWith(digits, WHATSAPP_SCHEME)
  {
    RemoveCharAbsent(digits, '+');
    RemoveCharAbsent(digits, ' ');
    RemoveCharAbsent(digits, '-');
    assert |digits| > 0 ==> IsDigit(digits[0]);
  }

  /** The address of a number of digits is the scheme, '+', the country
      code and the national number, whether or not the number already
      carried the country code. */
  lemma NationalAndInternational(national: string)
    requires AllDigits(national) && !StartsWith(national, COUNTRY_CODE)
    ensures WhatsAppFormat(national) == WhatsAppFormat(COUNTRY_CODE + national) == "whatsapp:+91" + national
  {
    var full := COUNTRY_CODE + national;
    assert AllDigits(full) by {
      forall i | 0 <= i < |full| ensures IsDigit(full[i]) {
        if i >= 2 { assert full[i] == national[i - 2]; }
      }
    }
    DigitsAreClean(national);
    DigitsAreClean(full);
    StartsWithConcat(COUNTRY_CODE, national);
  }

  // ---------------------------------------------------------------------
  // The messages

  const FOOTER := "_Reply with 'join @notify' to receive future notifications_"

  /** The triple-quoted body every message shares: a bold title, the
      lines that carry the details, and the footer. */
  function Body(title: string, before: string, field: string, after: string): string {
    "*" + title + "*\n\n" + before + field + after + "\n\n" + FOOTER
  }

  /** The text of a message: the body, which opens with a line break and
      closes with a line break and indentation, stripped. */
  function Message(body: string): string {
    Strip("\n" + body + "\n    ")
  }

  /** Stripping removes only the framing line breaks, so the field a
      message is built around shows up in it. */
  lemma MessageHolds(title: string, before: string, field: string, after: string)
    ensures Message(Body(title, before, field, after)) == Body(title, before, field, after)
    ensures Contains(Message(Body(title, before, field, after)), field)
  {
    var head := "*" + title + "*\n\n" + before;
    var tail := after + "\n\n" + FOOTER;
    var body := Body(title, before, field, after);
    assert body == head + field + tail;
    assert body[0] == '*';
    assert body[|body| - 1] == FOOTER[|FOOTER| - 1] == '_';
    var open: string := "\n";
    var close: string := "\n    ";
    assert AllSpace(open, Python) && AllSpace(close, Python);
    StripFramed(open, body, close, Python);
    ContainsMiddle(head, field, tail);
  }

  /** notify_provider_new_booking: the booking type is shown upper-cased. */
  function NewBookingMessage(site: string, customerName: string, service: string, bookingType: string, description: string): (m: string)
    ensures Contains(m, "Type: " + Upper(bookingType))
  {
    var before := "Customer: " + customerName + "\nService: " + service + "\n";
    var after := "\nDetails: " + description + "\n\nPlease check your dashboard to accept or reject:\n" + site + "/dashboard";
    MessageHolds("New Booking Request!", before, "Type: " + Upper(bookingType), after);
    Message(Body("New Booking Request!", before, "Type: " + Upper(bookingType), after))
  }

  /** notify_customer_booking_accepted: the acceptance code is in the
      message. */
  function BookingAcceptedMessage(site: string, providerName: string, service: string, acceptanceCode: string): (m: string)
    ensures Contains(m, "Acceptance Code: *" + acceptanceCode + "*")
  {
    var before := "Great news! Your booking has been accepted.\n\nProvider: " + providerName + "\nService: " + service + "\n";
    var after := "\n\nPlease verify this code when the provider arrives.\n\nCheck details on your dashboard:\n" + site + "/dashboard";
    MessageHolds("Booking Accepted!", before, "Acceptance Code: *" + acceptanceCode + "*", after);
    Message(Body("Booking Accepted!", before, "Acceptance Code: *" + acceptanceCode + "*", after))
  }

  /** notify_customer_booking_rejected: names the provider and the
      service. */
  function BookingRejectedMessage(site: string, providerName: string, service: string): (m: string)
    ensures Contains(m, "Provider: " + providerName + "\nService: " + service)
  {
    var before := "We're sorry, but your booking request was declined.\n\n";
    var after := "\n\nDon't worry! You can:\n\U{2022} Book another provider for this service\n\U{2022} Try again later\n\n"
      + "Browse providers on your dashboard:\n" + site + "/dashboard";
    MessageHolds("Booking Not Available", before, "Provider: " + providerName + "\nService: " + service, after);
    Message(Body("Booking Not Available", before, "Provider: " + providerName + "\nService: " + service, after))
  }

  /** notify_customer_work_completed: the completion code is in the
      message. */
  function WorkCompletedMessage(site: string, providerName: string, service: string, completionCode: string): (m: string)
    ensures Contains(m, "Use completion code: *" + completionCode + "*")
  {
    var before := "Provider: " + providerName + "\nService: " + service
      + "\n\nIf the work is completed to your satisfaction:\n1\U{FE0F}\U{20E3} Mark as finished on your dashboard\n2\U{FE0F}\U{20E3} Leave a review (mandatory)\n3\U{FE0F}\U{20E3} ";
    var after := "\n\n" + site + "/dashboard";
    MessageHolds("Work Finished?", before, "Use completion code: *" + completionCode + "*", after);
    Message(Body("Work Finished?", before, "Use completion code: *" + completionCode + "*", after))
  }

  /** notify_provider_booking_cancelled: the booking type is shown
      upper-cased. */
  function BookingCancelledMessage(site: string, customerName: string, service: string, bookingType: string): (m: string)
    ensures Contains(m, "Type: " + Upper(bookingType))
  {
    var before := "A booking request has been cancelled.\n\nCustomer: " + customerName + "\nService: " + service + "\n";
    var after := "\n\nThe booking is no longer active.\n\nCheck your dashboard:\n" + site + "/dashboard";
    MessageHolds("Booking Cancelled by Customer", before, "Type: " + Upper(bookingType), after);
    Message(Body("Booking Cancelled by Customer", before, "Type: " + Upper(bookingType), after))
  }

  /** notify_customer_job_cancelled: names the provider and the service. */
  function JobCancelledMessage(site: string, providerName: string, service: string): (m: string)
    ensures Contains(m, "Provider: " + providerName + "\nService: " + service)
  {
    var before := "Unfortunately, your accepted booking has been cancelled.\n\n";
    var after := "\n\nYou can:\n\U{2022} Book another provider for this service\n\U{2022} Contact support for assistance\n\n"
      + "Browse providers on your dashboard:\n" + site + "/dashboard";
    MessageHolds("Job Cancelled by Provider", before, "Provider: " + providerName + "\nService: " + service, after);
    Message(Body("Job Cancelled by Provider", before, "Provider: " + providerName + "\nService: " + service, after))
  }
}
